=== FILE: README.md ===
# WordMerge in Dafny

A model of the core of WordMerge, a Dynamics CRM plug-in library. It merges
files into a main Word document kept as a base64 annotation. For each
configured couple (file field, placeholder) it does the following:

- It downloads the file field block by block.
- It finds the first paragraph, in document order, whose inner text contains
  the placeholder.
- If that paragraph sits directly in the body, it replaces the paragraph with
  one of two things:
  - the inserted Word document's body, after copying its styles, lists
    (numbering) and images into the main document and rewriting their
    references;
  - a Word table converted from the spreadsheet's first worksheet.
- It returns an empty clone of the annotation that carries only the new
  `documentbody`, or `null` if any step fails.

The repository holds three revisions of the Word helpers, and the model keeps
them apart:

- The null-tolerant helpers in `WordMerger/Helpers/WordsMergerHelper.cs`.
- The same helpers in the earlier `WordMerger/WordsMergerHelper.cs`, which
  behave identically and are modelled once.
- The strict helpers of the console program `TestWordMerge/Program.cs`. They
  dereference every id, so they are modelled as `Strict*` functions. Lemmas
  state exactly where they agree with the tolerant ones.

The null-tolerant `CopyNumbering` leaves a fresh numbering root detached when
the main document has none, and the merge then throws. The plug-in's merge is
modelled as written, in `Merging.MergeWordParts`. `Merging.CorrectedMergeWordParts`
is the same merge with the root attached. The strict revision agrees with the
corrected merge, and `Merging.MergeAsWrittenAgrees` states where the two
tolerant merges differ (see Findings).

Modules, one per concern of the source:

| module | file | models |
|---|---|---|
| `Basics` | basics.dfy | null as `Option`, exceptions as `Result`/`Fault`, 32-bit wrap-around, `Contains`, decimal rendering, `Distinct` |
| `Couples` | couple.dfy | the `Couple` pair: comparison, equality, operators, hash, `ToString`, extensions |
| `MergeResults` | merge_result.dfy | `MergeResult.Ok` / `Fail` |
| `Logging` | logging.dfy | the action and null merge loggers |
| `Entities` | entity.dfy | CRM entities as finite maps; `Clone`, `CloneEmpty` |
| `Downloads` | download.dfy | the block download schedule and the downloader's `isExcel` |
| `Patterns` | patterns.dfy | the spreadsheet-name and placeholder patterns, the error templates |
| `Documents` | document.dfy | the word-processing tree, inner text, document order, first match, splice |
| `References` | references.dfy | `UpdateImageReferences`, `UpdateNumberingReferences` (both revisions) |
| `Styles` | styles.dfy | `CopyStyles` |
| `Images` | images.dfy | `CopyImages` |
| `Numbering` | numbering.dfy | `CopyNumbering` (as written, corrected, strict) |
| `Spreadsheets` | spreadsheet.dfy | `ConvertExcelToWordTable`, `GetCellFormat`, `GetCellStyle`, `GetCellValue` |
| `Merging` | merge.dfy | `MergeWordDocumentsBase64`, `MergeExcelDocumentsBase64`, `MergeDocumentsBase64` |
| `Handlers` | handler.dfy | the constructor, `WordDocumentsIntoWordHandle`, `ExcelDocumentsIntoWordHandle`, the console `Handle` |

Library calls that the source makes through the OOXML SDK, the CRM SDK or the
base class library become parameters of the model:

- `Merging.Codecs` holds base64 decoding and encoding, opening and saving a
  word-processing package, and opening a spreadsheet.
- `Handlers.DownloadService` holds the two CRM requests.
- `Couples` takes the default comparers, hashing and string rendering of the
  couple's parts as function parameters. Equality of the parts is Dafny's
  `==` on their values.

## Model

| member | source | states |
|---|---|---|
| Couples.NullableCompare | WordMerger/Abstract/AbstractCouple.cs:39-40 | the default comparer puts null below every value and equal to null, and otherwise defers to the element comparer |
| Couples.CompareToObject | WordMerger/Abstract/AbstractCouple.cs:25-32 | comparing with itself gives 0, with another couple gives CompareTo, and with null or a non-couple throws |
| Couples.CompareToAntisymmetric | WordMerger/Abstract/AbstractCouple.cs:34-41 | with antisymmetric part comparers, the lexicographic comparison has the opposite sign when the arguments are swapped |
| Couples.CompareZeroIffEquals | WordMerger/Abstract/AbstractCouple.cs:34-50 | with comparers that agree with equality, CompareTo is 0 exactly when Equals holds |
| Couples.EqualsObject | WordMerger/Abstract/AbstractCouple_Overrides.cs:14-22 | anything but a couple is unequal; a couple is compared componentwise |
| Couples.HashCode | WordMerger/Abstract/AbstractCouple_Overrides.cs:24-31 | the unchecked `(h(Left) * 397) ^ h(Right)`, with null hashing to 0, is always a 32-bit integer |
| Couples.EqualCouplesHashEqually | WordMerger/Abstract/AbstractCouple_Overrides.cs:24-31 | couples that are Equals have the same hash code |
| Couples.ToString | WordMerger/Abstract/AbstractCouple_Overrides.cs:12 | the text is the left part, " - ", then the right part, with null rendered as empty |
| Couples.ToStringSplitsBack | WordMerger/Abstract/AbstractCouple_Overrides.cs:12 | when the left text holds no separator, splitting the rendering at the first " - " gives back both parts |
| Couples.OpEqualsIsEquivalence | TestWordMerge/Abstract/AbstractCouple_Operators.cs:12-17 | `==` is reflexive, symmetric and transitive, null included |
| Couples.NotEqualsLaws | TestWordMerge/Abstract/AbstractCouple_Operators.cs:19-22 | `!=` is irreflexive and symmetric, and holds between null and a couple |
| Couples.LessIsConverseOfGreater | TestWordMerge/Abstract/AbstractCouple_Operators.cs:24-35 | `a < b` exactly when `b > a`, null included, for antisymmetric comparers |
| Couples.Trichotomy | TestWordMerge/Abstract/AbstractCouple_Operators.cs:12-35 | for lawful comparers exactly one of `<`, `==`, `>` holds |
| Couples.LessOrEqualIsNotGreater | TestWordMerge/Abstract/AbstractCouple_Operators.cs:37-40 | `<=` is the negation of `>` for lawful comparers |
| Couples.GreaterOrEqualIsNotLess | TestWordMerge/Abstract/AbstractCouple_Operators.cs:42-45 | `>=` is the negation of `<` for lawful comparers |
| Couples.ToPair | TestWordMerge/Abstract/AbstractCouple_Operators.cs:47-50 | the conversion to a tuple or key-value pair takes Left first and Right second, and a null couple throws |
| Couples.NewCouple | WordMerger/Abstract/AbstractCouple.cs:13-17 | construction stores both parts unchanged |
| Couples.IsEqualTo | WordMerger/Extensions/CoupleExtension.cs:10-18 | a null receiver or argument throws ArgumentNull; otherwise the result is `==` |
| Couples.LeftItems | WordMerger/Extensions/CoupleExtension.cs:20-21 | the Left of every couple, same length and order; a null couple in the list throws NullReference (in both revisions); a null list is empty in this revision and throws ArgumentNull in the console revision |
| Couples.RightItems | WordMerger/Extensions/CoupleExtension.cs:23-24 | the Right of every couple, same length and order, with the same behaviour on a null couple and a null list |
| Couples.ItemsZipToPairs | TestWordMerge/Extensions/CoupleExtension.cs:20-28 | LeftItems and RightItems succeed together, exactly when no ToPair of an entry throws, and zipped they give back each couple's pair |
| MergeResults.Make | WordMerger/Results/MergeResult.cs:13-18 | the flag and annotation are stored; the error list is copied, and null becomes empty |
| MergeResults.MakeOk | WordMerger/Results/MergeResult.cs:20 | success, the annotation as given, no errors |
| MergeResults.MakeFail | WordMerger/Results/MergeResult.cs:21 | failure, no annotation, the errors in order (null as empty) |
| MergeResults.OkAndFailAreDistinct | WordMerger/Results/MergeResult.cs:20-21 | no Ok result equals a Fail result, and a failure with no errors is still a failure |
| Logging.LogLine | WordMerger/Logging/ActionMergeLogger.cs:15-18 | the line is the severity name in brackets, a space and the message, at those exact positions |
| Logging.LogLineRoundTrip | WordMerger/Logging/ActionMergeLogger.cs:15-18 | the severity and message can be read back from any log line |
| Logging.NewActionLogger | WordMerger/Logging/ActionMergeLogger.cs:13 | a null action becomes a logger that forwards nothing |
| Logging.Log | WordMerger/Logging/ActionMergeLogger.cs:15-18 | the forwarding logger emits exactly one line, which parses back to the severity and message; the null logger and a null action emit nothing |
| Logging.LogError | WordMerger/Logging/ActionMergeLogger.cs:20-24 | the message is appended after the unchanged earlier errors and logged as Error; a null list throws for the action logger and is skipped by the null logger |
| Logging.ErrorsAccumulateInOrder | WordMerger/Logging/NullMergeLogger.cs:11-14 | logging errors one after another leaves the old errors followed by the messages in order |
| Entities.SetAttribute | WordMerger/WordsDocumentMergerHandler.cs:163 | the indexer sets the key, keeps every other attribute, and keeps the name and id |
| Entities.GetAttributeString | WordMerger/WordsDocumentMergerHandler.cs:136 | a missing key reads as null, a value of another type throws InvalidCast, and a string reads as itself |
| Entities.SetThenGetString | WordMerger/WordsDocumentMergerHandler.cs:162-163 | a string written through the indexer reads back unchanged |
| Entities.Clone | WordMerger/Extensions/EntityExtension.cs:7-17 | the copy has the same name, id and attribute map (the loop keeps the copied part equal to the source) |
| Entities.CloneEmpty | WordMerger/Extensions/EntityExtension.cs:19-25 | same name and id, no attributes |
| Entities.CloneEmptyThenSet | WordMerger/WordsDocumentMergerHandler.cs:162-165 | the output annotation carries exactly the one attribute that was set, and it reads back when it is a string |
| Downloads.BlockSize | WordMerger/Helpers/FileDownloader.cs:41-45 | the block never exceeds the file size, and with chunking it is positive and at most 4 MiB |
| Downloads.StepIsPositive | WordMerger/Helpers/FileDownloader.cs:60 | the amount subtracted per block, after its cast to int, is positive whenever the loop runs and terminates |
| Downloads.CastStepVanishes | WordMerger/Helpers/FileDownloader.cs:60 | on a positive multiple of 2^32 without chunking, the capacity cast succeeds but the step is 0, so the remaining size never decreases |
| Downloads.LoopingExample | WordMerger/Helpers/FileDownloader.cs:41-62 | a 4 GiB file served without chunking is such an input |
| Downloads.IntendedStep | WordMerger/Helpers/FileDownloader.cs:60 | the step without the cast is positive for every positive size and equals the cast step whenever the block fits in an int |
| Downloads.IntendedRequestsCoverFile | WordMerger/Helpers/FileDownloader.cs:41-62 | with that step every positive size is covered by just enough consecutive blocks, and without chunking by one request |
| Downloads.IntendedDownloadAgrees | WordMerger/Helpers/FileDownloader.cs:41-62 | where the block fits in an int, the code as written terminates and downloads the same bytes as the intended loop |
| Downloads.Requests | WordMerger/Helpers/FileDownloader.cs:47-62 | there are no requests exactly when nothing remains |
| Downloads.DownloadBlocks | WordMerger/Helpers/FileDownloader.cs:47-62 | the loop returns the concatenated blocks of the schedule, or null when a block fails |
| Downloads.DownloadFile | WordMerger/Helpers/FileDownloader.cs:19-71 | `isExcel` holds exactly when the initial response named a file matching the spreadsheet pattern and the capacity was valid; bytes come only with a file name |
| Downloads.DownloadRevisionsAgree | WordMerger/WordsDocumentMergerHandler.cs:299-347 | the handlers' inline download and the downloader fetch the same bytes, except that the downloader fails on a null file name |
| Downloads.RequestsAreConsecutiveBlocks | WordMerger/Helpers/FileDownloader.cs:49-61 | the k-th request starts k blocks in and asks for one block |
| Downloads.RequestCount | WordMerger/Helpers/FileDownloader.cs:47-62 | the number of requests is the smallest count of steps that uses up the size |
| Downloads.WholeFileInOneRequest | WordMerger/Helpers/FileDownloader.cs:41-45 | without chunking a file of at most 2^31 − 1 bytes takes one request, at offset 0, for the whole file |
| Downloads.OversizedFileRequestedPastEnd | WordMerger/Helpers/FileDownloader.cs:41-61 | without chunking, a file above 2^31 − 1 bytes whose capacity cast passes and that is not a multiple of 2^32 has a cast step smaller than the file, so the whole-file request at offset 0 is followed by another whole-file request at the file's end |
| Downloads.ChunkedRequestsCoverFile | WordMerger/Helpers/FileDownloader.cs:41-62 | with chunking the requests are the consecutive blocks 0, b, 2b, ..., as many as needed to cover the file |
| Downloads.EmptyFileDownloadsNothing | WordMerger/Helpers/FileDownloader.cs:47-64 | a file of size 0 takes no request and yields no bytes |
| Downloads.NegativeSizeFails | WordMerger/Helpers/FileDownloader.cs:36 | a size whose `(int)` cast is negative throws at the capacity cast, before isExcel is set |
| Downloads.NonPositiveSizeDownloadsNothing | WordMerger/Helpers/FileDownloader.cs:36-64 | a non-positive size whose cast is not negative (−2^32, say) passes the capacity cast, requests no block and downloads no bytes |
| Downloads.FetchAllConcatenates | WordMerger/Helpers/FileDownloader.cs:59-64 | when every block arrives, the result is the blocks concatenated in request order |
| Downloads.FetchAllFailsOnAnyBlock | WordMerger/Helpers/FileDownloader.cs:56-70 | the download fails exactly when some block fails |
| Patterns.IsSpreadsheetFileName | WordMerger/Constant/Const.cs:5 | the last-dot scan decides the case-insensitive spreadsheet pattern exactly |
| Patterns.PlainNameAccepted | WordMerger/Constant/Const.cs:5 | "report.xlsx" is a spreadsheet name |
| Patterns.DottedUpperCaseNameAccepted | WordMerger/Constant/Const.cs:5 | dots inside the stem and upper-case extensions are allowed ("a.b.XLSM") |
| Patterns.NameWithFinalNewlineAccepted | WordMerger/Constant/Const.cs:5 | `$` matches before one final newline ("a.xlsx\n") |
| Patterns.NameWithoutStemRejected | WordMerger/Constant/Const.cs:5 | an empty stem (".xlsx") does not match |
| Patterns.NameWithOtherExtensionRejected | WordMerger/Constant/Const.cs:5 | "a.docx" does not match |
| Patterns.NameWithSeparatorRejected | WordMerger/Constant/Const.cs:5 | a stem with a forbidden character ("a/b.xls") does not match |
| Patterns.NameWithTrailingExtensionRejected | WordMerger/Constant/Const.cs:5 | "a.xlsx.bak" does not match |
| Patterns.MatchAtIsToken | WordMerger/Constant/Const.cs:6 | the engine's match at a position (maximal run, no backtracking) exists exactly when some placeholder token starts there |
| Patterns.MatchAtGivesToken | WordMerger/Constant/Const.cs:6 | a match at a position delimits a placeholder token |
| Patterns.TokenGivesMatchAt | WordMerger/Constant/Const.cs:6 | any placeholder token starting at a position makes the engine match there |
| Patterns.FindPlaceholder | WordMerger/Constant/Const.cs:6 | the scan finds a placeholder exactly when the text contains one, and reports the leftmost start |
| Patterns.PlaceholderExamples | WordMerger/Constant/Const.cs:6 | "<<CONTENT>>" and "<<FIELD_1>>" are tokens; lower case and an empty name are not |
| Patterns.FormatOneSlot | WordMerger/Constant/Const.cs:26-31 | a brace-free template with one `{0}` formats to its text with the argument in the slot |
| Patterns.TemplatesAreBraceFree | WordMerger/Constant/Const.cs:25-31 | the fixed texts of every per-field error template are free of braces |
| Patterns.PerFieldTemplatesHaveOneSlot | WordMerger/Constant/Const.cs:25-31 | each per-field template has exactly one slot and formats with the argument in it |
| Patterns.FormattedMessageNamesArgument | WordMerger/Constant/Const.cs:26-31 | a formatted message contains the field name it was given |
| Documents.ParagraphOfOneRun | WordMerger/Helpers/WordsMergerHelper.cs:211-225 | a paragraph holding one run with one text element has that text as its inner text |
| Documents.ParagraphOfRuns | WordMerger/WordsDocumentMergerHandler.cs:258 | the inner text the placeholder search reads from a paragraph of runs is the runs' texts joined in order |
| Documents.Locate | WordMerger/WordsDocumentMergerHandler.cs:256-260 | the result is not-found exactly when no body child's subtree holds a match; otherwise it names the first such child and says whether it matches itself (parent is the body) or only inside it |
| Documents.LocateIsFirstInDocumentOrder | WordMerger/WordsDocumentMergerHandler.cs:256-258 | what Locate reports is `Descendants<Paragraph>().FirstOrDefault(...)`: no match in document order, the top-level paragraph that is the first match, or a nested first match |
| Documents.NestedIsFirst | WordMerger/WordsDocumentMergerHandler.cs:256-260 | when the first matching child matches only inside, the first match in document order lies strictly inside its subtree, so its parent is not the body |
| Documents.Splice | WordMerger/WordsDocumentMergerHandler.cs:262-271 | the prefix and suffix around the removed element are kept, and the replacement sits in between, in order |
| Documents.SpliceExchangesOneElement | WordMerger/WordsDocumentMergerHandler.cs:262-271 | only the placeholder leaves and only the inserted elements enter, as multisets |
| Documents.SpliceBackRestores | WordMerger/WordsDocumentMergerHandler.cs:200-206 | splicing the removed element back in restores the body |
| References.Remap | WordMerger/Helpers/WordsMergerHelper.cs:142-146 | a present, mapped id is replaced by its new id and an absent or unmapped one is kept; the same lookup serves the numbering ids at lines 156-159 |
| References.UpdateImageReferencesSpec | WordMerger/Helpers/WordsMergerHelper.cs:136-149 | only blip embeds change; each blip's embed is looked up once per enclosing drawing, in document order |
| References.UnmappedEmbedUnchanged | WordMerger/Helpers/WordsMergerHelper.cs:138-146 | blips outside every drawing, and absent or unmapped embeds, keep their value |
| References.NestedLookupIsSingle | WordMerger/Helpers/WordsMergerHelper.cs:138-140 | when no new id is an old id, a blip under nested drawings is remapped as if looked up once |
| References.FirstIdChild | WordMerger/Helpers/WordsMergerHelper.cs:155 | `numPr.NumberingId` is the first numbering-id child, and there is none when no child has that kind |
| References.UpdateNumberingReferencesSpec | WordMerger/Helpers/WordsMergerHelper.cs:151-161 | only numbering ids change, and each reference is looked up once, in document order |
| References.StrictUpdateAgrees | TestWordMerge/Program.cs:198-208 | the strict revision throws exactly when a numbering id element has no value, and otherwise equals the tolerant one |
| References.UpdateImageReferencesKeepsNumbering | WordMerger/WordsDocumentMergerHandler.cs:269-270 | patching images first leaves every numbering reference for the numbering patch |
| Styles.FirstWithId | WordMerger/Helpers/WordsMergerHelper.cs:51 | the first style with the id, or none when no style has it |
| Styles.RemoveFirstWithId | WordMerger/Helpers/WordsMergerHelper.cs:51-52 | removes only the first namesake and keeps the rest in order; without a namesake it changes nothing |
| Styles.CopyStyles | WordMerger/Helpers/WordsMergerHelper.cs:36-67 | no inserted style part leaves the styles and theme as they were (a missing main part is still added); otherwise there is a style root, and the theme is replaced exactly when the insert has one |
| Styles.StrictCopyStylesAgrees | TestWordMerge/Program.cs:78-112 | the strict revision throws only on an inserted style part without a root, and otherwise equals the tolerant one |
| Styles.MergeKeepsUnlisted | WordMerger/Helpers/WordsMergerHelper.cs:49-54 | main styles whose ids are never inserted keep their relative order |
| Styles.MergeOfDistinctInserted | WordMerger/Helpers/WordsMergerHelper.cs:49-54 | with distinct inserted ids, the result is the surviving main styles followed by the inserted ones in order |
| Styles.MergeKeepsIdsDistinct | WordMerger/Helpers/WordsMergerHelper.cs:49-54 | two catalogues without duplicate ids merge into one without duplicates whose ids are the union |
| Styles.CopyStylesSpec | WordMerger/Helpers/WordsMergerHelper.cs:36-67 | with both style roots present, the merged catalogue keeps the unlisted main styles, ends with the inserted ones, and holds no duplicate id |
| Images.FreshRelId | WordMerger/Helpers/WordsMergerHelper.cs:125 | the package gives a new image part an id not yet in use |
| Images.CopyImages | WordMerger/Helpers/WordsMergerHelper.cs:117-134 | one added part per inserted image part |
| Images.CopiesAreFaithfulAndFresh | WordMerger/Helpers/WordsMergerHelper.cs:121-131 | the k-th added part has the k-th inserted part's content type and data, under an id new to the main part and to every other copy |
| Images.ImageMapKeys | WordMerger/Helpers/WordsMergerHelper.cs:131 | the map's keys are exactly the inserted parts' old ids, so it is no larger than the number of images |
| Images.ImageMapPointsToCopies | WordMerger/Helpers/WordsMergerHelper.cs:119-133 | each old id maps to the new id of the last inserted part that had it |
| Numbering.MaxOr0 | WordMerger/Helpers/WordsMergerHelper.cs:79-84 | `DefaultIfEmpty(0).Max()`: an upper bound attained by some element, or 0 for no elements |
| Numbering.AbstractIds | WordMerger/Helpers/WordsMergerHelper.cs:81 | a missing abstract id counts as 0 |
| Numbering.InstanceIds | WordMerger/Helpers/WordsMergerHelper.cs:84 | a missing instance id counts as 0 |
| Numbering.CountUpIsOffsets | WordMerger/Helpers/WordsMergerHelper.cs:89-100 | the k-th allocated id is the start plus k + 1, wrapped to 32 bits |
| Numbering.CountUpWithoutOverflow | WordMerger/Helpers/WordsMergerHelper.cs:89-100 | without overflow the ids are max+1, max+2, ... |
| Numbering.BuildMapKeys | WordMerger/Helpers/WordsMergerHelper.cs:94 | the map's keys are exactly the old ids |
| Numbering.BuildMapValues | WordMerger/Helpers/WordsMergerHelper.cs:110 | each old id maps to the new id of its last namesake |
| Numbering.AllocateIds | WordMerger/Helpers/WordsMergerHelper.cs:86-111 | the loop allocates the counted-up ids and the last-namesake-wins map |
| Numbering.AbstractCopies | WordMerger/Helpers/WordsMergerHelper.cs:86-95 | one clone per inserted abstract numbering, with the same levels and its allocated id |
| Numbering.InstanceCopies | WordMerger/Helpers/WordsMergerHelper.cs:97-111 | one clone per inserted instance, with its allocated id |
| Numbering.CopyInstances | WordMerger/Helpers/WordsMergerHelper.cs:102-107 | each clone takes its new id, and only a mapped abstract reference is rewritten (a valueless one is looked up as -1) |
| Numbering.CopyNumbering | WordMerger/Helpers/WordsMergerHelper.cs:69-115 | no inserted part gives an empty map and no change; an inserted part without a root throws; otherwise the main part ends up with a root that starts with the old children and grows by one child per inserted element |
| Numbering.AsWrittenFailsWithoutMainRoot | WordMerger/Helpers/WordsMergerHelper.cs:74-113 | the code as written throws exactly where the corrected copy would have had to create the main root, and agrees elsewhere |
| Numbering.AsWrittenCounterexample | WordMerger/Helpers/WordsMergerHelper.cs:76 | a main document without lists plus an inserted one-list document throws as written and merges when corrected |
| Numbering.StrictCopyNumberingAgrees | TestWordMerge/Program.cs:115-162 | the strict revision throws exactly when an inserted id or abstract reference is missing, and otherwise equals the corrected copy |
| Numbering.RenumberedChildren | WordMerger/Helpers/WordsMergerHelper.cs:93-109 | the copies are appended after the main root's children, abstract numberings before instances |
| Numbering.CountedIdsAreFresh | WordMerger/Helpers/WordsMergerHelper.cs:79-100 | without overflow the counted-up ids are distinct and above every id in use |
| Numbering.AbstractCopiesAreFresh | WordMerger/Helpers/WordsMergerHelper.cs:79-95 | without overflow the copied abstract ids are pairwise distinct and above every main abstract id |
| Numbering.InstanceCopiesAreFresh | WordMerger/Helpers/WordsMergerHelper.cs:83-111 | without overflow the copied instance ids are pairwise distinct and above every main instance id |
| Numbering.NumMapPointsToCopies | WordMerger/Helpers/WordsMergerHelper.cs:97-111 | the returned map's keys are the old instance ids, each sent to the copy of its last namesake |
| Numbering.CopiedInstancesFollowTheirAbstracts | WordMerger/Helpers/WordsMergerHelper.cs:105-107 | a copied instance points at the copy of its abstract numbering when that one was copied, and keeps its reference otherwise |
| Numbering.CopyNumberingSpec | WordMerger/Helpers/WordsMergerHelper.cs:69-115 | with an inserted root, the result lists the main elements followed by the copies, and the map sends every old instance id to its copy's id |
| Spreadsheets.ElementAt | WordMerger/Helpers/WordsMergerHelper.cs:241 | `ElementAt` succeeds exactly in range and returns that element |
| Spreadsheets.ParseInt | WordMerger/Helpers/WordsMergerHelper.cs:289 | a parsed value is a 32-bit integer; text that is not a signed run of digits inside white space throws Format, and only a well-formed number outside the int32 range throws Overflow |
| Spreadsheets.ParseIntOverflows | WordMerger/Helpers/WordsMergerHelper.cs:289 | the rendering of any integer outside the int32 range throws Overflow, as `int.Parse` does |
| Spreadsheets.ParseIntFormatFaults | WordMerger/Helpers/WordsMergerHelper.cs:289 | empty text, a lone sign and digits with a space between them throw Format |
| Spreadsheets.ParseIntReadsRendering | WordMerger/Helpers/WordsMergerHelper.cs:289 | the rendering of any integer parses to it inside the int32 range and overflows outside it |
| Spreadsheets.ParseIntRoundTrip | WordMerger/Helpers/WordsMergerHelper.cs:289 | parsing the decimal rendering of any 32-bit integer gives it back |
| Spreadsheets.GetCellValue | WordMerger/Helpers/WordsMergerHelper.cs:279-290 | no value reads as "", a value of any type but shared string reads as itself |
| Spreadsheets.SharedStringCellReadsEntry | WordMerger/Helpers/WordsMergerHelper.cs:288-289 | a shared-string cell holding an index reads as that entry of the table |
| Spreadsheets.GetCellFormat | WordMerger/Helpers/WordsMergerHelper.cs:235-242 | no style index or no style sheet gives no format; a format found is the one at the style index |
| Spreadsheets.StripAlpha | WordMerger/Helpers/WordsMergerHelper.cs:260 | an absent colour stays absent |
| Spreadsheets.StripAlphaRoundTrip | WordMerger/Helpers/WordsMergerHelper.cs:260 | dropping the alpha byte gives back the RGB part of any alpha-prefixed colour |
| Spreadsheets.GetCellStyle | WordMerger/Helpers/WordsMergerHelper.cs:245-277 | no format or style sheet gives the empty style; the fill and the font are each read only when the format names them and the sheet lists them |
| Spreadsheets.CellStyleReadsFill | WordMerger/Helpers/WordsMergerHelper.cs:255-263 | the background is the fill's foreground colour if the pattern has one, else its background colour, with the alpha byte dropped; neither gives none |
| Spreadsheets.CellStyleReadsFont | WordMerger/Helpers/WordsMergerHelper.cs:266-274 | name, size, bold and italic are the listed font's, and its colour loses the alpha byte |
| Spreadsheets.CellStyleFailsOutsideLists | WordMerger/Helpers/WordsMergerHelper.cs:257-268 | a fill or font index outside its list throws |
| Spreadsheets.CellStyleExample | WordMerger/Helpers/WordsMergerHelper.cs:245-277 | a pattern with both colours shows the foreground one, and "FFAABBCC" becomes "AABBCC" |
| Spreadsheets.CellNodeText | WordMerger/Helpers/WordsMergerHelper.cs:211-225 | a converted cell's inner text is the cell's value; properties and shading add no text |
| Spreadsheets.RunPropertiesOrdered | WordMerger/Helpers/WordsMergerHelper.cs:199-209 | the run properties are childless elements of five kinds in the order fonts, size, bold, italic, colour, so each kind appears at most once |
| Spreadsheets.RunPropertiesReflectEmphasis | WordMerger/Helpers/WordsMergerHelper.cs:204-207 | bold and italic appear exactly when the style has them |
| Spreadsheets.RunPropertiesReflectFontName | WordMerger/Helpers/WordsMergerHelper.cs:200-201 | the fonts appear exactly when the name is non-empty, for both character ranges |
| Spreadsheets.RunPropertiesReflectFontSize | WordMerger/Helpers/WordsMergerHelper.cs:202-203 | a size appears exactly when it is positive, doubled into half points |
| Spreadsheets.RunPropertiesReflectFontColor | WordMerger/Helpers/WordsMergerHelper.cs:208-209 | a colour appears exactly when the style has a non-empty one |
| Spreadsheets.ConvertCells | WordMerger/Helpers/WordsMergerHelper.cs:190-227 | a converted row has one cell per spreadsheet cell |
| Spreadsheets.ConvertRows | WordMerger/Helpers/WordsMergerHelper.cs:187-229 | a converted table has one row per spreadsheet row |
| Spreadsheets.ConvertCellsPointwise | WordMerger/Helpers/WordsMergerHelper.cs:190-227 | a row converts exactly when each of its cells does, and then holds the converted cells in order |
| Spreadsheets.ConvertRowsPointwise | WordMerger/Helpers/WordsMergerHelper.cs:187-229 | the rows convert exactly when each row does, and the result holds them in order |
| Spreadsheets.RowMirrorsCells | WordMerger/Helpers/WordsMergerHelper.cs:190-227 | a converted row has one table cell per spreadsheet cell, and each table cell's text is that cell's value |
| Spreadsheets.TableMirrorsSheet | WordMerger/Helpers/WordsMergerHelper.cs:172-230 | the table is the six single size-4 borders, then one row per sheet row and one cell per cell, each cell's text being the cell's value |
| Spreadsheets.ConversionFailsOnlyOnABadCell | WordMerger/Helpers/WordsMergerHelper.cs:168-230 | once the first sheet is reached, the conversion fails exactly when one of its cells does |
| Merging.FindPlaceholder | WordMerger/WordsDocumentMergerHandler.cs:256-260 | an index is found exactly when the placeholder is given and its first match is a paragraph of the body itself; that paragraph matches |
| Merging.PlaceholderIsFirstMatch | WordMerger/WordsDocumentMergerHandler.cs:256-260 | the chosen paragraph is the first match in document order |
| Merging.ImportElements | WordMerger/WordsDocumentMergerHandler.cs:266-271 | each inserted element is imported in order |
| Merging.ImportKeepsSkeleton | WordMerger/WordsDocumentMergerHandler.cs:268-270 | an imported element differs from the original only in remapped image and numbering references |
| Merging.TolerantBody | WordMerger/WordsDocumentMergerHandler.cs:253-254 | reading a body throws exactly on a null `Document`; a missing body reads as empty |
| Merging.MergeWordParts | WordMerger/WordsDocumentMergerHandler.cs:246-280 | the merge as written keeps the main part's other relationships and its image parts (new ones are only appended), and always leaves a body |
| Merging.CorrectedMergeWordParts | WordMerger/Helpers/WordsMergerHelper.cs:74-76 | the same merge with the numbering root attached keeps the same relationships and images and leaves a body |
| Merging.MergeAsWrittenAgrees | WordMerger/Helpers/WordsMergerHelper.cs:74-113 | the two merges are equal unless the inserted document has a numbering root and the main one has none, where the merge as written throws |
| Merging.MergeAsWrittenCounterexample | WordMerger/Helpers/WordsMergerHelper.cs:76-113 | a main document with only the placeholder paragraph and an inserted one with an empty numbering root: as written it throws, corrected it merges |
| Merging.WordMergeSplicesBody | WordMerger/WordsDocumentMergerHandler.cs:249-272 | on success the body keeps everything around the placeholder, which is replaced by the imported inserted elements in order, each differing only in references; the styles are the merged catalogue, the numbering the renumbered root and the images the main ones followed by the copies |
| Merging.WordMergeFailures | WordMerger/WordsDocumentMergerHandler.cs:249-277 | the merge as written fails exactly when the inserted numbering part has no root, the inserted document has a numbering root but the main one has none, a `Document` is null, or the placeholder is not a paragraph of the body |
| Merging.CorrectedMergeFailures | WordMerger/WordsDocumentMergerHandler.cs:249-277 | the corrected merge fails exactly on a rootless inserted numbering part, a null `Document`, or a placeholder outside the body |
| Merging.MergeWordDocumentsBase64 | WordMerger/WordsDocumentMergerHandler.cs:232-291 | a null main or inserted document gives null |
| Merging.Base64MergeIsSavedMerge | WordMerger/WordsDocumentMergerHandler.cs:232-291 | on opened packages the result is the saved merge, or null when the merge throws, including when only the inserted document has a numbering root |
| Merging.MergeTablePart | WordMerger/WordsDocumentMergerHandler.cs:191-213 | only the body changes |
| Merging.TableMergeSplicesBody | WordMerger/WordsDocumentMergerHandler.cs:200-207 | on success the placeholder paragraph is replaced by the one table |
| Merging.MergeExcelDocumentsBase64 | WordMerger/WordsDocumentMergerHandler.cs:178-223 | a null main document gives null |
| Merging.TableBase64MergeIsSavedMerge | WordMerger/WordsDocumentMergerHandler.cs:178-223 | the result is non-null exactly when the package opens with a main part and MergeTablePart succeeds, and then it is the saved merge |
| Merging.StrictImportAgrees | TestWordMerge/Program.cs:56-65 | without valueless numbering ids, the strict import equals the tolerant one |
| Merging.MergeDocumentsBase64 | TestWordMerge/Program.cs:20-76 | a result requires both inputs to decode; the main input is checked and decoded first, so a null or non-base64 main input throws ArgumentNull or Format whatever the inserted input is, and only then a null or non-base64 inserted input throws |
| Merging.StrictMergeAgrees | TestWordMerge/Program.cs:31-73 | on documents where every dereferenced part is present, the strict merge equals the corrected tolerant one |
| Merging.StrictResultIsEncodedMerge | TestWordMerge/Program.cs:20-76 | the result is the base64 text of the saved merge, and it throws exactly when the merge fails |
| Handlers.NewHandler | WordMerger/WordsDocumentMergerHandler.cs:29-41 | the handler is built exactly when service, source, annotation and configuration are all present, and otherwise throws ArgumentNull |
| Handlers.FieldNames | WordMerger/WordsDocumentMergerHandler.cs:119-120 | the field names in configuration order; a null couple throws |
| Handlers.Downloaded | WordMerger/WordsDocumentMergerHandler.cs:122-126 | no file is lost exactly when every download succeeds, and then each field is paired with its file in order |
| Handlers.ToDictionaryDefined | WordMerger/WordsDocumentMergerHandler.cs:127-128 | the dictionary is built exactly when every key is present and no key repeats |
| Handlers.ToDictionaryContents | WordMerger/WordsDocumentMergerHandler.cs:127-128 | a built dictionary has one entry per pair, holds each pair and nothing else |
| Handlers.CollectFilesSpec | WordMerger/WordsDocumentMergerHandler.cs:119-134 | the handler passes the gate exactly when every field name is present, distinct and downloads; each field then maps to its file |
| Handlers.CollectedFieldsAreIn | WordMerger/WordsDocumentMergerHandler.cs:130-143 | after the gate every configured field is a key of the dictionary |
| Handlers.WordFoldFromNull | WordMerger/WordsDocumentMergerHandler.cs:138-157 | once a merge has returned null, the later merges run and the result stays null |
| Handlers.WordFoldIsChain | WordMerger/WordsDocumentMergerHandler.cs:138-157 | the `TrueForAll` loop applies the merges in configuration order to the running document |
| Handlers.WordHandleSpec | WordMerger/WordsDocumentMergerHandler.cs:113-176 | an annotation is returned exactly when all files arrive, the main body decodes and every merge succeeds; it keeps name and id and carries only the base64 of the final document |
| Handlers.ExcelFoldChecksConversions | WordMerger/WordsDocumentMergerHandler.cs:68-88 | the loop's check holds exactly when every configured file converts to a table |
| Handlers.ExcelFoldFromNull | WordMerger/WordsDocumentMergerHandler.cs:68-88 | a null main document stays null through the remaining merges |
| Handlers.ExcelFoldIsChain | WordMerger/WordsDocumentMergerHandler.cs:68-88 | when every file converts, the loop applies the table merges in configuration order |
| Handlers.ExcelHandleSpec | WordMerger/WordsDocumentMergerHandler.cs:43-107 | an annotation is returned exactly when all files arrive and convert, the main body decodes and every merge succeeds; only documentbody is set |
| Handlers.Handle | TestWordMerge/WordsDocumentMergerHandler.cs:38-74 | the console handler returns null on every path |

## Left out

- OOXML packaging is modelled by the functions in `Merging.Codecs`: opening, saving and streaming packages, the ZIP container, part creation and `FeedData`. Base64 (`Convert.FromBase64String` / `ToBase64String`) is also one of them.
- The CRM requests `InitializeFileBlocksDownload` and `DownloadBlock` are function parameters of the model, and `OrganizationServiceExtension` is omitted because it is only a cast.
- The logger's action is not modelled; only the lines handed to it are.
- Logger wiring is not modelled: `MergeLoggerFactory`, the `BaseAbstractHandler` default, and the log messages of the handlers and the downloader.
- Reflection-based conversions are not modelled: `Activator.CreateInstance` at TestWordMerge/Abstract/AbstractCouple_Operators.cs:52-57 and 64-68.
- Interfaces and thin subclasses are not modelled: `ICouple`, `IMergeLogger`, `IFileDownloader`, and the constructor-only `Couple`.
- `Program.Main`, `ReadFileAsBase64` and `WriteBase64ToFile` are left out because they are disk I/O.
- `MergeConfiguredFiles`, `FileDocumentsIntoWordHandle`, a six-argument constructor, and case-insensitive or run-level matching are left out: only the unit tests (UnitTestWordMerge/) call them, and neither `WordMerger/WordsDocumentMergerHandler.cs` nor `TestWordMerge/WordsDocumentMergerHandler.cs` defines them.
- Spreadsheets.GetCellStyle: takes the font size as an integer, because the truncation of the double `FontSize.Val` to `int` is floating point.
- Spreadsheets.StripAlpha: the ensures only pins the absent case; `StripAlphaRoundTrip` states the present case.
- Merging.MergeExcelDocumentsBase64: the source copies the stream (`mainStream.ToArray()`) inside the `using` of the open package, before disposal flushes it. The model returns the saved document as if the package had been flushed.
- Styles.CopyStyles: `s.StyleId == style.StyleId` compares two `StringValue` objects, and the model compares their values.
- Images.FreshRelId: the relationship id the package assigns is chosen by a fresh-name generator, not by the SDK's numbering scheme. Freshness is stated against the main part's image and other relationships only. The style, theme and numbering parts that the same merge may add are not in the model's main part, so their ids are not counted.
- Downloads.DownloadFile: excludes, by precondition, sizes on which the source's loop never ends. These are positive multiples of 2^32 without chunking, where `(int)` of the block is 0 (see Findings; `Downloads.IntendedDownloadBytes` is the loop without that defect).
- Downloads.DownloadBytes: carries the same precondition.
- Handlers.Terminates: requires the download service to avoid sizes on which the source's loop never ends.
- Numbering.AbstractCopiesAreFresh: proves freshness only while no id overflows 32 bits; past that the ids wrap around (`CountUpIsOffsets` states the wrap).
- Numbering.InstanceCopiesAreFresh: proves freshness only while no id overflows 32 bits.
- Merging.MergeWordDocumentsBase64: the ensures state only the null cases; `WordMergeSplicesBody` and `WordMergeFailures` state the merge itself.
- Merging.MergeDocumentsBase64: the ensures state the decoding failures, in the order the source meets them; `StrictResultIsEncodedMerge` states the merged result.
- Couples.LeftItems: models the projection enumerated to the end. A caller that stops enumerating before a null couple would see the items before it and no exception.
- Couples.RightItems: the same as LeftItems.

## Findings

| source | as written | input that shows it | evidently intended | confidence | as-written member | corrected member |
|---|---|---|---|---|---|---|
| WordMerger/Helpers/WordsMergerHelper.cs:76 | when the main numbering part has no root, a fresh `Numbering` is created but never attached, so `mainPart?.Numbering.Save()` at line 113 throws a null reference | a main document without a numbering part (the part then added has no root), merged with an inserted document that has one abstract numbering and one instance | attach the fresh root to the part before allocating ids, as TestWordMerge/Program.cs:120-122 does | not executed | Numbering.CopyNumberingAsWritten (exhibited by Numbering.AsWrittenCounterexample), used by Merging.MergeWordParts (exhibited by Merging.MergeAsWrittenCounterexample) | Numbering.CopyNumbering, used by Merging.CorrectedMergeWordParts |
| WordMerger/Helpers/FileDownloader.cs:60 | `fileSizeInBytes -= (int)blockSizeDownload` truncates the 64-bit block length to 32 bits; WordMerger/WordsDocumentMergerHandler.cs:336 does the same | a service that reports 2^32 bytes without chunking and answers every block request, for instance with empty data: the step is 0 and the loop never ends; a size above 2^32 that is not a multiple of it gives a positive step smaller than the file, so whole-file requests are repeated past the file's end | subtract the block length as a 64-bit value | not executed | Downloads.Step (exhibited by Downloads.CastStepVanishes, Downloads.LoopingExample and Downloads.OversizedFileRequestedPastEnd) | Downloads.IntendedStep (proved by Downloads.IntendedRequestsCoverFile) |

=== FILE: basics.dfy ===
/** Shared vocabulary: optional values (the source's `null`), results with an
    error reason (the source's exceptions), bytes, 32-bit integers and the few
    string operations the merger uses. */
module Basics {

  /** A value that may be absent; `None` stands for a .NET `null`. */
  datatype Option<+T> = None | Some(value: T) {
    function GetOr(default: T): T {
      match this
      case Some(v) => v
      case None => default
    }
  }

  /** Why an operation of the source would throw. */
  datatype Fault =
    | NullReference        // a member access on null
    | ArgumentNull         // an ArgumentNullException
    | ArgumentOutOfRange   // ElementAt, Substring or a capacity out of range
    | InvalidOperation     // First() on an empty sequence, or an explicit throw
    | DuplicateKey         // Dictionary/ToDictionary given the same key twice
    | KeyNotFound          // a Dictionary indexer miss
    | Format               // int.Parse or base64 decoding rejected its input
    | Overflow             // int.Parse given a number outside the 32-bit range
    | InvalidCast          // GetAttributeValue<T> on a value of another type
    | NotACouple           // CompareTo(object) given something else

  /** The outcome of an operation that may throw. */
  datatype Result<+T> = Ok(value: T) | Err(fault: Fault) {
    predicate IsFailure() { Err? }
    function PropagateFailure<U>(): Result<U>
      requires Err?
    {
      Err(fault)
    }
    function Extract(): T
      requires Ok?
    {
      value
    }
    function ToOption(): Option<T> {
      match this
      case Ok(v) => Some(v)
      case Err(_) => None
    }
  }

  newtype byte = x: int | 0 <= x < 256

  type Bytes = seq<byte>

  const Int32Min: int := -0x8000_0000
  const Int32Max: int := 0x7FFF_FFFF

  predicate IsInt32(x: int) {
    Int32Min <= x <= Int32Max
  }

  /** Two's-complement truncation of `x` to 32 bits, as C#'s unchecked
      arithmetic and `(int)` casts do. */
  function Wrap32(x: int): (r: int)
    ensures IsInt32(r)
    ensures (r - x) % 0x1_0000_0000 == 0
    ensures IsInt32(x) ==> r == x
  {
    var m := x % 0x1_0000_0000;
    if m <= Int32Max then m else m - 0x1_0000_0000
  }

  /** `needle` occurs in `hay` starting at `i`. */
  predicate OccursAt(hay: string, needle: string, i: int) {
    0 <= i && i + |needle| <= |hay| && hay[i..i + |needle|] == needle
  }

  /** String.Contains with ordinal (case-sensitive) comparison. */
  predicate Contains(hay: string, needle: string) {
    exists i | 0 <= i <= |hay| :: OccursAt(hay, needle, i)
  }

  /** A scanning implementation of `Contains`, the shape String.Contains has. */
  function ContainsFrom(hay: string, needle: string, i: nat): (r: bool)
    requires i <= |hay|
    ensures r <==> exists j | i <= j <= |hay| :: OccursAt(hay, needle, j)
    decreases |hay| - i
  {
    if i + |needle| > |hay| then false
    else if hay[i..i + |needle|] == needle then assert OccursAt(hay, needle, i); true
    else ContainsFrom(hay, needle, i + 1)
  }

  lemma ContainsIsScan(hay: string, needle: string)
    ensures Contains(hay, needle) <==> ContainsFrom(hay, needle, 0)
  {
  }

  lemma ContainsInConcat(a: string, hay: string, b: string, needle: string)
    requires Contains(hay, needle)
    ensures Contains(a + hay + b, needle)
  {
    var i :| 0 <= i <= |hay| && OccursAt(hay, needle, i);
    assert (a + hay + b)[|a| + i..|a| + i + |needle|] == hay[i..i + |needle|];
    assert OccursAt(a + hay + b, needle, |a| + i);
  }

  /** ASCII lower-casing of one character; other characters are unchanged. */
  function LowerChar(c: char): char {
    if 'A' <= c <= 'Z' then (c as int + 32) as char else c
  }

  function Lower(s: string): (r: string)
    ensures |r| == |s|
    ensures forall i :: 0 <= i < |s| ==> r[i] == LowerChar(s[i])
  {
    if s == [] then [] else [LowerChar(s[0])] + Lower(s[1..])
  }

  /** Decimal rendering of a natural number, as Int32.ToString does for it. */
  function NatToString(n: nat): (r: string)
    ensures |r| > 0
    ensures forall i :: 0 <= i < |r| ==> '0' <= r[i] <= '9'
    decreases n
  {
    if n < 10 then [('0' as int + n) as char]
    else NatToString(n / 10) + [('0' as int + n % 10) as char]
  }

  function DigitValue(c: char): nat
    requires '0' <= c <= '9'
  {
    c as int - '0' as int
  }

  /** The value of a string of decimal digits. */
  function DigitsValue(s: string): nat
    requires forall i :: 0 <= i < |s| ==> '0' <= s[i] <= '9'
  {
    if s == [] then 0 else DigitsValue(s[..|s| - 1]) * 10 + DigitValue(s[|s| - 1])
  }

  lemma {:induction false} NatToStringValue(n: nat)
    ensures DigitsValue(NatToString(n)) == n
    decreases n
  {
    if n >= 10 {
      var s := NatToString(n / 10) + [('0' as int + n % 10) as char];
      assert s[..|s| - 1] == NatToString(n / 10);
      NatToStringValue(n / 10);
    }
  }

  /** Renders an integer with a leading '-' when negative. */
  function IntToString(x: int): string {
    if x < 0 then "-" + NatToString(-x) else NatToString(x)
  }

  /** No element occurs twice. */
  predicate Distinct<T(==)>(s: seq<T>) {
    forall i, j :: 0 <= i < j < |s| ==> s[i] != s[j]
  }

  /** The elements of a list, as a set. */
  function Elements<T>(s: seq<T>): set<T> {
    set x | x in s
  }

  lemma ElementsConcat<T>(a: seq<T>, b: seq<T>)
    ensures Elements(a + b) == Elements(a) + Elements(b)
  {
  }

  /** Dropping one element of a list without duplicates leaves one without
      duplicates that lacks exactly that element. */
  lemma DistinctRemove<T>(s: seq<T>, j: nat)
    requires Distinct(s) && j < |s|
    ensures Distinct(s[..j] + s[j + 1..])
    ensures Elements(s[..j] + s[j + 1..]) == Elements(s) - {s[j]}
  {
    var r := s[..j] + s[j + 1..];
    assert forall k :: 0 <= k < |r| ==> r[k] == s[if k < j then k else k + 1];
    forall x | x in s && x != s[j] ensures x in r {
      var k :| 0 <= k < |s| && s[k] == x;
      if k < j { assert r[k] == x; } else { assert r[k - 1] == x; }
    }
  }

  /** Appending one element keeps a list free of duplicates exactly when the
      element is new. */
  lemma DistinctSnoc<T>(s: seq<T>, x: T)
    ensures Distinct(s + [x]) <==> Distinct(s) && x !in s
  {
    var r := s + [x];
    assert forall k :: 0 <= k < |s| ==> r[k] == s[k];
    if x in s {
      var k :| 0 <= k < |s| && s[k] == x;
      assert r[k] == r[|s|];
    }
  }

  /** Two lists without duplicates and without a common element concatenate
      to one without duplicates. */
  lemma DistinctConcat<T>(a: seq<T>, b: seq<T>)
    requires Distinct(a) && Distinct(b)
    requires forall x :: x in a ==> x !in b
    ensures Distinct(a + b)
  {
    var r := a + b;
    forall i, j | 0 <= i < j < |r| ensures r[i] != r[j] {
      if j < |a| {
        assert r[i] == a[i] && r[j] == a[j];
      } else if i >= |a| {
        assert r[i] == b[i - |a|] && r[j] == b[j - |a|];
      } else {
        assert r[i] == a[i] && a[i] in a;
        assert r[j] == b[j - |a|] && b[j - |a|] in b;
      }
    }
  }
}

=== FILE: couple.dfy ===
/** The `Couple<TLeft, TRight>` pair used for the merge configuration (field
    name, placeholder): structural equality, lexicographic comparison, the
    null-aware operators, hashing, rendering and the list extensions.

    A couple is a heap object. Its identity is the whole value, including
    `ref`, so two couples with the same `left` and `right` but different `ref`
    are two distinct objects that are `Equals` without being the same
    reference. A possibly-null couple reference is an `Option<Couple>`. */
module Couples {
  import opened Basics

  datatype Couple<L, R> = Couple(ref: nat, left: Option<L>, right: Option<R>)

  /** What `CompareTo(object)` and `Equals(object)` may be handed. */
  datatype Obj<L, R> = NullObj | CoupleObj(couple: Couple<L, R>) | OtherObj

  /** `Comparer<T>.Default` over possibly-null values: null sorts first and
      two nulls compare equal; non-null values use `cmp`. */
  function NullableCompare<T>(cmp: (T, T) -> int, x: Option<T>, y: Option<T>): (r: int)
    ensures x.None? && y.None? ==> r == 0
    ensures x.None? && y.Some? ==> r < 0
    ensures x.Some? && y.None? ==> r > 0
    ensures x.Some? && y.Some? ==> r == cmp(x.value, y.value)
  {
    match (x, y)
    case (None, None) => 0
    case (None, Some(_)) => -1
    case (Some(_), None) => 1
    case (Some(a), Some(b)) => cmp(a, b)
  }

  /** The sign of a comparison result. */
  function Sign(x: int): int {
    if x < 0 then -1 else if x > 0 then 1 else 0
  }

  /** A comparer whose results are antisymmetric in sign. */
  ghost predicate Antisymmetric<T(!new)>(cmp: (T, T) -> int) {
    forall a, b :: Sign(cmp(a, b)) == -Sign(cmp(b, a))
  }

  /** A comparer that reports 0 exactly on equal values, so that it agrees
      with `EqualityComparer<T>.Default`. */
  ghost predicate ConsistentWithEquality<T(!new)>(cmp: (T, T) -> int) {
    forall a, b :: cmp(a, b) == 0 <==> a == b
  }

  ghost predicate Lawful<T(!new)>(cmp: (T, T) -> int) {
    Antisymmetric(cmp) && ConsistentWithEquality(cmp)
  }

  /** CompareTo(ICouple other). */
  function CompareTo<L(==), R(==)>(c: Couple<L, R>, other: Option<Couple<L, R>>,
                           cmpL: (L, L) -> int, cmpR: (R, R) -> int): int
  {
    if other == Some(c) then 0
    else if other.None? then 1
    else
      var leftCompare := NullableCompare(cmpL, c.left, other.value.left);
      if leftCompare != 0 then leftCompare
      else NullableCompare(cmpR, c.right, other.value.right)
  }

  /** CompareTo(object): only a couple may be compared; null is not one. */
  function CompareToObject<L(==), R(==)>(c: Couple<L, R>, obj: Obj<L, R>,
                                 cmpL: (L, L) -> int, cmpR: (R, R) -> int): (r: Result<int>)
    ensures obj == CoupleObj(c) ==> r == Ok(0)
    ensures obj.CoupleObj? ==> r == Ok(CompareTo(c, Some(obj.couple), cmpL, cmpR))
    ensures !obj.CoupleObj? ==> r == Err(NotACouple)
  {
    if obj == CoupleObj(c) then Ok(0)
    else if obj.CoupleObj? then Ok(CompareTo(c, Some(obj.couple), cmpL, cmpR))
    else Err(NotACouple)
  }

  /** Equals(ICouple other): componentwise default equality. */
  function Equals<L(==), R(==)>(c: Couple<L, R>, other: Option<Couple<L, R>>): bool {
    if other == Some(c) then true
    else if other.None? then false
    else c.left == other.value.left && c.right == other.value.right
  }

  /** Equals(object): false for anything that is not a couple. */
  function EqualsObject<L(==), R(==)>(c: Couple<L, R>, obj: Obj<L, R>): (r: bool)
    ensures !obj.CoupleObj? ==> !r
    ensures obj.CoupleObj? ==> r == Equals(c, Some(obj.couple))
  {
    match obj
    case CoupleObj(other) => Equals(c, Some(other))
    case _ => false
  }

  /** Exclusive or of two 32-bit two's-complement integers. */
  function Xor32(a: int, b: int): (r: int)
    requires IsInt32(a) && IsInt32(b)
    ensures IsInt32(r)
  {
    var x := ((a % 0x1_0000_0000) as bv32) ^ ((b % 0x1_0000_0000) as bv32);
    Wrap32(x as int)
  }

  /** `EqualityComparer<T>.Default.GetHashCode`: 0 for null. */
  function NullableHash<T>(h: T -> int, x: Option<T>): int {
    match x
    case None => 0
    case Some(v) => Wrap32(h(v))
  }

  /** GetHashCode: (hash(Left) * 397) ^ hash(Right), unchecked. */
  function HashCode<L, R>(c: Couple<L, R>, hL: L -> int, hR: R -> int): (r: int)
    ensures IsInt32(r)
  {
    Xor32(Wrap32(NullableHash(hL, c.left) * 397), NullableHash(hR, c.right))
  }

  /** Equal couples have equal hash codes, whoever they are as objects. */
  lemma EqualCouplesHashEqually<L(!new), R(!new)>(a: Couple<L, R>, b: Couple<L, R>,
                                              hL: L -> int, hR: R -> int)
    requires Equals(a, Some(b))
    ensures HashCode(a, hL, hR) == HashCode(b, hL, hR)
  {
  }

  /** String interpolation renders null as the empty string. */
  function Show<T>(show: T -> string, x: Option<T>): string {
    match x
    case None => ""
    case Some(v) => show(v)
  }

  const Separator: string := " - "

  /** ToString: "Left - Right". */
  function ToString<L, R>(c: Couple<L, R>, showL: L -> string, showR: R -> string): (r: string)
    ensures |r| == |Show(showL, c.left)| + 3 + |Show(showR, c.right)|
    ensures r[..|Show(showL, c.left)|] == Show(showL, c.left)
    ensures r[|Show(showL, c.left)|..|Show(showL, c.left)| + 3] == Separator
    ensures r[|r| - |Show(showR, c.right)|..] == Show(showR, c.right)
  {
    Show(showL, c.left) + Separator + Show(showR, c.right)
  }

  /** Splits `s` at the first occurrence of " - ", if there is one. */
  function SplitAtSeparator(s: string): (r: Option<(string, string)>)
    ensures r.Some? ==> r.value.0 + Separator + r.value.1 == s
    ensures r.Some? ==> !Contains(r.value.0, Separator)
    ensures r.Some? ==> forall j :: 0 <= j < |r.value.0| ==> !OccursAt(s, Separator, j)
    ensures r.None? ==> !Contains(s, Separator)
  {
    SplitScan(s, 0)
  }

  /** The scan behind `SplitAtSeparator`: no separator starts before `i`. */
  function SplitScan(s: string, i: nat): (r: Option<(string, string)>)
    requires i <= |s|
    requires forall j :: 0 <= j < i ==> !OccursAt(s, Separator, j)
    ensures r.Some? ==> r.value.0 + Separator + r.value.1 == s
    ensures r.Some? ==> !Contains(r.value.0, Separator)
    ensures r.Some? ==> forall j :: 0 <= j < |r.value.0| ==> !OccursAt(s, Separator, j)
    ensures r.None? ==> !Contains(s, Separator)
    decreases |s| - i
  {
    if i + 3 > |s| then None
    else if s[i..i + 3] == Separator then
      assert s[..i] + Separator + s[i + 3..] == s;
      assert forall j :: 0 <= j <= i ==> !OccursAt(s[..i], Separator, j) by {
        forall j | 0 <= j <= i ensures !OccursAt(s[..i], Separator, j) {
          if OccursAt(s[..i], Separator, j) {
            assert s[..i][j..j + 3] == s[j..j + 3];
            assert OccursAt(s, Separator, j);
          }
        }
      }
      Some((s[..i], s[i + 3..]))
    else SplitScan(s, i + 1)
  }

  /** No separator starts inside `a` in `a + " - " + b` when `a + " "`
      holds none. */
  lemma NoSeparatorBefore(a: string, b: string)
    requires !Contains(a + " ", Separator)
    ensures forall j :: 0 <= j < |a| ==> !OccursAt(a + Separator + b, Separator, j)
  {
    var s := a + Separator + b;
    if |a| > 0 {
      assert s[|a| - 1..|a| + 2][1] == s[|a|] == ' ';
    }
    forall j | 0 <= j < |a| && OccursAt(s, Separator, j)
      ensures false
    {
      if j + 1 < |a| {
        assert (a + " ")[j..j + 3] == s[j..j + 3];
        assert OccursAt(a + " ", Separator, j);
      }
    }
  }

  /** Rendering loses nothing when the left text (followed by the space the
      separator starts with) holds no separator: the first " - " splits the
      rendering back into the two texts. */
  lemma ToStringSplitsBack<L, R>(c: Couple<L, R>, showL: L -> string, showR: R -> string)
    requires !Contains(Show(showL, c.left) + " ", Separator)
    ensures SplitAtSeparator(ToString(c, showL, showR))
            == Some((Show(showL, c.left), Show(showR, c.right)))
  {
    var a, b := Show(showL, c.left), Show(showR, c.right);
    var s := a + Separator + b;
    assert OccursAt(s, Separator, |a|);
    NoSeparatorBefore(a, b);
    var r := SplitAtSeparator(s);
    var (x, y) := r.value;
    assert OccursAt(s, Separator, |x|) by {
      assert s[|x|..|x| + 3] == (x + Separator + y)[|x|..|x| + 3];
    }
    assert |x| == |a|;
    assert x == s[..|x|];
    assert y == s[|a| + 3..];
  }

  /** `==`: same reference or both null; one null is false; else Equals. */
  function OpEquals<L(==), R(==)>(a: Option<Couple<L, R>>, b: Option<Couple<L, R>>): bool {
    if a == b then true
    else if a.None? || b.None? then false
    else Equals(a.value, b)
  }

  /** `!=`. */
  function OpNotEquals<L(==), R(==)>(a: Option<Couple<L, R>>, b: Option<Couple<L, R>>): bool {
    !OpEquals(a, b)
  }

  /** `<`: null is below every non-null couple. */
  function OpLess<L(==), R(==)>(a: Option<Couple<L, R>>, b: Option<Couple<L, R>>,
                        cmpL: (L, L) -> int, cmpR: (R, R) -> int): bool
  {
    if a.None? then b.Some?
    else CompareTo(a.value, b, cmpL, cmpR) < 0
  }

  /** `>`: null is above nothing, and every non-null couple is above null. */
  function OpGreater<L(==), R(==)>(a: Option<Couple<L, R>>, b: Option<Couple<L, R>>,
                           cmpL: (L, L) -> int, cmpR: (R, R) -> int): bool
  {
    if a.None? then false
    else if b.None? then true
    else CompareTo(a.value, b, cmpL, cmpR) > 0
  }

  /** `<=`. */
  function OpLessOrEqual<L(==), R(==)>(a: Option<Couple<L, R>>, b: Option<Couple<L, R>>,
                                       cmpL: (L, L) -> int, cmpR: (R, R) -> int): bool
  {
    OpEquals(a, b) || OpLess(a, b, cmpL, cmpR)
  }

  /** `>=`. */
  function OpGreaterOrEqual<L(==), R(==)>(a: Option<Couple<L, R>>, b: Option<Couple<L, R>>,
                                          cmpL: (L, L) -> int, cmpR: (R, R) -> int): bool
  {
    OpEquals(a, b) || OpGreater(a, b, cmpL, cmpR)
  }

  /** With antisymmetric comparers, CompareTo is antisymmetric in sign too:
      the lexicographic order is decided by Left and only on a tie by Right. */
  lemma CompareToAntisymmetric<L(!new), R(!new)>(a: Couple<L, R>, b: Couple<L, R>,
                                     cmpL: (L, L) -> int, cmpR: (R, R) -> int)
    requires Antisymmetric(cmpL) && Antisymmetric(cmpR)
    ensures Sign(CompareTo(a, Some(b), cmpL, cmpR)) == -Sign(CompareTo(b, Some(a), cmpL, cmpR))
  {
    if a != b {
      var l1 := NullableCompare(cmpL, a.left, b.left);
      var l2 := NullableCompare(cmpL, b.left, a.left);
      assert Sign(l1) == -Sign(l2);
      var r1 := NullableCompare(cmpR, a.right, b.right);
      var r2 := NullableCompare(cmpR, b.right, a.right);
      assert Sign(r1) == -Sign(r2);
    }
  }

  /** With comparers that agree with equality, two non-null couples compare
      as 0 exactly when they are Equals. */
  lemma CompareZeroIffEquals<L(!new), R(!new)>(a: Couple<L, R>, b: Couple<L, R>,
                                   cmpL: (L, L) -> int, cmpR: (R, R) -> int)
    requires ConsistentWithEquality(cmpL) && ConsistentWithEquality(cmpR)
    ensures CompareTo(a, Some(b), cmpL, cmpR) == 0 <==> Equals(a, Some(b))
  {
  }

  /** `a < b` and `b > a` always agree when the comparers are antisymmetric,
      the null cases included. */
  lemma LessIsConverseOfGreater<L(!new), R(!new)>(a: Option<Couple<L, R>>, b: Option<Couple<L, R>>,
                                      cmpL: (L, L) -> int, cmpR: (R, R) -> int)
    requires Antisymmetric(cmpL) && Antisymmetric(cmpR)
    ensures OpLess(a, b, cmpL, cmpR) <==> OpGreater(b, a, cmpL, cmpR)
  {
    if a.Some? && b.Some? {
      CompareToAntisymmetric(a.value, b.value, cmpL, cmpR);
    }
  }

  /** For lawful comparers, exactly one of `<`, `==` and `>` holds. */
  lemma Trichotomy<L(!new), R(!new)>(a: Option<Couple<L, R>>, b: Option<Couple<L, R>>,
                                 cmpL: (L, L) -> int, cmpR: (R, R) -> int)
    requires Lawful(cmpL) && Lawful(cmpR)
    ensures OpLess(a, b, cmpL, cmpR) || OpEquals(a, b) || OpGreater(a, b, cmpL, cmpR)
    ensures !(OpLess(a, b, cmpL, cmpR) && OpEquals(a, b))
    ensures !(OpLess(a, b, cmpL, cmpR) && OpGreater(a, b, cmpL, cmpR))
    ensures !(OpEquals(a, b) && OpGreater(a, b, cmpL, cmpR))
  {
    if a.Some? && b.Some? {
      CompareZeroIffEquals(a.value, b.value, cmpL, cmpR);
    }
  }

  /** For lawful comparers `<=` is the negation of `>`. */
  lemma LessOrEqualIsNotGreater<L(!new), R(!new)>(a: Option<Couple<L, R>>, b: Option<Couple<L, R>>,
                                              cmpL: (L, L) -> int, cmpR: (R, R) -> int)
    requires Lawful(cmpL) && Lawful(cmpR)
    ensures OpLessOrEqual(a, b, cmpL, cmpR) <==> !OpGreater(a, b, cmpL, cmpR)
  {
    Trichotomy(a, b, cmpL, cmpR);
  }

  /** For lawful comparers `>=` is the negation of `<`. */
  lemma GreaterOrEqualIsNotLess<L(!new), R(!new)>(a: Option<Couple<L, R>>, b: Option<Couple<L, R>>,
                                                cmpL: (L, L) -> int, cmpR: (R, R) -> int)
    requires Lawful(cmpL) && Lawful(cmpR)
    ensures OpGreaterOrEqual(a, b, cmpL, cmpR) <==> !OpLess(a, b, cmpL, cmpR)
  {
    Trichotomy(a, b, cmpL, cmpR);
  }

  /** `!=` is irreflexive and symmetric, and holds between a null and a
      non-null couple. */
  lemma NotEqualsLaws<L(!new), R(!new)>(a: Option<Couple<L, R>>, b: Option<Couple<L, R>>)
    ensures !OpNotEquals(a, a)
    ensures OpNotEquals(a, b) <==> OpNotEquals(b, a)
    ensures a.None? && b.Some? ==> OpNotEquals(a, b)
  {
  }

  /** `==` on couple references is an equivalence relation. */
  lemma OpEqualsIsEquivalence<L(!new), R(!new)>(a: Option<Couple<L, R>>, b: Option<Couple<L, R>>,
                                            c: Option<Couple<L, R>>)
    ensures OpEquals(a, a)
    ensures OpEquals(a, b) ==> OpEquals(b, a)
    ensures OpEquals(a, b) && OpEquals(b, c) ==> OpEquals(a, c)
  {
  }

  /** Implicit conversion to Tuple<TLeft, TRight> (Item1, Item2) or to
      KeyValuePair<TLeft, TRight> (Key, Value); both read Left then Right,
      so a null couple throws. */
  function ToPair<L, R>(c: Option<Couple<L, R>>): (r: Result<(Option<L>, Option<R>)>)
    ensures c.None? <==> r == Err(NullReference)
    ensures c.Some? ==> r.Ok? && r.value.0 == c.value.left && r.value.1 == c.value.right
  {
    match c
    case None => Err(NullReference)
    case Some(x) => Ok((x.left, x.right))
  }

  /** Constructing a couple stores both parts unchanged; nothing in the type
      can change them afterwards. */
  function NewCouple<L, R>(ref: nat, left: Option<L>, right: Option<R>): (c: Couple<L, R>)
    ensures ToPair(Some(c)) == Ok((left, right))
  {
    Couple(ref, left, right)
  }

  /** CoupleExtension.IsEqualTo: both arguments must be non-null. */
  function IsEqualTo<L(==), R(==)>(c: Option<Couple<L, R>>, other: Option<Couple<L, R>>): (r: Result<bool>)
    ensures c.None? ==> r == Err(ArgumentNull)
    ensures c.Some? && other.None? ==> r == Err(ArgumentNull)
    ensures c.Some? && other.Some? ==> r == Ok(OpEquals(c, other))
  {
    if c.None? then Err(ArgumentNull)
    else if other.None? then Err(ArgumentNull)
    else Ok(Equals(c.value, other))
  }

  /** Which revision of CoupleExtension: the later one maps a null source
      to an empty sequence, the earlier one lets `Select` throw. */
  datatype ExtensionRevision = NullTolerant | NullRejecting

  /** No entry of the list is a null couple. */
  predicate NoNullCouple<L, R>(s: seq<Option<Couple<L, R>>>) {
    forall i :: 0 <= i < |s| ==> s[i].Some?
  }

  /** LeftItems, enumerated to the end: the Left of each couple, in order;
      `c => c.Left` throws on a null couple. */
  function LeftItems<L, R>(rev: ExtensionRevision, source: Option<seq<Option<Couple<L, R>>>>): (r: Result<seq<Option<L>>>)
    ensures source.None? ==> r == (if rev == NullTolerant then Ok([]) else Err(ArgumentNull))
    ensures source.Some? ==> (r.Ok? <==> NoNullCouple(source.value))
    ensures source.Some? && !NoNullCouple(source.value) ==> r == Err(NullReference)
    ensures source.Some? && r.Ok? ==>
              |r.value| == |source.value|
              && forall i :: 0 <= i < |source.value| ==> r.value[i] == source.value[i].value.left
  {
    match source
    case None => if rev == NullTolerant then Ok([]) else Err(ArgumentNull)
    case Some(s) =>
      if !NoNullCouple(s) then Err(NullReference)
      else Ok(seq(|s|, i requires 0 <= i < |s| => s[i].value.left))
  }

  /** RightItems, enumerated to the end: the Right of each couple, in order;
      `c => c.Right` throws on a null couple. */
  function RightItems<L, R>(rev: ExtensionRevision, source: Option<seq<Option<Couple<L, R>>>>): (r: Result<seq<Option<R>>>)
    ensures source.None? ==> r == (if rev == NullTolerant then Ok([]) else Err(ArgumentNull))
    ensures source.Some? ==> (r.Ok? <==> NoNullCouple(source.value))
    ensures source.Some? && !NoNullCouple(source.value) ==> r == Err(NullReference)
    ensures source.Some? && r.Ok? ==>
              |r.value| == |source.value|
              && forall i :: 0 <= i < |source.value| ==> r.value[i] == source.value[i].value.right
  {
    match source
    case None => if rev == NullTolerant then Ok([]) else Err(ArgumentNull)
    case Some(s) =>
      if !NoNullCouple(s) then Err(NullReference)
      else Ok(seq(|s|, i requires 0 <= i < |s| => s[i].value.right))
  }

  /** LeftItems and RightItems fail together, exactly when some ToPair
      throws; zipped, they give back each couple's pair. */
  lemma ItemsZipToPairs<L, R>(rev: ExtensionRevision, s: seq<Option<Couple<L, R>>>)
    ensures LeftItems(rev, Some(s)).Ok? <==> RightItems(rev, Some(s)).Ok?
    ensures LeftItems(rev, Some(s)).Ok? <==> forall i :: 0 <= i < |s| ==> ToPair(s[i]).Ok?
    ensures LeftItems(rev, Some(s)).Ok? ==>
              var ls := LeftItems(rev, Some(s)).value;
              var rs := RightItems(rev, Some(s)).value;
              |ls| == |rs| == |s| &&
              forall i :: 0 <= i < |s| ==> ToPair(s[i]) == Ok((ls[i], rs[i]))
  {
  }
}

=== FILE: document.dfy ===
/** The word-processing document as a tree of elements, the inner text of an
    element, the search for the placeholder paragraph and the splice of the
    body around it. */
module Documents {
  import opened Basics

  datatype BorderSide = TopSide | BottomSide | LeftSide | RightSide | InsideHorizontal | InsideVertical

  /** The element kinds the merger looks at or creates; everything else is
      `Other`. */
  datatype Tag =
    | BodyTag
    | Paragraph
    | Run
    | Text(value: string, preserveSpace: bool)
    | Table
    | TableRow
    | TableCell
    | Drawing
    | Blip(embed: Option<string>)
    | NumberingProperties
    | NumberingId(val: Option<int>)
    | TableProperties
    | TableBorders
    | Border(side: BorderSide, style: string, size: nat)
    | TableCellProperties
    | Shading(pattern: string, color: string, fill: string)
    | RunProperties
    | RunFonts(ascii: string, highAnsi: string)
    | FontSize(halfPoints: string)
    | Bold
    | Italic
    | Color(rgb: string)
    | Other(name: string)

  datatype Node = Node(tag: Tag, children: seq<Node>)

  /** A package part that may be missing, present without its root element
      (the SDK's `part.Root == null`), or present with a root. */
  datatype PartState<+T> = NoPart | EmptyPart | Rooted(root: T)

  // -----------------------------------------------------------------------
  // Inner text
  // -----------------------------------------------------------------------

  /** InnerText: a text element's value, otherwise the concatenated inner
      text of the children. */
  function InnerText(n: Node): string
    decreases n
  {
    if n.tag.Text? then n.tag.value else ConcatText(n.children)
  }

  function ConcatText(ns: seq<Node>): string
    decreases ns
  {
    if ns == [] then "" else InnerText(ns[0]) + ConcatText(ns[1..])
  }

  lemma {:induction false} ConcatTextAppend(a: seq<Node>, b: seq<Node>)
    ensures ConcatText(a + b) == ConcatText(a) + ConcatText(b)
    decreases |a|
  {
    if a != [] {
      assert (a + b)[0] == a[0];
      assert (a + b)[1..] == a[1..] + b;
      ConcatTextAppend(a[1..], b);
      assert ConcatText(a + b) == InnerText(a[0]) + (ConcatText(a[1..]) + ConcatText(b));
    } else {
      assert a + b == b;
    }
  }

  /** A paragraph holding one run with one text element has that text as
      its inner text. */
  lemma ParagraphOfOneRun(text: string, preserve: bool)
    ensures InnerText(Node(Paragraph, [RunOf(text, preserve)])) == text
  {
    var t := Node(Text(text, preserve), []);
    var run := Node(Run, [t]);
    assert ConcatText([t]) == InnerText(t) + ConcatText([]);
    assert ConcatText([run]) == InnerText(run) + ConcatText([]);
  }

  /** A run holding one text element. */
  function RunOf(text: string, preserve: bool): Node {
    Node(Run, [Node(Text(text, preserve), [])])
  }

  /** One run per text, in order. */
  function RunsOf(texts: seq<string>, preserve: bool): (r: seq<Node>)
    ensures |r| == |texts|
  {
    seq(|texts|, i requires 0 <= i < |texts| => RunOf(texts[i], preserve))
  }

  /** The texts written one after another. */
  function JoinTexts(texts: seq<string>): string {
    if texts == [] then "" else JoinTexts(texts[..|texts| - 1]) + texts[|texts| - 1]
  }

  /** A paragraph of runs has the runs' texts, in order, as its inner text. */
  lemma {:induction false} ParagraphOfRuns(texts: seq<string>, preserve: bool)
    ensures InnerText(Node(Paragraph, RunsOf(texts, preserve))) == JoinTexts(texts)
    decreases |texts|
  {
    if texts != [] {
      var n := |texts| - 1;
      var init := texts[..n];
      assert RunsOf(texts, preserve) == RunsOf(init, preserve) + [RunOf(texts[n], preserve)];
      ConcatTextAppend(RunsOf(init, preserve), [RunOf(texts[n], preserve)]);
      ParagraphOfOneRun(texts[n], preserve);
      ParagraphOfRuns(init, preserve);
    }
  }

  // -----------------------------------------------------------------------
  // Document order
  // -----------------------------------------------------------------------

  /** The element followed by all its descendants in document order. */
  function Preorder(n: Node): (r: seq<Node>)
    ensures |r| >= 1 && r[0] == n
    decreases n
  {
    [n] + PreorderSeq(n.children)
  }

  /** Descendants of a parent whose children are `ns`, in document order. */
  function PreorderSeq(ns: seq<Node>): seq<Node>
    decreases ns
  {
    if ns == [] then [] else Preorder(ns[0]) + PreorderSeq(ns[1..])
  }

  lemma {:induction false} PreorderSeqAppend(a: seq<Node>, b: seq<Node>)
    ensures PreorderSeq(a + b) == PreorderSeq(a) + PreorderSeq(b)
    decreases |a|
  {
    if a != [] {
      assert (a + b)[0] == a[0];
      assert (a + b)[1..] == a[1..] + b;
      PreorderSeqAppend(a[1..], b);
      assert PreorderSeq(a + b) == Preorder(a[0]) + (PreorderSeq(a[1..]) + PreorderSeq(b));
    } else {
      assert a + b == b;
    }
  }

  /** Where the subtree of `body[i]` starts in the body's descendants. */
  function Start(body: seq<Node>, i: nat): nat
    requires i <= |body|
  {
    |PreorderSeq(body[..i])|
  }

  /** The descendants of the body split around the subtree of `body[i]`. */
  lemma PreorderAround(body: seq<Node>, i: nat)
    requires i < |body|
    ensures PreorderSeq(body) == PreorderSeq(body[..i]) + Preorder(body[i]) + PreorderSeq(body[i + 1..])
    ensures Start(body, i + 1) == Start(body, i) + |Preorder(body[i])|
  {
    assert body == body[..i] + [body[i]] + body[i + 1..];
    assert body[..i + 1] == body[..i] + [body[i]];
    PreorderSeqAppend(body[..i] + [body[i]], body[i + 1..]);
    PreorderSeqAppend(body[..i], [body[i]]);
    assert PreorderSeq([body[i]]) == Preorder(body[i]) + PreorderSeq([]);
  }

  // -----------------------------------------------------------------------
  // The placeholder paragraph
  // -----------------------------------------------------------------------

  /** `p => p.InnerText.Contains(token)` over `Descendants<Paragraph>()`. */
  predicate IsMatch(n: Node, token: string) {
    n.tag == Paragraph && Contains(InnerText(n), token)
  }

  predicate HasMatch(ns: seq<Node>, token: string) {
    exists k | 0 <= k < |ns| :: IsMatch(ns[k], token)
  }

  /** Where the first matching paragraph in document order is. */
  datatype Location =
    | NotFound             // no paragraph contains the token
    | Nested(top: nat)     // inside `body[top]`, so its parent is not the body
    | AtBody(index: nat)   // it is `body[index]` itself

  /** Scans the body's children in order: the first child whose subtree holds
      a matching paragraph decides, by whether it matches itself. */
  function Locate(body: seq<Node>, token: string): (r: Location)
    ensures r.NotFound? <==> forall j :: 0 <= j < |body| ==> !HasMatch(Preorder(body[j]), token)
    ensures r.AtBody? ==> r.index < |body| && IsMatch(body[r.index], token)
    ensures r.Nested? ==> r.top < |body| && !IsMatch(body[r.top], token)
                          && HasMatch(PreorderSeq(body[r.top].children), token)
    ensures r.AtBody? ==> forall j :: 0 <= j < r.index ==> !HasMatch(Preorder(body[j]), token)
    ensures r.Nested? ==> forall j :: 0 <= j < r.top ==> !HasMatch(Preorder(body[j]), token)
  {
    LocateFrom(body, token, 0)
  }

  function LocateFrom(body: seq<Node>, token: string, i: nat): (r: Location)
    requires i <= |body|
    ensures r.NotFound? <==> forall j :: i <= j < |body| ==> !HasMatch(Preorder(body[j]), token)
    ensures r.AtBody? ==> i <= r.index < |body| && IsMatch(body[r.index], token)
    ensures r.Nested? ==> i <= r.top < |body| && !IsMatch(body[r.top], token)
                          && HasMatch(PreorderSeq(body[r.top].children), token)
    ensures r.AtBody? ==> forall j :: i <= j < r.index ==> !HasMatch(Preorder(body[j]), token)
    ensures r.Nested? ==> forall j :: i <= j < r.top ==> !HasMatch(Preorder(body[j]), token)
    decreases |body| - i
  {
    if i == |body| then NotFound
    else
      var here := Preorder(body[i]);
      assert here[0] == body[i];
      if IsMatch(body[i], token) then AtBody(i)
      else if HasMatch(PreorderSeq(body[i].children), token) then
        HasMatchInSubtree(body[i], token);
        Nested(i)
      else
        assert !HasMatch(here, token) by {
          forall k | 0 < k < |here| ensures !IsMatch(here[k], token) {
            assert here[k] == PreorderSeq(body[i].children)[k - 1];
          }
        }
        LocateFrom(body, token, i + 1)
  }

  /** A subtree holds a match when its root or one of its descendants does. */
  lemma HasMatchInSubtree(n: Node, token: string)
    ensures HasMatch(Preorder(n), token) <==> IsMatch(n, token) || HasMatch(PreorderSeq(n.children), token)
  {
    var p := Preorder(n);
    if HasMatch(PreorderSeq(n.children), token) {
      var k :| 0 <= k < |PreorderSeq(n.children)| && IsMatch(PreorderSeq(n.children)[k], token);
      assert p[k + 1] == PreorderSeq(n.children)[k];
    }
    if k :| 0 < k < |p| && IsMatch(p[k], token) {
      assert p[k] == PreorderSeq(n.children)[k - 1];
    }
  }

  lemma NoMatchInPrefix(body: seq<Node>, i: nat, token: string)
    requires i <= |body|
    requires forall j :: 0 <= j < i ==> !HasMatch(Preorder(body[j]), token)
    ensures !HasMatch(PreorderSeq(body[..i]), token)
    decreases i
  {
    if i > 0 {
      PreorderAround(body[..i], i - 1);
      assert body[..i][..i - 1] == body[..i - 1];
      assert body[..i][i - 1] == body[i - 1];
      NoMatchInPrefix(body, i - 1, token);
      var p := PreorderSeq(body[..i]);
      var a := PreorderSeq(body[..i - 1]);
      var b := Preorder(body[i - 1]);
      assert body[..i][i - 1 + 1..] == [];
      assert p == a + b + PreorderSeq([]);
      forall k | 0 <= k < |p| ensures !IsMatch(p[k], token) {
        if k < |a| { assert p[k] == a[k]; } else { assert p[k] == b[k - |a|]; }
      }
    }
  }

  /** Locate finds the first matching paragraph in document order: nothing
      before the reported place matches, and it is the root of `body[i]`
      exactly when the result is `AtBody(i)`. */
  lemma LocateIsFirstInDocumentOrder(body: seq<Node>, token: string)
    ensures Locate(body, token).NotFound? ==> !HasMatch(PreorderSeq(body), token)
    ensures Locate(body, token).AtBody? ==>
              var i := Locate(body, token).index;
              i < |body| && FirstMatchAt(PreorderSeq(body), Start(body, i), token)
              && PreorderSeq(body)[Start(body, i)] == body[i]
    ensures Locate(body, token).Nested? ==>
              var i := Locate(body, token).top;
              i < |body| && Start(body, i) < |PreorderSeq(body)|
              && NoMatchBefore(PreorderSeq(body), Start(body, i) + 1, token)
              && exists q | Start(body, i) < q < Start(body, i + 1) :: FirstMatchAt(PreorderSeq(body), q, token)
  {
    var all := PreorderSeq(body);
    match Locate(body, token)
    case NotFound =>
      NoMatchInPrefix(body, |body|, token);
      assert body[..|body|] == body;
    case AtBody(i) =>
      AtBodyIsFirst(body, i, token);
    case Nested(i) =>
      NestedIsFirst(body, i, token);
  }

  /** No element before position `p` matches. */
  predicate NoMatchBefore(all: seq<Node>, p: nat, token: string)
    requires p <= |all|
  {
    forall k :: 0 <= k < p ==> !IsMatch(all[k], token)
  }

  /** Position `p` holds the first match. */
  predicate FirstMatchAt(all: seq<Node>, p: nat, token: string) {
    p < |all| && IsMatch(all[p], token) && NoMatchBefore(all, p, token)
  }

  lemma AtBodyIsFirst(body: seq<Node>, i: nat, token: string)
    requires i < |body| && IsMatch(body[i], token)
    requires forall j :: 0 <= j < i ==> !HasMatch(Preorder(body[j]), token)
    ensures FirstMatchAt(PreorderSeq(body), Start(body, i), token)
    ensures PreorderSeq(body)[Start(body, i)] == body[i]
  {
    var all := PreorderSeq(body);
    NoMatchInPrefix(body, i, token);
    PreorderAround(body, i);
    var a := PreorderSeq(body[..i]);
    assert all[|a|] == Preorder(body[i])[0];
    forall k | 0 <= k < |a| ensures !IsMatch(all[k], token) { assert all[k] == a[k]; }
  }

  lemma NestedIsFirst(body: seq<Node>, i: nat, token: string)
    requires i < |body| && !IsMatch(body[i], token)
    requires HasMatch(PreorderSeq(body[i].children), token)
    requires forall j :: 0 <= j < i ==> !HasMatch(Preorder(body[j]), token)
    ensures Start(body, i) < |PreorderSeq(body)|
    ensures NoMatchBefore(PreorderSeq(body), Start(body, i) + 1, token)
    ensures exists q | Start(body, i) < q < Start(body, i + 1) :: FirstMatchAt(PreorderSeq(body), q, token)
  {
    var q := NestedFirstPosition(body, i, token);
  }

  lemma NestedFirstPosition(body: seq<Node>, i: nat, token: string) returns (q: nat)
    requires i < |body| && !IsMatch(body[i], token)
    requires HasMatch(PreorderSeq(body[i].children), token)
    requires forall j :: 0 <= j < i ==> !HasMatch(Preorder(body[j]), token)
    ensures Start(body, i) < q < Start(body, i + 1) && q < |PreorderSeq(body)|
    ensures NoMatchBefore(PreorderSeq(body), Start(body, i) + 1, token)
    ensures FirstMatchAt(PreorderSeq(body), q, token)
  {
    NoMatchInPrefix(body, i, token);
    PreorderAround(body, i);
    var a := PreorderSeq(body[..i]);
    var cs := PreorderSeq(body[i].children);
    var r := PreorderSeq(body[i + 1..]);
    assert Preorder(body[i]) == [body[i]] + cs;
    assert PreorderSeq(body) == a + [body[i]] + cs + r;
    FirstMatchInConcat(a, body[i], cs, r, token);
    q := |a| + 1 + FirstIndex(cs, token);
  }

  lemma FirstMatchInConcat(a: seq<Node>, x: Node, cs: seq<Node>, r: seq<Node>, token: string)
    requires !HasMatch(a, token) && !IsMatch(x, token) && HasMatch(cs, token)
    ensures NoMatchBefore(a + [x] + cs + r, |a| + 1, token)
    ensures FirstMatchAt(a + [x] + cs + r, |a| + 1 + FirstIndex(cs, token), token)
  {
    var all := a + [x] + cs + r;
    var q := FirstIndex(cs, token);
    forall k | 0 <= k < |a| + 1 + q ensures !IsMatch(all[k], token) {
      if k < |a| { assert all[k] == a[k]; }
      else if k > |a| { assert all[k] == cs[k - |a| - 1]; }
    }
    assert all[|a| + 1 + q] == cs[q];
  }

  /** The first matching position of a sequence that has one. */
  function FirstIndex(ns: seq<Node>, token: string): (q: nat)
    requires HasMatch(ns, token)
    ensures q < |ns| && IsMatch(ns[q], token)
    ensures forall k :: 0 <= k < q ==> !IsMatch(ns[k], token)
    decreases |ns|
  {
    if IsMatch(ns[0], token) then 0
    else
      assert HasMatch(ns[1..], token) by {
        var k :| 0 <= k < |ns| && IsMatch(ns[k], token);
        assert ns[1..][k - 1] == ns[k];
      }
      var q := FirstIndex(ns[1..], token);
      assert forall k :: 1 <= k < q + 1 ==> ns[k] == ns[1..][k - 1];
      q + 1
  }

  // -----------------------------------------------------------------------
  // Splice
  // -----------------------------------------------------------------------

  /** Removes `s[i]` and inserts `r` in its place, in order. */
  function Splice<T>(s: seq<T>, i: nat, r: seq<T>): (t: seq<T>)
    requires i < |s|
    ensures |t| == |s| - 1 + |r|
    ensures t[..i] == s[..i]
    ensures t[i..i + |r|] == r
    ensures t[i + |r|..] == s[i + 1..]
  {
    s[..i] + r + s[i + 1..]
  }

  /** Only the replaced element leaves and only the replacement enters. */
  lemma SpliceExchangesOneElement<T>(s: seq<T>, i: nat, r: seq<T>)
    requires i < |s|
    ensures multiset(Splice(s, i, r)) + multiset{s[i]} == multiset(s) + multiset(r)
  {
    assert s == s[..i] + [s[i]] + s[i + 1..];
  }

  /** Putting the removed element back restores the sequence. */
  lemma SpliceBackRestores<T>(s: seq<T>, i: nat)
    requires i < |s|
    ensures Splice(s, i, [s[i]]) == s
  {
    assert s == s[..i] + [s[i]] + s[i + 1..];
  }
}

=== FILE: download.dfy ===
/** The block-wise download of a file column: one initialisation call that
    reports the file's name, size and whether chunking is supported, then
    block requests until the reported size is used up. */
module Downloads {
  import opened Basics
  import Patterns

  /** What the initialisation call returns. */
  datatype InitResponse = InitResponse(fileName: Option<string>, size: int, chunking: bool)

  datatype Request = Request(offset: int, length: int)

  /** The block size when the service supports chunking: 4 MiB. */
  const ChunkSize: int := 4 * 1024 * 1024

  /** The requested block length: the whole file without chunking, never
      more than the file. */
  function BlockSize(init: InitResponse): (b: int)
    ensures b <= init.size
    ensures init.chunking && init.size > 0 ==> 0 < b <= ChunkSize
  {
    var b := if !init.chunking then init.size else ChunkSize;
    if init.size < b then init.size else b
  }

  /** `fileSizeInBytes -= (int)blockSizeDownload`: the amount subtracted per
      block after the cast to int. */
  function Step(init: InitResponse): int {
    Wrap32(BlockSize(init))
  }

  /** The inputs on which the loop never ends: without chunking, a positive
      size that is a multiple of 2^32 casts to a step of 0. */
  predicate LoopsForever(init: InitResponse) {
    init.size > 0 && !init.chunking && init.size % 0x1_0000_0000 == 0
  }

  /** The capacity `(int)fileSizeInBytes` given to the byte list; a negative
      one throws. */
  predicate CapacityOk(init: InitResponse) {
    Wrap32(init.size) >= 0
  }

  lemma StepIsPositive(init: InitResponse)
    requires init.size > 0 && CapacityOk(init) && !LoopsForever(init)
    ensures Step(init) > 0
  {
    if !init.chunking {
      assert BlockSize(init) == init.size;
      assert init.size % 0x1_0000_0000 != 0;
    }
  }

  /** The block requests the loop issues while `remaining` is positive. */
  function Requests(remaining: int, block: int, step: int, offset: int): (r: seq<Request>)
    requires step > 0 || remaining <= 0
    ensures remaining <= 0 <==> r == []
    decreases if remaining > 0 then remaining else 0
  {
    if remaining <= 0 then []
    else [Request(offset, block)] + Requests(remaining - step, block, step, offset + block)
  }

  /** The bytes of all blocks in order; a failing block (an exception or a
      null data array) fails the whole download. */
  function FetchAll(fetch: Request -> Option<Bytes>, reqs: seq<Request>): (r: Option<Bytes>)
    decreases |reqs|
  {
    if reqs == [] then Some([])
    else
      match fetch(reqs[0])
      case None => None
      case Some(d) =>
        match FetchAll(fetch, reqs[1..])
        case None => None
        case Some(rest) => Some(d + rest)
  }

  /** The download loop. */
  method DownloadBlocks(fetch: Request -> Option<Bytes>, size: int, block: int, step: int) returns (data: Option<Bytes>)
    requires step > 0 || size <= 0
    ensures data == FetchAll(fetch, Requests(size, block, step, 0))
  {
    var remaining := size;
    var offset := 0;
    var acc: Bytes := [];
    forall rest: Bytes ensures acc + rest == rest {
    }
    while remaining > 0
      invariant step > 0 || remaining <= 0
      invariant FetchAll(fetch, Requests(size, block, step, 0)) ==
                  (match FetchAll(fetch, Requests(remaining, block, step, offset))
                   case None => None
                   case Some(rest) => Some(acc + rest))
      decreases if remaining > 0 then remaining else 0
    {
      var d := fetch(Request(offset, block));
      if d.None? {
        return None;
      }
      assert acc + (d.value + []) == (acc + d.value) + [];
      forall rest: Bytes ensures acc + (d.value + rest) == (acc + d.value) + rest {
      }
      acc := acc + d.value;
      remaining := remaining - step;
      offset := offset + block;
    }
    assert acc + [] == acc;
    data := Some(acc);
  }

  /** DownloadFile of the handlers: `None` is the source's `null` (the
      exception was logged). */
  function DownloadBytes(init: Option<InitResponse>, fetch: Request -> Option<Bytes>): Option<Bytes>
    requires init.Some? ==> !LoopsForever(init.value)
  {
    if init.None? || !CapacityOk(init.value) then None
    else
      var i := init.value;
      assert i.size > 0 ==> Step(i) > 0 by { if i.size > 0 { StepIsPositive(i); } }
      FetchAll(fetch, Requests(i.size, BlockSize(i), Step(i), 0))
  }

  /** DownloadFile of the file downloader: besides the bytes it says whether
      the file name looks like a spreadsheet. A failure before the name is
      examined leaves the flag false; a failing block keeps it. */
  function DownloadFile(init: Option<InitResponse>, fetch: Request -> Option<Bytes>): (r: (Option<Bytes>, bool))
    requires init.Some? ==> !LoopsForever(init.value)
    ensures r.1 ==> (init.Some? && init.value.fileName.Some?
                     && Patterns.MatchesSpreadsheetPattern(init.value.fileName.value))
    ensures init.Some? && CapacityOk(init.value) && init.value.fileName.Some? ==>
              (r.1 <==> Patterns.MatchesSpreadsheetPattern(init.value.fileName.value))
    ensures r.0.Some? ==> init.Some? && init.value.fileName.Some?
  {
    if init.None? || !CapacityOk(init.value) then (None, false)
    else if init.value.fileName.None? then (None, false)
    else (DownloadBytes(init, fetch), Patterns.MatchesSpreadsheetPattern(init.value.fileName.value))
  }

  /** The two revisions fetch the same bytes; the downloader additionally
      fails on a missing file name. */
  lemma DownloadRevisionsAgree(init: Option<InitResponse>, fetch: Request -> Option<Bytes>)
    requires init.Some? ==> !LoopsForever(init.value)
    ensures DownloadFile(init, fetch).0 ==
              if init.Some? && init.value.fileName.None? then None else DownloadBytes(init, fetch)
  {
  }

  /** On a positive multiple of 2^32 without chunking the capacity cast
      succeeds, but the cast step is 0: the remaining size stays positive
      after every block and the loop ends only if a block request fails. */
  lemma CastStepVanishes(init: InitResponse)
    requires LoopsForever(init)
    ensures CapacityOk(init) && Step(init) == 0
    ensures init.size - Step(init) == init.size > 0
  {
    assert BlockSize(init) == init.size;
  }

  /** A 4 GiB file served without chunking is such an input. */
  lemma LoopingExample()
    ensures LoopsForever(InitResponse(Some("report.xlsx"), 0x1_0000_0000, false))
    ensures Step(InitResponse(Some("report.xlsx"), 0x1_0000_0000, false)) == 0
  {
    CastStepVanishes(InitResponse(Some("report.xlsx"), 0x1_0000_0000, false));
  }

  /** The step as evidently intended: the block length itself, subtracted
      as a 64-bit value without the cast to int. */
  function IntendedStep(init: InitResponse): (s: int)
    ensures init.size > 0 ==> s > 0
    ensures IsInt32(BlockSize(init)) ==> s == Step(init)
  {
    BlockSize(init)
  }

  /** The download with the intended step, defined for every size. */
  function IntendedDownloadBytes(init: Option<InitResponse>, fetch: Request -> Option<Bytes>): Option<Bytes> {
    if init.None? || !CapacityOk(init.value) then None
    else
      var i := init.value;
      FetchAll(fetch, Requests(i.size, BlockSize(i), IntendedStep(i), 0))
  }

  /** With the intended step every positive size is covered by consecutive
      blocks, just as many as it needs; without chunking that is one
      request for the whole file, however large. */
  lemma IntendedRequestsCoverFile(init: InitResponse)
    requires init.size > 0
    ensures var b := BlockSize(init);
            var r := Requests(init.size, b, IntendedStep(init), 0);
            (forall k :: 0 <= k < |r| ==> r[k] == Request(k * b, b))
            && (|r| - 1) * b < init.size <= |r| * b
            && (!init.chunking ==> r == [Request(0, init.size)])
  {
    var b := BlockSize(init);
    RequestsAreConsecutiveBlocks(init.size, b, b, 0);
    RequestCount(init.size, b, b, 0);
    if !init.chunking {
      assert b == init.size;
      assert Requests(init.size - b, b, b, b) == [];
    }
  }

  /** Where the block length fits in an int the code as written never
      loops forever and downloads what the intended loop downloads. */
  lemma IntendedDownloadAgrees(init: InitResponse, fetch: Request -> Option<Bytes>)
    requires IsInt32(BlockSize(init))
    ensures !LoopsForever(init)
    ensures DownloadBytes(Some(init), fetch) == IntendedDownloadBytes(Some(init), fetch)
  {
  }

  // -----------------------------------------------------------------------
  // The schedule
  // -----------------------------------------------------------------------

  /** The k-th request starts k blocks in and asks for one block. */
  lemma {:induction false} RequestsAreConsecutiveBlocks(remaining: int, block: int, step: int, offset: int)
    requires step > 0
    ensures var r := Requests(remaining, block, step, offset);
            forall k :: 0 <= k < |r| ==> r[k] == Request(offset + k * block, block)
    decreases if remaining > 0 then remaining else 0
  {
    if remaining > 0 {
      RequestsAreConsecutiveBlocks(remaining - step, block, step, offset + block);
      var r := Requests(remaining, block, step, offset);
      forall k | 1 <= k < |r| ensures r[k] == Request(offset + k * block, block) {
        assert r[k] == Requests(remaining - step, block, step, offset + block)[k - 1];
        assert offset + block + (k - 1) * block == offset + k * block;
      }
    }
  }

  /** There are just enough requests to use up the size: `count` steps
      reach it and one fewer do not. */
  lemma {:induction false} RequestCount(remaining: int, block: int, step: int, offset: int)
    requires step > 0 && remaining > 0
    ensures var c := |Requests(remaining, block, step, offset)|;
            (c - 1) * step < remaining <= c * step
    decreases remaining
  {
    if remaining - step > 0 {
      RequestCount(remaining - step, block, step, offset + block);
      var c' := |Requests(remaining - step, block, step, offset + block)|;
      assert (c' + 1) * step == c' * step + step;
    }
  }

  /** Without chunking a file of at most 2^31 - 1 bytes takes one request
      for the whole file. */
  lemma WholeFileInOneRequest(init: InitResponse)
    requires !init.chunking && 0 < init.size <= Int32Max
    ensures Requests(init.size, BlockSize(init), Step(init), 0) == [Request(0, init.size)]
  {
  }

  /** Without chunking, a file above 2^31 - 1 bytes whose capacity cast
      passes and that is not a multiple of 2^32 is asked for again: the cast
      step is positive but smaller than the file, so after the whole-file
      request at offset 0 comes another whole-file request at the file's
      end. */
  lemma OversizedFileRequestedPastEnd(init: InitResponse)
    requires !init.chunking && init.size > Int32Max && CapacityOk(init) && !LoopsForever(init)
    ensures 0 < Step(init) < init.size
    ensures var r := Requests(init.size, BlockSize(init), Step(init), 0);
            |r| >= 2 && r[0] == Request(0, init.size) && r[1] == Request(init.size, init.size)
  {
    assert BlockSize(init) == init.size;
  }

  /** With chunking the requests are the consecutive 4 MiB blocks (one
      smaller block for a file below 4 MiB), as many as cover the file. */
  lemma ChunkedRequestsCoverFile(init: InitResponse)
    requires init.chunking && init.size > 0
    ensures var b := BlockSize(init);
            var r := Requests(init.size, b, Step(init), 0);
            b == (if init.size < ChunkSize then init.size else ChunkSize)
            && (forall k :: 0 <= k < |r| ==> r[k] == Request(k * b, b))
            && (|r| - 1) * b < init.size <= |r| * b
  {
    var b := BlockSize(init);
    assert Step(init) == b;
    RequestsAreConsecutiveBlocks(init.size, b, b, 0);
    RequestCount(init.size, b, b, 0);
  }

  /** An empty file takes no request and downloads as no bytes. */
  lemma EmptyFileDownloadsNothing(init: InitResponse, fetch: Request -> Option<Bytes>)
    requires init.size == 0
    ensures DownloadBytes(Some(init), fetch) == Some([])
  {
  }

  /** A size whose 32-bit cast is negative throws when the capacity is
      cast; it is never examined further. */
  lemma NegativeSizeFails(init: InitResponse, fetch: Request -> Option<Bytes>)
    requires Wrap32(init.size) < 0
    ensures !LoopsForever(init)
    ensures DownloadFile(Some(init), fetch) == (None, false)
  {
  }

  /** A non-positive size whose cast passes, −2^32 for one, requests no
      block: a named file downloads as no bytes. */
  lemma NonPositiveSizeDownloadsNothing(init: InitResponse, fetch: Request -> Option<Bytes>)
    requires init.size <= 0 && CapacityOk(init) && init.fileName.Some?
    ensures DownloadFile(Some(init), fetch).0 == Some([])
  {
  }

  /** Where every block arrives, the download is their concatenation. */
  lemma {:induction false} FetchAllConcatenates(fetch: Request -> Option<Bytes>, reqs: seq<Request>, parts: seq<Bytes>)
    requires |parts| == |reqs| && forall k :: 0 <= k < |reqs| ==> fetch(reqs[k]) == Some(parts[k])
    ensures FetchAll(fetch, reqs) == Some(Flatten(parts))
    decreases |reqs|
  {
    if reqs != [] {
      FetchAllConcatenates(fetch, reqs[1..], parts[1..]);
    }
  }

  function Flatten(parts: seq<Bytes>): (r: Bytes)
    decreases |parts|
  {
    if parts == [] then [] else parts[0] + Flatten(parts[1..])
  }

  /** A download fails exactly when one of its blocks does. */
  lemma {:induction false} FetchAllFailsOnAnyBlock(fetch: Request -> Option<Bytes>, reqs: seq<Request>)
    ensures FetchAll(fetch, reqs).None? <==> exists k :: 0 <= k < |reqs| && fetch(reqs[k]).None?
    decreases |reqs|
  {
    if reqs != [] {
      FetchAllFailsOnAnyBlock(fetch, reqs[1..]);
      if exists k :: 0 <= k < |reqs[1..]| && fetch(reqs[1..][k]).None? {
        var k :| 0 <= k < |reqs[1..]| && fetch(reqs[1..][k]).None?;
        assert fetch(reqs[k + 1]).None?;
      }
      if exists k :: 0 <= k < |reqs| && fetch(reqs[k]).None? {
        var k :| 0 <= k < |reqs| && fetch(reqs[k]).None?;
        if k > 0 { assert reqs[1..][k - 1] == reqs[k]; }
      }
    }
  }
}

=== FILE: entity.dfy ===
/** The CRM entity as the merger uses it: a logical name, an id and an
    attribute collection, with the two copy helpers of EntityExtension. */
module Entities {
  import opened Basics

  /** An attribute value as GetAttributeValue<string> sees it. */
  datatype AttrValue =
    | StringAttr(text: string)
    | NullAttr
    | OtherAttr(typeName: string)

  datatype Entity = Entity(logicalName: string, id: string, attributes: map<string, AttrValue>)

  /** The indexer `entity[key] = value`: adds the key or overwrites it. */
  function SetAttribute(e: Entity, key: string, v: AttrValue): (r: Entity)
    ensures r.logicalName == e.logicalName && r.id == e.id
    ensures key in r.attributes && r.attributes[key] == v
    ensures forall k :: k != key ==> (k in r.attributes <==> k in e.attributes)
    ensures forall k :: k != key && k in e.attributes ==> r.attributes[k] == e.attributes[k]
  {
    e.(attributes := e.attributes[key := v])
  }

  /** GetAttributeValue<string>: a missing key or a null value reads as null,
      a value of another type is an invalid cast. */
  function GetAttributeString(e: Entity, key: string): (r: Result<Option<string>>)
    ensures key !in e.attributes ==> r == Ok(None)
    ensures r.Err? <==> key in e.attributes && e.attributes[key].OtherAttr?
    ensures r.Err? ==> r.fault == InvalidCast
    ensures r.Ok? && r.value.Some? ==> key in e.attributes && e.attributes[key] == StringAttr(r.value.value)
  {
    if key !in e.attributes then Ok(None)
    else match e.attributes[key]
      case StringAttr(s) => Ok(Some(s))
      case NullAttr => Ok(None)
      case OtherAttr(_) => Err(InvalidCast)
  }

  /** A string written through the indexer reads back unchanged. */
  lemma SetThenGetString(e: Entity, key: string, s: string)
    ensures GetAttributeString(SetAttribute(e, key, StringAttr(s)), key) == Ok(Some(s))
  {
  }

  /** Clone: a new entity with the same name and id, then every attribute of
      the source copied through the indexer, one key at a time. */
  method Clone(source: Entity) returns (r: Entity)
    ensures r.logicalName == source.logicalName && r.id == source.id
    ensures r.attributes == source.attributes
  {
    r := Entity(source.logicalName, source.id, map[]);
    var pending := source.attributes.Keys;
    while pending != {}
      invariant pending <= source.attributes.Keys
      invariant r.logicalName == source.logicalName && r.id == source.id
      invariant r.attributes.Keys == source.attributes.Keys - pending
      invariant forall k :: k in r.attributes ==> r.attributes[k] == source.attributes[k]
      decreases pending
    {
      var k :| k in pending;
      r := SetAttribute(r, k, source.attributes[k]);
      pending := pending - {k};
    }
  }

  /** CloneEmpty: same name and id, no attributes. */
  function CloneEmpty(source: Entity): (r: Entity)
    ensures r.logicalName == source.logicalName && r.id == source.id
    ensures r.attributes == map[]
  {
    Entity(source.logicalName, source.id, map[])
  }

  /** An empty clone given one attribute carries exactly that attribute, and
      what the source held under other keys is gone. */
  lemma CloneEmptyThenSet(source: Entity, key: string, v: AttrValue)
    ensures SetAttribute(CloneEmpty(source), key, v).attributes == map[key := v]
    ensures GetAttributeString(SetAttribute(CloneEmpty(source), key, v), key).Ok? <==> !v.OtherAttr?
  {
  }
}

=== FILE: handler.dfy ===
/** The merge handlers: download every configured file field of the source
    entity, check that all of them arrived, decode the main annotation's
    document, merge the files into it one configuration entry at a time, and
    return an empty clone of the annotation carrying the merged document.
    Every failure ends in `null` (`None`). */
module Handlers {
  import opened Basics
  import opened Couples
  import opened Entities
  import opened Downloads
  import opened Documents
  import Patterns
  import Spreadsheets
  import Merging

  /** The two service requests of a file download, per file field: the
      initialisation (absent when it throws) and the block download. */
  datatype DownloadService = DownloadService(
    init: Option<string> -> Option<InitResponse>,
    fetch: (Option<string>, Request) -> Option<Bytes>)

  /** No field's download loop runs forever. */
  ghost predicate Terminates(svc: DownloadService) {
    forall f :: svc.init(f).Some? ==> !LoopsForever(svc.init(f).value)
  }

  /** Pairs of (file field, placeholder); an entry may be null. */
  type Configuration = seq<Option<Couple<string, string>>>

  datatype Handler = Handler(service: DownloadService, source: Entity, annotation: Entity, configuration: Configuration)

  /** The constructor: each of the four arguments is required. */
  function NewHandler(service: Option<DownloadService>, source: Option<Entity>, annotation: Option<Entity>,
                      configuration: Option<Configuration>): (r: Result<Handler>)
    ensures r.Ok? <==> service.Some? && source.Some? && annotation.Some? && configuration.Some?
    ensures r.Err? ==> r.fault == ArgumentNull
    ensures r.Ok? ==> r.value.source == source.value && r.value.annotation == annotation.value
                      && r.value.configuration == configuration.value
  {
    if service.None? || source.None? || annotation.None? || configuration.None? then Err(ArgumentNull)
    else Ok(Handler(service.value, source.value, annotation.value, configuration.value))
  }

  // -----------------------------------------------------------------------
  // Collecting the files
  // -----------------------------------------------------------------------

  /** `ConvertAll(i => i.Left)`: a null entry throws. */
  function FieldNames(config: Configuration): (r: Result<seq<Option<string>>>)
    ensures r.Ok? <==> forall k :: 0 <= k < |config| ==> config[k].Some?
    ensures r.Ok? ==> |r.value| == |config| && forall k :: 0 <= k < |config| ==> r.value[k] == config[k].value.left
    ensures r.Err? ==> r.fault == NullReference
  {
    if forall k :: 0 <= k < |config| ==> config[k].Some? then
      Ok(seq(|config|, k requires 0 <= k < |config| => config[k].value.left))
    else Err(NullReference)
  }

  /** The handlers' DownloadFile for one field. */
  function DownloadField(svc: DownloadService, field: Option<string>): Option<Bytes>
    requires Terminates(svc)
  {
    DownloadBytes(svc.init(field), req => svc.fetch(field, req))
  }

  /** The fields whose download returned a file, with the file, in order
      (`Where(i => i.File != null)`). */
  function Downloaded(svc: DownloadService, fields: seq<Option<string>>): (r: seq<(Option<string>, Bytes)>)
    requires Terminates(svc)
    ensures |r| <= |fields|
    ensures |r| == |fields| <==> forall k :: 0 <= k < |fields| ==> DownloadField(svc, fields[k]).Some?
    ensures |r| == |fields| ==> forall k :: 0 <= k < |fields| ==> r[k] == (fields[k], DownloadField(svc, fields[k]).value)
    decreases |fields|
  {
    if fields == [] then []
    else
      var rest := Downloaded(svc, fields[1..]);
      assert forall k :: 1 <= k < |fields| ==> fields[k] == fields[1..][k - 1];
      match DownloadField(svc, fields[0])
      case None => rest
      case Some(file) => [(fields[0], file)] + rest
  }

  function Keys(pairs: seq<(Option<string>, Bytes)>): (r: seq<Option<string>>)
    ensures |r| == |pairs| && forall k :: 0 <= k < |pairs| ==> r[k] == pairs[k].0
  {
    seq(|pairs|, k requires 0 <= k < |pairs| => pairs[k].0)
  }

  /** `ToDictionary`, adding the pairs in order: a null key throws
      ArgumentNullException and a repeated key ArgumentException. */
  function ToDictionary(pairs: seq<(Option<string>, Bytes)>): Result<map<string, Bytes>>
    decreases |pairs|
  {
    if pairs == [] then Ok(map[])
    else
      var d :- ToDictionary(pairs[..|pairs| - 1]);
      var (key, file) := pairs[|pairs| - 1];
      if key.None? then Err(ArgumentNull)
      else if key.value in d then Err(DuplicateKey)
      else Ok(d[key.value := file])
  }

  /** The dictionary is built exactly when every key is present and no key
      repeats. */
  lemma {:induction false} ToDictionaryDefined(pairs: seq<(Option<string>, Bytes)>)
    ensures ToDictionary(pairs).Ok? <==>
              (forall k :: 0 <= k < |pairs| ==> pairs[k].0.Some?) && Distinct(Keys(pairs))
    decreases |pairs|
  {
    if pairs != [] {
      var n := |pairs| - 1;
      var front := pairs[..n];
      var key := pairs[n].0;
      ToDictionaryDefined(front);
      assert Keys(pairs) == Keys(front) + [key];
      DistinctSnoc(Keys(front), key);
      if ToDictionary(front).Ok? && key.Some? {
        ToDictionaryContents(front);
        var d := ToDictionary(front).value;
        assert key.value in d <==> key in Keys(front);
      }
    }
  }

  /** A built dictionary holds each pair, one entry per pair, and nothing
      else. */
  lemma {:induction false} ToDictionaryContents(pairs: seq<(Option<string>, Bytes)>)
    requires ToDictionary(pairs).Ok?
    ensures var d := ToDictionary(pairs).value;
            |d| == |pairs|
            && (forall k :: 0 <= k < |pairs| ==> pairs[k].0.Some? && pairs[k].0.value in d && d[pairs[k].0.value] == pairs[k].1)
            && (forall key :: key in d ==> exists k :: 0 <= k < |pairs| && pairs[k].0 == Some(key))
    decreases |pairs|
  {
    if pairs != [] {
      var n := |pairs| - 1;
      var front := pairs[..n];
      ToDictionaryContents(front);
      var d := ToDictionary(front).value;
      var key := pairs[n].0;
      assert ToDictionary(pairs).value == d[key.value := pairs[n].1];
      forall k | 0 <= k < n ensures front[k].0.value != key.value {
        assert front[k].0.value in d;
      }
    }
  }

  /** The file dictionary of a handler, or `None` where the handler returns
      null before merging: a null configuration entry, a null or repeated
      field name, or fewer files than fields. */
  function CollectFiles(h: Handler): Option<map<string, Bytes>>
    requires Terminates(h.service)
  {
    match FieldNames(h.configuration)
    case Err(_) => None
    case Ok(fields) =>
      match ToDictionary(Downloaded(h.service, fields))
      case Err(_) => None
      case Ok(files) => if |fields| > |files| then None else Some(files)
  }

  /** The handler goes on to merge exactly when every configuration entry is
      present, every field name is present and distinct, and every
      download succeeds; the dictionary then maps each field to its file. */
  lemma CollectFilesSpec(h: Handler)
    requires Terminates(h.service)
    ensures CollectFiles(h).Some? <==>
              FieldNames(h.configuration).Ok?
              && var fields := FieldNames(h.configuration).value;
                 (forall k :: 0 <= k < |fields| ==> fields[k].Some? && DownloadField(h.service, fields[k]).Some?)
                 && Distinct(fields)
    ensures CollectFiles(h).Some? ==>
              var fields := FieldNames(h.configuration).value;
              forall k :: 0 <= k < |fields| ==>
                fields[k].value in CollectFiles(h).value
                && CollectFiles(h).value[fields[k].value] == DownloadField(h.service, fields[k]).value
  {
    if FieldNames(h.configuration).Ok? {
      var fields := FieldNames(h.configuration).value;
      var pairs := Downloaded(h.service, fields);
      ToDictionaryDefined(pairs);
      if ToDictionary(pairs).Ok? {
        ToDictionaryContents(pairs);
      }
      if |pairs| == |fields| {
        assert Keys(pairs) == fields;
      }
    }
  }

  // -----------------------------------------------------------------------
  // The main document
  // -----------------------------------------------------------------------

  /** `Convert.FromBase64String(GetAttributeValue<string>("documentbody"))`:
      a missing or null attribute, one of another type, and text that is not
      base64 all throw. */
  function MainDocumentBytes(codecs: Merging.Codecs, annotation: Entity): Option<Bytes> {
    match GetAttributeString(annotation, Patterns.AnnotationDocumentBody)
    case Err(_) => None
    case Ok(None) => None
    case Ok(Some(text)) => codecs.decode64(text)
  }

  /** The returned annotation: an empty clone with only the merged document. */
  function Annotated(codecs: Merging.Codecs, annotation: Entity, merged: Bytes): Entity {
    SetAttribute(CloneEmpty(annotation), Patterns.AnnotationDocumentBody, StringAttr(codecs.encode64(merged)))
  }

  // -----------------------------------------------------------------------
  // Word files
  // -----------------------------------------------------------------------

  /** `Array.TrueForAll` over the configuration for the Word merge: a field
      missing from the dictionary stops the loop with false; a failed merge
      leaves `null` as the main document, which every later merge turns
      into `null` again. */
  function WordFold(codecs: Merging.Codecs, files: map<string, Bytes>, config: seq<Couple<string, string>>,
                    main: Option<Bytes>): (bool, Option<Bytes>)
    decreases |config|
  {
    if config == [] then (true, main)
    else
      var c := config[0];
      if c.left.None? || c.left.value !in files then (false, main)
      else WordFold(codecs, files, config[1..],
                    Merging.MergeWordDocumentsBase64(codecs, main, Some(files[c.left.value]), c.right))
  }

  /** Every entry names a field of the dictionary. */
  predicate FieldsIn(files: map<string, Bytes>, config: seq<Couple<string, string>>) {
    forall k :: 0 <= k < |config| ==> config[k].left.Some? && config[k].left.value in files
  }

  /** The merges chained, stopping at the first that fails: what the fold
      computes. */
  function WordChain(codecs: Merging.Codecs, files: map<string, Bytes>, config: seq<Couple<string, string>>,
                     main: Bytes): Option<Bytes>
    requires FieldsIn(files, config)
    decreases |config|
  {
    if config == [] then Some(main)
    else
      var c := config[0];
      match Merging.MergeWordDocumentsBase64(codecs, Some(main), Some(files[c.left.value]), c.right)
      case None => None
      case Some(next) => WordChain(codecs, files, config[1..], next)
  }

  /** Once the main document is null the Word fold keeps it null. */
  lemma {:induction false} WordFoldFromNull(codecs: Merging.Codecs, files: map<string, Bytes>,
                                            config: seq<Couple<string, string>>)
    requires FieldsIn(files, config)
    ensures WordFold(codecs, files, config, None) == (true, None)
    decreases |config|
  {
    if config != [] {
      WordFoldFromNull(codecs, files, config[1..]);
    }
  }

  /** With every field in the dictionary the fold runs to the end and its
      result is the chain of merges, `null` if any of them fails. */
  lemma {:induction false} WordFoldIsChain(codecs: Merging.Codecs, files: map<string, Bytes>,
                                           config: seq<Couple<string, string>>, main: Bytes)
    requires FieldsIn(files, config)
    ensures WordFold(codecs, files, config, Some(main)) == (true, WordChain(codecs, files, config, main))
    decreases |config|
  {
    if config != [] {
      var c := config[0];
      match Merging.MergeWordDocumentsBase64(codecs, Some(main), Some(files[c.left.value]), c.right)
      case None => WordFoldFromNull(codecs, files, config[1..]);
      case Some(next) => WordFoldIsChain(codecs, files, config[1..], next);
    }
  }

  /** The configuration entries, all present once FieldNames succeeded. */
  function Entries(config: Configuration): (r: seq<Couple<string, string>>)
    requires forall k :: 0 <= k < |config| ==> config[k].Some?
    ensures |r| == |config| && forall k :: 0 <= k < |config| ==> r[k] == config[k].value
  {
    seq(|config|, k requires 0 <= k < |config| => config[k].value)
  }

  /** Every configured field is a key of the collected files, so the
      Word fold never stops at a missing key. */
  lemma CollectedFieldsAreIn(h: Handler)
    requires Terminates(h.service) && CollectFiles(h).Some?
    ensures FieldsIn(CollectFiles(h).value, Entries(h.configuration))
  {
    CollectFilesSpec(h);
    var config := Entries(h.configuration);
    var fields := FieldNames(h.configuration).value;
    assert forall k :: 0 <= k < |config| ==> config[k].left == fields[k];
  }

  /** WordDocumentsIntoWordHandle. */
  function WordDocumentsIntoWordHandle(h: Handler, codecs: Merging.Codecs): Option<Entity>
    requires Terminates(h.service)
  {
    match CollectFiles(h)
    case None => None
    case Some(files) =>
      match MainDocumentBytes(codecs, h.annotation)
      case None => None
      case Some(main) =>
        var (check, merged) := WordFold(codecs, files, Entries(h.configuration), Some(main));
        if !check || merged.None? then None
        else Some(Annotated(codecs, h.annotation, merged.value))
  }

  /** The Word handler annotates exactly when every file arrived, the main
      document decodes and every merge in configuration order succeeds; the
      result is an empty clone of the annotation whose only attribute is the
      base64 text of the last merge. */
  lemma WordHandleSpec(h: Handler, codecs: Merging.Codecs)
    requires Terminates(h.service)
    ensures var r := WordDocumentsIntoWordHandle(h, codecs);
            r.Some? <==>
              CollectFiles(h).Some? && MainDocumentBytes(codecs, h.annotation).Some?
              && FieldsIn(CollectFiles(h).value, Entries(h.configuration))
              && WordChain(codecs, CollectFiles(h).value, Entries(h.configuration),
                           MainDocumentBytes(codecs, h.annotation).value).Some?
    ensures var r := WordDocumentsIntoWordHandle(h, codecs);
            r.Some? ==>
              FieldsIn(CollectFiles(h).value, Entries(h.configuration)) &&
              var merged := WordChain(codecs, CollectFiles(h).value, Entries(h.configuration),
                                      MainDocumentBytes(codecs, h.annotation).value).value;
              r.value.logicalName == h.annotation.logicalName && r.value.id == h.annotation.id
              && r.value.attributes == map[Patterns.AnnotationDocumentBody := StringAttr(codecs.encode64(merged))]
  {
    if CollectFiles(h).Some? && MainDocumentBytes(codecs, h.annotation).Some? {
      CollectedFieldsAreIn(h);
      WordFoldIsChain(codecs, CollectFiles(h).value, Entries(h.configuration),
                      MainDocumentBytes(codecs, h.annotation).value);
    }
  }

  // -----------------------------------------------------------------------
  // Spreadsheet files
  // -----------------------------------------------------------------------

  /** ConvertExcelToWordTable on the downloaded bytes: bytes that are not a
      spreadsheet package throw when opened. */
  function TableOf(codecs: Merging.Codecs, file: Bytes): Result<Node> {
    match codecs.openWorkbook(file)
    case None => Err(Format)
    case Some(book) => Spreadsheets.ConvertExcelToWordTable(book)
  }

  /** `Array.TrueForAll` for the spreadsheet merge: a missing field or a
      file that does not convert stops the loop with false; a failed merge
      leaves `null` as the main document. */
  function ExcelFold(codecs: Merging.Codecs, files: map<string, Bytes>, config: seq<Couple<string, string>>,
                     main: Option<Bytes>): (bool, Option<Bytes>)
    decreases |config|
  {
    if config == [] then (true, main)
    else
      var c := config[0];
      if c.left.None? || c.left.value !in files then (false, main)
      else match TableOf(codecs, files[c.left.value])
        case Err(_) => (false, main)
        case Ok(table) =>
          ExcelFold(codecs, files, config[1..], Merging.MergeExcelDocumentsBase64(codecs, main, table, c.right))
  }

  /** Every configured file converts to a table. */
  predicate AllConvert(codecs: Merging.Codecs, files: map<string, Bytes>, config: seq<Couple<string, string>>) {
    forall k :: 0 <= k < |config| ==>
      config[k].left.Some? && config[k].left.value in files && TableOf(codecs, files[config[k].left.value]).Ok?
  }

  function ExcelChain(codecs: Merging.Codecs, files: map<string, Bytes>, config: seq<Couple<string, string>>,
                      main: Bytes): Option<Bytes>
    requires AllConvert(codecs, files, config)
    decreases |config|
  {
    if config == [] then Some(main)
    else
      var c := config[0];
      var table := TableOf(codecs, files[c.left.value]).value;
      match Merging.MergeExcelDocumentsBase64(codecs, Some(main), table, c.right)
      case None => None
      case Some(next) => ExcelChain(codecs, files, config[1..], next)
  }

  /** The fold reports success exactly when every configured file converts
      to a table. */
  lemma {:induction false} ExcelFoldChecksConversions(codecs: Merging.Codecs, files: map<string, Bytes>,
                                                      config: seq<Couple<string, string>>, main: Option<Bytes>)
    ensures ExcelFold(codecs, files, config, main).0 <==> AllConvert(codecs, files, config)
    decreases |config|
  {
    if config != [] {
      var c := config[0];
      if c.left.Some? && c.left.value in files && TableOf(codecs, files[c.left.value]).Ok? {
        var next := Merging.MergeExcelDocumentsBase64(codecs, main, TableOf(codecs, files[c.left.value]).value, c.right);
        ExcelFoldChecksConversions(codecs, files, config[1..], next);
        assert AllConvert(codecs, files, config) <==> AllConvert(codecs, files, config[1..]) by {
          assert forall k :: 1 <= k < |config| ==> config[k] == config[1..][k - 1];
        }
      }
    }
  }

  lemma {:induction false} ExcelFoldFromNull(codecs: Merging.Codecs, files: map<string, Bytes>,
                                             config: seq<Couple<string, string>>)
    requires AllConvert(codecs, files, config)
    ensures ExcelFold(codecs, files, config, None) == (true, None)
    decreases |config|
  {
    if config != [] {
      assert AllConvert(codecs, files, config[1..]) by {
        assert forall k :: 1 <= k < |config| - 1 ==> config[1..][k] == config[k + 1];
      }
      ExcelFoldFromNull(codecs, files, config[1..]);
    }
  }

  /** When every file converts, the fold's result is the chain of merges. */
  lemma {:induction false} ExcelFoldIsChain(codecs: Merging.Codecs, files: map<string, Bytes>,
                                            config: seq<Couple<string, string>>, main: Bytes)
    requires AllConvert(codecs, files, config)
    ensures ExcelFold(codecs, files, config, Some(main)) == (true, ExcelChain(codecs, files, config, main))
    decreases |config|
  {
    if config != [] {
      var c := config[0];
      assert AllConvert(codecs, files, config[1..]) by {
        assert forall k :: 0 <= k < |config| - 1 ==> config[1..][k] == config[k + 1];
      }
      var table := TableOf(codecs, files[c.left.value]).value;
      match Merging.MergeExcelDocumentsBase64(codecs, Some(main), table, c.right)
      case None => ExcelFoldFromNull(codecs, files, config[1..]);
      case Some(next) => ExcelFoldIsChain(codecs, files, config[1..], next);
    }
  }

  /** ExcelDocumentsIntoWordHandle. */
  function ExcelDocumentsIntoWordHandle(h: Handler, codecs: Merging.Codecs): Option<Entity>
    requires Terminates(h.service)
  {
    match CollectFiles(h)
    case None => None
    case Some(files) =>
      match MainDocumentBytes(codecs, h.annotation)
      case None => None
      case Some(main) =>
        var (check, merged) := ExcelFold(codecs, files, Entries(h.configuration), Some(main));
        if !check || merged.None? then None
        else Some(Annotated(codecs, h.annotation, merged.value))
  }

  /** The spreadsheet handler annotates exactly when every file arrived and
      converts to a table, the main document decodes and every merge
      succeeds; the result carries only the base64 text of the last merge. */
  lemma ExcelHandleSpec(h: Handler, codecs: Merging.Codecs)
    requires Terminates(h.service)
    ensures var r := ExcelDocumentsIntoWordHandle(h, codecs);
            r.Some? <==>
              CollectFiles(h).Some? && MainDocumentBytes(codecs, h.annotation).Some?
              && AllConvert(codecs, CollectFiles(h).value, Entries(h.configuration))
              && ExcelChain(codecs, CollectFiles(h).value, Entries(h.configuration),
                            MainDocumentBytes(codecs, h.annotation).value).Some?
    ensures var r := ExcelDocumentsIntoWordHandle(h, codecs);
            r.Some? ==>
              var merged := ExcelChain(codecs, CollectFiles(h).value, Entries(h.configuration),
                                       MainDocumentBytes(codecs, h.annotation).value).value;
              r.value.logicalName == h.annotation.logicalName && r.value.id == h.annotation.id
              && r.value.attributes == map[Patterns.AnnotationDocumentBody := StringAttr(codecs.encode64(merged))]
  {
    if CollectFiles(h).Some? && MainDocumentBytes(codecs, h.annotation).Some? {
      var files := CollectFiles(h).value;
      var config := Entries(h.configuration);
      var main := MainDocumentBytes(codecs, h.annotation).value;
      ExcelFoldChecksConversions(codecs, files, config, Some(main));
      if AllConvert(codecs, files, config) {
        ExcelFoldIsChain(codecs, files, config, main);
      }
    }
  }

  // -----------------------------------------------------------------------
  // The console project's handler
  // -----------------------------------------------------------------------

  /** Handle of the console project's handler: it collects the files like
      the others, then stops before any merge. */
  function Handle(h: Handler): (r: Option<Entity>)
    requires Terminates(h.service)
    ensures r.None?
  {
    match CollectFiles(h)
    case None => None
    case Some(_) => None
  }
}

=== FILE: images.dfy ===
/** The image part copy: every image part of the inserted document is added
    to the main document under a new relationship id, with the same content
    type and bytes, and the map from old to new relationship ids is kept. */
module Images {
  import opened Basics

  datatype ImagePart = ImagePart(relId: string, contentType: string, data: Bytes)

  /** The parts added to the main document and the old-to-new id map. */
  datatype ImageCopy = ImageCopy(added: seq<ImagePart>, imageMap: map<string, string>)

  function MaxLen(ids: seq<string>): (r: nat)
    ensures forall k :: 0 <= k < |ids| ==> |ids[k]| <= r
    decreases |ids|
  {
    if ids == [] then 0
    else
      var m := MaxLen(ids[1..]);
      assert forall k :: 1 <= k < |ids| ==> ids[k] == ids[1..][k - 1];
      if |ids[0]| > m then |ids[0]| else m
  }

  function Zeros(n: nat): (r: string)
    ensures |r| == n
  {
    if n == 0 then "" else "0" + Zeros(n - 1)
  }

  /** The package assigns a relationship id not used by the part yet; the
      model picks one longer than every id in use. */
  function FreshRelId(used: seq<string>): (r: string)
    ensures r !in used
  {
    var r := "R" + Zeros(MaxLen(used));
    assert forall k :: 0 <= k < |used| ==> |used[k]| < |r|;
    r
  }

  /** The loop of CopyImages: `AddImagePart(ContentType)`, `FeedData`, and
      `imageMap[oldRelId] = newRelId`, a later old id overwriting. */
  function CopyImages(used: seq<string>, inserted: seq<ImagePart>): (r: ImageCopy)
    ensures |r.added| == |inserted|
    decreases |inserted|
  {
    if inserted == [] then ImageCopy([], map[])
    else
      var id := FreshRelId(used);
      var rest := CopyImages(used + [id], inserted[1..]);
      ImageCopy([ImagePart(id, inserted[0].contentType, inserted[0].data)] + rest.added,
                map[inserted[0].relId := id] + rest.imageMap)
  }

  function RelIds(parts: seq<ImagePart>): (r: seq<string>)
    ensures |r| == |parts| && forall k :: 0 <= k < |parts| ==> r[k] == parts[k].relId
  {
    seq(|parts|, k requires 0 <= k < |parts| => parts[k].relId)
  }

  /** The k-th added part is a copy of the k-th inserted one under an id
      that is neither in use nor given to another added part. */
  lemma {:induction false} CopiesAreFaithfulAndFresh(used: seq<string>, inserted: seq<ImagePart>)
    ensures var added := CopyImages(used, inserted).added;
            (forall k :: 0 <= k < |added| ==>
               added[k].contentType == inserted[k].contentType && added[k].data == inserted[k].data
               && added[k].relId !in used)
            && Distinct(RelIds(added))
    decreases |inserted|
  {
    if inserted != [] {
      var id := FreshRelId(used);
      var rest := CopyImages(used + [id], inserted[1..]);
      CopiesAreFaithfulAndFresh(used + [id], inserted[1..]);
      var added := CopyImages(used, inserted).added;
      assert added[1..] == rest.added;
      forall k | 1 <= k < |added|
        ensures added[k].contentType == inserted[k].contentType && added[k].data == inserted[k].data
        ensures added[k].relId !in used && added[k].relId != id
      {
        assert added[k] == rest.added[k - 1];
        assert inserted[k] == inserted[1..][k - 1];
        assert (used + [id])[|used|] == id;
        assert forall u :: u in used ==> u in used + [id];
      }
      forall a, b | 0 <= a < b < |added| ensures RelIds(added)[a] != RelIds(added)[b] {
        if a > 0 {
          assert RelIds(rest.added)[a - 1] != RelIds(rest.added)[b - 1];
        }
      }
    }
  }

  /** The map knows exactly the inserted parts' old ids. */
  lemma {:induction false} ImageMapKeys(used: seq<string>, inserted: seq<ImagePart>)
    ensures CopyImages(used, inserted).imageMap.Keys == set x | x in RelIds(inserted)
    decreases |inserted|
  {
    if inserted != [] {
      var id := FreshRelId(used);
      ImageMapKeys(used + [id], inserted[1..]);
      assert RelIds(inserted) == [inserted[0].relId] + RelIds(inserted[1..]);
    }
  }

  /** No later inserted part has the same old id. */
  predicate IsLastWithId(inserted: seq<ImagePart>, j: int) {
    0 <= j < |inserted| && forall j' :: j < j' < |inserted| ==> inserted[j'].relId != inserted[j].relId
  }

  /** The map sends each old id to the new id of the last part that had it. */
  lemma {:induction false} ImageMapPointsToCopies(used: seq<string>, inserted: seq<ImagePart>)
    ensures var r := CopyImages(used, inserted);
            forall j :: IsLastWithId(inserted, j) ==>
              inserted[j].relId in r.imageMap && r.imageMap[inserted[j].relId] == r.added[j].relId
    decreases |inserted|
  {
    if inserted != [] {
      var id := FreshRelId(used);
      var tail := inserted[1..];
      var rest := CopyImages(used + [id], tail);
      ImageMapPointsToCopies(used + [id], tail);
      ImageMapKeys(used + [id], tail);
      var r := CopyImages(used, inserted);
      forall j | IsLastWithId(inserted, j)
        ensures inserted[j].relId in r.imageMap && r.imageMap[inserted[j].relId] == r.added[j].relId
      {
        if j == 0 {
          forall k | 0 <= k < |tail| ensures RelIds(tail)[k] != inserted[0].relId {
            assert tail[k] == inserted[k + 1];
          }
          assert inserted[0].relId !in rest.imageMap.Keys;
        } else {
          assert tail[j - 1] == inserted[j];
          forall j' | j - 1 < j' < |tail| ensures tail[j'].relId != tail[j - 1].relId {
            assert tail[j'] == inserted[j' + 1];
          }
          assert IsLastWithId(tail, j - 1);
          assert r.added[j] == rest.added[j - 1];
        }
      }
    }
  }
}

=== FILE: logging.dfy ===
/** The two merge loggers: the one that forwards formatted lines to a
    caller-supplied action, and the one that only collects errors. */
module Logging {
  import opened Basics

  datatype Severity = Info | Warning | Error

  /** The enum member's name, as string interpolation prints it. */
  function SeverityName(s: Severity): string {
    match s
    case Info => "Info"
    case Warning => "Warning"
    case Error => "Error"
  }

  /** The line `$"[{severity}] {message}"`. */
  function LogLine(s: Severity, message: string): (r: string)
    ensures |r| == |SeverityName(s)| + 3 + |message|
    ensures r[0] == '[' && r[1..|SeverityName(s)| + 1] == SeverityName(s)
    ensures r[|SeverityName(s)| + 1..|SeverityName(s)| + 3] == "] "
    ensures r[|SeverityName(s)| + 3..] == message
  {
    "[" + SeverityName(s) + "] " + message
  }

  /** Reads a log line back: the severity in brackets, then the message. */
  function ParseLogLine(line: string): Option<(Severity, string)> {
    if |line| >= 7 && line[..7] == "[Info] " then Some((Info, line[7..]))
    else if |line| >= 10 && line[..10] == "[Warning] " then Some((Warning, line[10..]))
    else if |line| >= 8 && line[..8] == "[Error] " then Some((Error, line[8..]))
    else None
  }

  /** No information is lost in a log line. */
  lemma LogLineRoundTrip(s: Severity, message: string)
    ensures ParseLogLine(LogLine(s, message)) == Some((s, message))
  {
    var line := LogLine(s, message);
    match s
    case Info =>
      assert line[..7] == "[Info] ";
    case Warning =>
      assert line[..10] == "[Warning] ";
      assert line[..7] != "[Info] " by { assert line[1] == 'W'; }
    case Error =>
      assert line[..8] == "[Error] ";
      assert line[..7] != "[Info] " by { assert line[1] == 'E'; }
      assert |line| < 10 || line[..10] != "[Warning] " by { assert line[1] == 'E'; }
  }

  /** A logger. `ActionLogger(forwards)` was built from an action, which is
      replaced by a no-op when null (`forwards` is false then). */
  datatype MergeLogger = ActionLogger(forwards: bool) | NullLogger

  /** The factory's constructor for the action logger. */
  function NewActionLogger(actionPresent: bool): (r: MergeLogger)
    ensures r.ActionLogger? && (r.forwards <==> actionPresent)
  {
    ActionLogger(actionPresent)
  }

  /** Log: the lines handed to the caller's action. */
  function Log(logger: MergeLogger, s: Severity, message: string): (lines: seq<string>)
    ensures logger.NullLogger? || !logger.forwards ==> lines == []
    ensures logger.ActionLogger? && logger.forwards ==>
              |lines| == 1 && ParseLogLine(lines[0]) == Some((s, message))
  {
    LogLineRoundTrip(s, message);
    match logger
    case ActionLogger(forwards) => if forwards then [LogLine(s, message)] else []
    case NullLogger => []
  }

  /** LogError: appends the message to the caller's error list (`None` is a
      null list) and, for the action logger, emits an Error line. The action
      logger dereferences the list, so a null list is a null reference; the
      null logger skips it. */
  function LogError(logger: MergeLogger, message: string, errors: Option<seq<string>>)
    : (r: Result<(Option<seq<string>>, seq<string>)>)
    ensures r.Err? <==> logger.ActionLogger? && errors.None?
    ensures r.Err? ==> r.fault == NullReference
    ensures r.Ok? ==> (r.value.0.Some? <==> errors.Some?)
    ensures r.Ok? && errors.Some? ==>
              var es := r.value.0.value;
              |es| == |errors.value| + 1 && es[..|errors.value|] == errors.value && es[|errors.value|] == message
    ensures r.Ok? ==> r.value.1 == Log(logger, Error, message)
  {
    match logger
    case ActionLogger(forwards) =>
      if errors.None? then Err(NullReference)
      else Ok((Some(errors.value + [message]), Log(logger, Error, message)))
    case NullLogger =>
      if errors.None? then Ok((None, []))
      else Ok((Some(errors.value + [message]), []))
  }

  /** Logging errors one after another collects them in order. */
  lemma {:induction false} ErrorsAccumulateInOrder(logger: MergeLogger, messages: seq<string>, errors: seq<string>)
    ensures LogAll(logger, messages, errors) == errors + messages
    decreases |messages|
  {
    if messages != [] {
      ErrorsAccumulateInOrder(logger, messages[1..], errors + [messages[0]]);
      assert errors + [messages[0]] + messages[1..] == errors + messages;
    }
  }

  /** The error list after logging each message in turn. */
  function LogAll(logger: MergeLogger, messages: seq<string>, errors: seq<string>): seq<string>
    decreases |messages|
  {
    if messages == [] then errors
    else
      var r := LogError(logger, messages[0], Some(errors));
      LogAll(logger, messages[1..], r.value.0.value)
  }
}

=== FILE: merge.dfy ===
/** Merging one document into another at a placeholder paragraph: the
    Word-into-Word merge (styles, numbering and images copied, the inserted
    body's elements spliced in with their references repointed), the
    table-into-Word merge, and the strict revision of the Word merge that
    works on base64 text. */
module Merging {
  import opened Basics
  import opened Documents
  import opened References
  import Styles
  import Numbering
  import Images
  import Spreadsheets

  /** The root element of a main document part: a null `Document`, a
      `Document` without a `Body`, or one whose body holds these children. */
  datatype DocumentRoot = NullDocument | NoBody | WithBody(children: seq<Node>)

  /** The main document part of a word-processing package: its document
      root, style and theme parts, numbering part, image parts and the ids
      of its other relationships. */
  datatype MainPart = MainPart(
    document: DocumentRoot,
    styles: Styles.StyleCatalogue,
    numbering: PartState<Numbering.NumberingRoot>,
    images: seq<Images.ImagePart>,
    otherRelIds: seq<string>)

  /** What an inserted package without a main document part contributes:
      `MainDocumentPart?.Document.Body` is null there, read as `new Body()`. */
  const NoMainPart := MainPart(NoBody, Styles.StyleCatalogue(NoPart, None), NoPart, [], [])

  /** `MainDocumentPart?.Document.Body ?? new Body()` on a package with a
      main document part: a null `Document` throws, a missing body reads as
      the empty `new Body()`. */
  function TolerantBody(d: DocumentRoot): (r: Result<seq<Node>>)
    ensures r.Err? <==> d.NullDocument?
  {
    match d
    case NullDocument => Err(NullReference)
    case NoBody => Ok([])
    case WithBody(cs) => Ok(cs)
  }

  /** The library calls the merges make: base64 decoding (partial) and
      encoding, opening a package (failing on bytes that are not one;
      `None` inside is a package without a main document part or workbook
      part) and saving one. */
  datatype Codecs = Codecs(
    decode64: string -> Option<Bytes>,
    encode64: Bytes -> string,
    openWord: Bytes -> Option<Option<MainPart>>,
    saveWord: MainPart -> Bytes,
    openWorkbook: Bytes -> Option<Option<Spreadsheets.Workbook>>)

  // -----------------------------------------------------------------------
  // Placeholder
  // -----------------------------------------------------------------------

  predicate HasParagraph(body: seq<Node>) {
    exists k | 0 <= k < |PreorderSeq(body)| :: PreorderSeq(body)[k].tag == Paragraph
  }

  /** The index of the placeholder paragraph among the body's children: the
      first paragraph in document order whose text contains the token, which
      must be a child of the body. A null token makes `Contains` throw as
      soon as there is a paragraph to test. */
  function FindPlaceholder(body: seq<Node>, token: Option<string>): (r: Result<nat>)
    ensures r.Ok? <==> token.Some? && Locate(body, token.value).AtBody?
    ensures r.Ok? ==> r.value < |body| && IsMatch(body[r.value], token.value)
  {
    if token.None? then (if HasParagraph(body) then Err(ArgumentNull) else Err(InvalidOperation))
    else match Locate(body, token.value)
      case NotFound => Err(InvalidOperation)
      case Nested(_) => Err(InvalidOperation)
      case AtBody(i) => Ok(i)
  }

  /** The chosen paragraph is the first match in document order, and no
      earlier child of the body holds a match anywhere inside it. */
  lemma PlaceholderIsFirstMatch(body: seq<Node>, token: string)
    requires FindPlaceholder(body, Some(token)).Ok?
    ensures var i := FindPlaceholder(body, Some(token)).value;
            IsMatch(body[i], token)
            && (forall j :: 0 <= j < i ==> !HasMatch(Preorder(body[j]), token))
            && FirstMatchAt(PreorderSeq(body), Start(body, i), token)
  {
    LocateIsFirstInDocumentOrder(body, token);
  }

  // -----------------------------------------------------------------------
  // Word into Word
  // -----------------------------------------------------------------------

  /** A clone of an inserted body element with its image and then its
      numbering references repointed. */
  function ImportElement(e: Node, imageMap: map<string, string>, numMap: map<int, int>): Node {
    UpdateNumberingReferences(UpdateImageReferences(e, imageMap), numMap)
  }

  function ImportElements(es: seq<Node>, imageMap: map<string, string>, numMap: map<int, int>): (r: seq<Node>)
    ensures |r| == |es| && forall k :: 0 <= k < |es| ==> r[k] == ImportElement(es[k], imageMap, numMap)
  {
    seq(|es|, k requires 0 <= k < |es| => ImportElement(es[k], imageMap, numMap))
  }

  /** An imported element differs from the original only in its blip embeds
      and numbering ids; its numbering references are the original ones
      looked up once in the numbering map. */
  lemma ImportKeepsSkeleton(e: Node, imageMap: map<string, string>, numMap: map<int, int>)
    ensures Skeleton(ImportElement(e, imageMap, numMap)) == Skeleton(e)
    ensures NumIdsSeq(ImportElement(e, imageMap, numMap).children) == RemapIds(numMap, NumIdsSeq(e.children))
  {
    var u := UpdateImageReferences(e, imageMap);
    UpdateImageReferencesSpec(e, imageMap);
    UpdateImageReferencesKeepsNumbering(e, imageMap);
    UpdateNumberingReferencesSpec(u, numMap);
  }

  function ImageRelIdsInUse(main: MainPart): seq<string> {
    main.otherRelIds + Images.RelIds(main.images)
  }

  /** The body of MergeWordDocumentsBase64 on opened packages, given the
      outcome of the numbering copy: styles, numbering and images are
      copied, both bodies are read, then the placeholder paragraph is
      replaced by the imported elements of the inserted body in order. */
  function MergeWithNumbering(main: MainPart, insert: MainPart, token: Option<string>,
                              numberingCopy: Result<Numbering.NumberingCopy>): (r: Result<MainPart>)
    ensures r.Ok? ==> r.value.otherRelIds == main.otherRelIds
                      && |r.value.images| >= |main.images|
                      && r.value.images[..|main.images|] == main.images
                      && r.value.document.WithBody?
  {
    var styles := Styles.CopyStyles(main.styles, insert.styles);
    var numbering :- numberingCopy;
    var copied := Images.CopyImages(ImageRelIdsInUse(main), insert.images);
    var body :- TolerantBody(main.document);
    var inserted :- TolerantBody(insert.document);
    var i :- FindPlaceholder(body, token);
    var imported := ImportElements(inserted, copied.imageMap, numbering.numMap);
    assert (main.images + copied.added)[..|main.images|] == main.images;
    Ok(MainPart(WithBody(Splice(body, i, imported)), styles, numbering.part, main.images + copied.added, main.otherRelIds))
  }

  /** The merge of the null-tolerant revision, with the numbering helper as
      written: a main document without a numbering root fails against an
      inserted document that has one. */
  function MergeWordParts(main: MainPart, insert: MainPart, token: Option<string>): (r: Result<MainPart>)
    ensures r.Ok? ==> r.value.otherRelIds == main.otherRelIds
                      && |r.value.images| >= |main.images|
                      && r.value.images[..|main.images|] == main.images
                      && r.value.document.WithBody?
  {
    MergeWithNumbering(main, insert, token, Numbering.CopyNumberingAsWritten(main.numbering, insert.numbering))
  }

  /** The same merge with the numbering copy as evidently intended: the
      missing numbering root is attached before the copy. */
  function CorrectedMergeWordParts(main: MainPart, insert: MainPart, token: Option<string>): (r: Result<MainPart>)
    ensures r.Ok? ==> r.value.otherRelIds == main.otherRelIds
                      && |r.value.images| >= |main.images|
                      && r.value.images[..|main.images|] == main.images
                      && r.value.document.WithBody?
  {
    MergeWithNumbering(main, insert, token, Numbering.CopyNumbering(main.numbering, insert.numbering))
  }

  /** The merge as written and the corrected one agree except when the
      main document has no numbering root and the inserted one has one;
      there the merge as written throws. */
  lemma MergeAsWrittenAgrees(main: MainPart, insert: MainPart, token: Option<string>)
    ensures main.numbering.Rooted? || !insert.numbering.Rooted? ==>
              MergeWordParts(main, insert, token) == CorrectedMergeWordParts(main, insert, token)
    ensures insert.numbering.Rooted? && !main.numbering.Rooted? ==>
              MergeWordParts(main, insert, token) == Err(NullReference)
  {
    Numbering.AsWrittenFailsWithoutMainRoot(main.numbering, insert.numbering);
  }

  /** A main document whose only paragraph is the placeholder and no lists,
      and an inserted document with an empty numbering root: the merge as
      written throws, the corrected merge succeeds. */
  lemma MergeAsWrittenCounterexample()
    ensures var main := MainPart(WithBody([ParagraphOf("<<X>>")]), Styles.StyleCatalogue(NoPart, None), NoPart, [], []);
            var insert := MainPart(WithBody([]), Styles.StyleCatalogue(NoPart, None), Rooted([]), [], []);
            MergeWordParts(main, insert, Some("<<X>>")).Err?
            && CorrectedMergeWordParts(main, insert, Some("<<X>>")).Ok?
  {
    var main := MainPart(WithBody([ParagraphOf("<<X>>")]), Styles.StyleCatalogue(NoPart, None), NoPart, [], []);
    var insert := MainPart(WithBody([]), Styles.StyleCatalogue(NoPart, None), Rooted([]), [], []);
    MergeAsWrittenAgrees(main, insert, Some("<<X>>"));
    SingleParagraphIsPlaceholder("<<X>>");
    WordMergeFailures(main, insert, Some("<<X>>"));
    CorrectedMergeFailures(main, insert, Some("<<X>>"));
  }

  /** On success the body is the main body with the placeholder paragraph
      replaced by the imported elements of the inserted body, in order, each
      with only its references changed; everything before and after the
      placeholder is kept. The styles are the merged catalogue, the
      numbering the renumbered root, and the images the main ones followed
      by the copies. */
  lemma WordMergeSplicesBody(main: MainPart, insert: MainPart, token: Option<string>)
    requires MergeWordParts(main, insert, token).Ok?
    ensures Numbering.CopyNumberingAsWritten(main.numbering, insert.numbering)
              == Numbering.CopyNumbering(main.numbering, insert.numbering)
    ensures Numbering.CopyNumbering(main.numbering, insert.numbering).Ok?
    ensures main.document.WithBody? && !insert.document.NullDocument?
    ensures FindPlaceholder(main.document.children, token).Ok?
    ensures var r := MergeWordParts(main, insert, token).value;
            var body := main.document.children;
            var inserted := TolerantBody(insert.document).value;
            var i := FindPlaceholder(body, token).value;
            var numbering := Numbering.CopyNumbering(main.numbering, insert.numbering).value;
            var copied := Images.CopyImages(ImageRelIdsInUse(main), insert.images);
            IsMatch(body[i], token.value)
            && |r.document.children| == |body| - 1 + |inserted|
            && r.document.children[..i] == body[..i]
            && r.document.children[i..i + |inserted|] == ImportElements(inserted, copied.imageMap, numbering.numMap)
            && r.document.children[i + |inserted|..] == body[i + 1..]
            && SkeletonSeq(r.document.children[i..i + |inserted|]) == SkeletonSeq(inserted)
            && r.styles == Styles.CopyStyles(main.styles, insert.styles)
            && r.numbering == numbering.part
            && r.images == main.images + copied.added
  {
    Numbering.AsWrittenFailsWithoutMainRoot(main.numbering, insert.numbering);
    var body := main.document.children;
    var numbering := Numbering.CopyNumbering(main.numbering, insert.numbering).value;
    var copied := Images.CopyImages(ImageRelIdsInUse(main), insert.images);
    var inserted := TolerantBody(insert.document).value;
    var imported := ImportElements(inserted, copied.imageMap, numbering.numMap);
    var i := FindPlaceholder(body, token).value;
    var r := MergeWordParts(main, insert, token).value;
    assert r.document.children == Splice(body, i, imported);
    forall k | 0 <= k < |inserted| ensures Skeleton(imported[k]) == Skeleton(inserted[k]) {
      ImportKeepsSkeleton(inserted[k], copied.imageMap, numbering.numMap);
    }
    SkeletonSeqPointwise(imported, inserted);
  }

  lemma {:induction false} SkeletonSeqPointwise(a: seq<Node>, b: seq<Node>)
    requires |a| == |b| && forall k :: 0 <= k < |a| ==> Skeleton(a[k]) == Skeleton(b[k])
    ensures SkeletonSeq(a) == SkeletonSeq(b)
    decreases |a|
  {
    if a != [] {
      SkeletonSeqPointwise(a[1..], b[1..]);
    }
  }

  /** The merge as written fails exactly when the inserted numbering part
      has no root, the inserted document has lists but the main one has no
      numbering root, a `Document` is null, or the placeholder is not a
      paragraph directly in the main body. */
  lemma WordMergeFailures(main: MainPart, insert: MainPart, token: Option<string>)
    ensures MergeWordParts(main, insert, token).Ok? <==>
              !insert.numbering.EmptyPart? && (insert.numbering.Rooted? ==> main.numbering.Rooted?)
              && main.document.WithBody? && !insert.document.NullDocument?
              && FindPlaceholder(main.document.children, token).Ok?
  {
    Numbering.AsWrittenFailsWithoutMainRoot(main.numbering, insert.numbering);
    MergeWithNumberingFailures(main, insert, token, Numbering.CopyNumberingAsWritten(main.numbering, insert.numbering));
  }

  /** The corrected merge fails only on a rootless inserted numbering part,
      a null `Document` or a placeholder that is not directly in the body. */
  lemma CorrectedMergeFailures(main: MainPart, insert: MainPart, token: Option<string>)
    ensures CorrectedMergeWordParts(main, insert, token).Ok? <==>
              !insert.numbering.EmptyPart?
              && main.document.WithBody? && !insert.document.NullDocument?
              && FindPlaceholder(main.document.children, token).Ok?
  {
    MergeWithNumberingFailures(main, insert, token, Numbering.CopyNumbering(main.numbering, insert.numbering));
  }

  /** Given the numbering copy's outcome, the merge fails exactly when that
      copy failed, a `Document` is null or the placeholder is not found
      directly in the main body. */
  lemma MergeWithNumberingFailures(main: MainPart, insert: MainPart, token: Option<string>,
                                   numberingCopy: Result<Numbering.NumberingCopy>)
    ensures MergeWithNumbering(main, insert, token, numberingCopy).Ok? <==>
              numberingCopy.Ok? && main.document.WithBody? && !insert.document.NullDocument?
              && FindPlaceholder(main.document.children, token).Ok?
  {
    NoPlaceholderInEmptyBody(token);
  }

  lemma NoPlaceholderInEmptyBody(token: Option<string>)
    ensures FindPlaceholder([], token).Err?
  {
    if token.Some? {
      assert Locate([], token.value).NotFound?;
    }
  }

  /** A paragraph of one run holding `text`. */
  function ParagraphOf(text: string): Node {
    Node(Paragraph, [Node(Run, [Node(Text(text, false), [])])])
  }

  /** A body holding one paragraph with the token as its text: that
      paragraph is the placeholder. */
  lemma SingleParagraphIsPlaceholder(token: string)
    ensures FindPlaceholder([ParagraphOf(token)], Some(token)) == Ok(0)
  {
    ParagraphOfOneRun(token, false);
    assert OccursAt(token, token, 0) by { assert token[0..|token|] == token; }
    assert IsMatch(ParagraphOf(token), token);
  }

  /** MergeWordDocumentsBase64: null bytes, bytes that are not a package, a
      main package without a main document part and any failure of the
      merge give null. An inserted package without a main document part
      contributes nothing. */
  function MergeWordDocumentsBase64(codecs: Codecs, mainBytes: Option<Bytes>, insertBytes: Option<Bytes>, token: Option<string>): (r: Option<Bytes>)
    ensures mainBytes.None? || insertBytes.None? ==> r.None?
  {
    if mainBytes.None? || insertBytes.None? then None
    else
      var mainPkg := codecs.openWord(mainBytes.value);
      var insertPkg := codecs.openWord(insertBytes.value);
      if mainPkg.None? || insertPkg.None? || mainPkg.value.None? then None
      else
        var insert := insertPkg.value.GetOr(NoMainPart);
        match MergeWordParts(mainPkg.value.value, insert, token)
        case Err(_) => None
        case Ok(merged) => Some(codecs.saveWord(merged))
  }

  /** On two opened packages the byte-level merge is the saved merge of
      their parts, or null when that merge throws; in particular it is null
      when the inserted document has lists and the main one has no
      numbering root. */
  lemma Base64MergeIsSavedMerge(codecs: Codecs, mainBytes: Bytes, insertBytes: Bytes, token: Option<string>,
                                main: MainPart, insert: MainPart)
    requires codecs.openWord(mainBytes) == Some(Some(main))
    requires codecs.openWord(insertBytes) == Some(Some(insert))
    ensures MergeWordParts(main, insert, token).Ok? ==>
              MergeWordDocumentsBase64(codecs, Some(mainBytes), Some(insertBytes), token)
                == Some(codecs.saveWord(MergeWordParts(main, insert, token).value))
    ensures MergeWordParts(main, insert, token).Err? ==>
              MergeWordDocumentsBase64(codecs, Some(mainBytes), Some(insertBytes), token).None?
    ensures insert.numbering.Rooted? && !main.numbering.Rooted? ==>
              MergeWordDocumentsBase64(codecs, Some(mainBytes), Some(insertBytes), token).None?
  {
    MergeAsWrittenAgrees(main, insert, token);
  }

  // -----------------------------------------------------------------------
  // Table into Word
  // -----------------------------------------------------------------------

  /** The body of MergeExcelDocumentsBase64 on an opened package: the
      placeholder paragraph is replaced by the table. */
  function MergeTablePart(main: MainPart, table: Node, token: Option<string>): (r: Result<MainPart>)
    ensures r.Ok? ==> r.value.(document := main.document) == main
  {
    var body :- TolerantBody(main.document);
    var i :- FindPlaceholder(body, token);
    Ok(main.(document := WithBody(Splice(body, i, [table]))))
  }

  /** On success the body is the main body with the placeholder paragraph
      exchanged for the table and nothing else changed. */
  lemma TableMergeSplicesBody(main: MainPart, table: Node, token: Option<string>)
    requires MergeTablePart(main, table, token).Ok?
    ensures main.document.WithBody? && FindPlaceholder(main.document.children, token).Ok?
    ensures var body := main.document.children;
            var i := FindPlaceholder(body, token).value;
            MergeTablePart(main, table, token).value.document == WithBody(body[..i] + [table] + body[i + 1..])
            && IsMatch(body[i], token.value)
  {
    NoPlaceholderInEmptyBody(token);
  }

  function MergeExcelDocumentsBase64(codecs: Codecs, mainBytes: Option<Bytes>, table: Node, token: Option<string>): (r: Option<Bytes>)
    ensures mainBytes.None? ==> r.None?
  {
    if mainBytes.None? then None
    else
      var mainPkg := codecs.openWord(mainBytes.value);
      if mainPkg.None? || mainPkg.value.None? then None
      else
        match MergeTablePart(mainPkg.value.value, table, token)
        case Err(_) => None
        case Ok(merged) => Some(codecs.saveWord(merged))
  }

  /** On bytes that open, the byte-level table merge is the saved
      MergeTablePart, and null exactly when the package does not open, has
      no main part, or that merge throws. */
  lemma TableBase64MergeIsSavedMerge(codecs: Codecs, mainBytes: Bytes, table: Node, token: Option<string>)
    ensures var pkg := codecs.openWord(mainBytes);
            var r := MergeExcelDocumentsBase64(codecs, Some(mainBytes), table, token);
            (r.Some? <==> pkg.Some? && pkg.value.Some? && MergeTablePart(pkg.value.value, table, token).Ok?)
            && (pkg.Some? && pkg.value.Some? && MergeTablePart(pkg.value.value, table, token).Ok? ==>
                  r == Some(codecs.saveWord(MergeTablePart(pkg.value.value, table, token).value)))
  {
  }

  // -----------------------------------------------------------------------
  // The strict revision
  // -----------------------------------------------------------------------

  function StrictImportElements(es: seq<Node>, imageMap: map<string, string>, numMap: map<int, int>): Result<seq<Node>>
    decreases |es|
  {
    if es == [] then Ok([])
    else
      var first :- StrictUpdateNumberingReferences(UpdateImageReferences(es[0], imageMap), numMap);
      var rest :- StrictImportElements(es[1..], imageMap, numMap);
      Ok([first] + rest)
  }

  lemma {:induction false} StrictImportAgrees(es: seq<Node>, imageMap: map<string, string>, numMap: map<int, int>)
    requires forall k :: 0 <= k < |es| ==> !HasValuelessIdSeq(es[k].children)
    ensures StrictImportElements(es, imageMap, numMap) == Ok(ImportElements(es, imageMap, numMap))
    decreases |es|
  {
    if es != [] {
      var u := UpdateImageReferences(es[0], imageMap);
      UpdateImageReferencesKeepsNumbering(es[0], imageMap);
      StrictUpdateAgrees(u, numMap);
      assert StrictUpdateNumberingReferences(u, numMap) == Ok(ImportElement(es[0], imageMap, numMap));
      StrictImportAgrees(es[1..], imageMap, numMap);
      var rest := ImportElements(es[1..], imageMap, numMap);
      assert StrictImportElements(es, imageMap, numMap) == Ok([ImportElement(es[0], imageMap, numMap)] + rest);
      assert ImportElements(es, imageMap, numMap) == [ImportElement(es[0], imageMap, numMap)] + rest;
    }
  }

  /** The merge of the strict revision on opened packages: every part is
      dereferenced without a null check, so a null `Document` throws where
      it is read, and a missing body where it is first used. */
  function StrictMergeWordParts(main: Option<MainPart>, insert: Option<MainPart>, token: Option<string>): Result<MainPart> {
    if main.None? || insert.None? then Err(NullReference)
    else
      var m := main.value;
      var ins := insert.value;
      var styles :- Styles.StrictCopyStyles(m.styles, ins.styles);
      var numbering :- Numbering.StrictCopyNumbering(m.numbering, ins.numbering);
      var copied := Images.CopyImages(ImageRelIdsInUse(m), ins.images);
      if m.document.NullDocument? || ins.document.NullDocument? || m.document.NoBody? then Err(NullReference)
      else
        var i :- FindPlaceholder(m.document.children, token);
        if ins.document.NoBody? then Err(NullReference)
        else
          var imported :- StrictImportElements(ins.document.children, copied.imageMap, numbering.numMap);
          Ok(MainPart(WithBody(Splice(m.document.children, i, imported)), styles, numbering.part,
                      m.images + copied.added, m.otherRelIds))
  }

  /** MergeDocumentsBase64: decodes the main input, then the inserted one,
      merges, and encodes the saved main package. Nothing is caught. */
  function MergeDocumentsBase64(codecs: Codecs, mainBase64: Option<string>, insertBase64: Option<string>, placeholder: Option<string>): (r: Result<string>)
    ensures r.Ok? ==> mainBase64.Some? && insertBase64.Some?
                      && codecs.decode64(mainBase64.value).Some? && codecs.decode64(insertBase64.value).Some?
    ensures mainBase64.None? ==> r == Err(ArgumentNull)
    ensures mainBase64.Some? && codecs.decode64(mainBase64.value).None? ==> r == Err(Format)
    ensures mainBase64.Some? && codecs.decode64(mainBase64.value).Some? && insertBase64.None? ==> r == Err(ArgumentNull)
    ensures (mainBase64.Some? && codecs.decode64(mainBase64.value).Some?
             && insertBase64.Some? && codecs.decode64(insertBase64.value).None?) ==> r == Err(Format)
  {
    if mainBase64.None? then Err(ArgumentNull)
    else
      var mainBytes := codecs.decode64(mainBase64.value);
      if mainBytes.None? then Err(Format)
      else if insertBase64.None? then Err(ArgumentNull)
      else
        var insertBytes := codecs.decode64(insertBase64.value);
        if insertBytes.None? then Err(Format)
        else
          var mainPkg := codecs.openWord(mainBytes.value);
          var insertPkg := codecs.openWord(insertBytes.value);
          if mainPkg.None? || insertPkg.None? then Err(Format)
          else
            var merged :- StrictMergeWordParts(mainPkg.value, insertPkg.value, placeholder);
            Ok(codecs.encode64(codecs.saveWord(merged)))
  }

  /** Where every part the strict revision dereferences is present, it
      merges exactly as the corrected null-tolerant merge does: it attaches
      a missing numbering root itself. */
  predicate StrictlyWellFormed(main: MainPart, insert: MainPart) {
    main.document.WithBody? && insert.document.WithBody?
    && !insert.styles.styles.EmptyPart?
    && (insert.numbering.Rooted? ==> Numbering.IdsPresent(insert.numbering.root))
    && forall k :: 0 <= k < |insert.document.children| ==> !HasValuelessIdSeq(insert.document.children[k].children)
  }

  lemma StrictMergeAgrees(main: MainPart, insert: MainPart, token: Option<string>)
    requires StrictlyWellFormed(main, insert)
    ensures StrictMergeWordParts(Some(main), Some(insert), token) == CorrectedMergeWordParts(main, insert, token)
  {
    Styles.StrictCopyStylesAgrees(main.styles, insert.styles);
    Numbering.StrictCopyNumberingAgrees(main.numbering, insert.numbering);
    var numbering := Numbering.CopyNumbering(main.numbering, insert.numbering);
    if numbering.Ok? {
      var copied := Images.CopyImages(ImageRelIdsInUse(main), insert.images);
      StrictImportAgrees(insert.document.children, copied.imageMap, numbering.value.numMap);
    }
  }

  /** The strict revision's result is the base64 text of the saved merge
      of the decoded inputs. */
  lemma StrictResultIsEncodedMerge(codecs: Codecs, mainBase64: string, insertBase64: string, placeholder: Option<string>,
                                   main: MainPart, insert: MainPart)
    requires codecs.decode64(mainBase64).Some? && codecs.decode64(insertBase64).Some?
    requires codecs.openWord(codecs.decode64(mainBase64).value) == Some(Some(main))
    requires codecs.openWord(codecs.decode64(insertBase64).value) == Some(Some(insert))
    requires StrictlyWellFormed(main, insert)
    ensures CorrectedMergeWordParts(main, insert, placeholder).Ok? ==>
              MergeDocumentsBase64(codecs, Some(mainBase64), Some(insertBase64), placeholder)
                == Ok(codecs.encode64(codecs.saveWord(CorrectedMergeWordParts(main, insert, placeholder).value)))
    ensures CorrectedMergeWordParts(main, insert, placeholder).Err? ==>
              MergeDocumentsBase64(codecs, Some(mainBase64), Some(insertBase64), placeholder).Err?
  {
    StrictMergeAgrees(main, insert, placeholder);
  }
}

=== FILE: merge_result.dfy ===
/** The outcome record of a merge: success flag, output annotation and the
    error messages. */
module MergeResults {
  import opened Basics
  import opened Entities

  datatype MergeResult = MergeResult(success: bool, outputAnnotation: Option<Entity>, errors: seq<string>)

  /** The private constructor: a null error list is stored as empty, so
      `errors` is never null. */
  function Make(success: bool, annotation: Option<Entity>, errors: Option<seq<string>>): (r: MergeResult)
    ensures r.success == success && r.outputAnnotation == annotation
    ensures errors.Some? ==> r.errors == errors.value
    ensures errors.None? ==> r.errors == []
  {
    MergeResult(success, annotation, errors.GetOr([]))
  }

  /** MergeResult.Ok: the annotation is kept as given (even null). */
  function MakeOk(annotation: Option<Entity>): (r: MergeResult)
    ensures r.success && r.outputAnnotation == annotation && r.errors == []
  {
    Make(true, annotation, Some([]))
  }

  /** MergeResult.Fail: no annotation, and a copy of the errors in order. */
  function MakeFail(errors: Option<seq<string>>): (r: MergeResult)
    ensures !r.success && r.outputAnnotation.None?
    ensures errors.Some? ==> r.errors == errors.value
    ensures errors.None? ==> r.errors == []
  {
    Make(false, None, Some(errors.GetOr([])))
  }

  /** Ok and Fail are told apart by `success` alone; a failure need not carry
      an error, and a success never does. */
  lemma OkAndFailAreDistinct(annotation: Option<Entity>, errors: Option<seq<string>>)
    ensures MakeOk(annotation) != MakeFail(errors)
    ensures MakeFail(Some([])).errors == [] && !MakeFail(Some([])).success
    ensures MakeOk(annotation).errors == []
  {
  }
}

=== FILE: numbering.dfy ===
/** The numbering (list definition) merge: the inserted document's abstract
    numberings and numbering instances are appended to the main document's
    numbering root under fresh ids, and the map from old to new instance ids
    is returned so that paragraphs can be repointed. */
module Numbering {
  import opened Basics
  import opened Documents

  /** `w:abstractNum`: its id attribute and its level definitions. */
  datatype AbstractNum = AbstractNum(abstractId: Option<int>, levels: string)

  /** `w:num`: its id, its `w:abstractNumId` child (absent, present without a
      value, or present with one) and its level overrides. */
  datatype NumInstance = NumInstance(numId: Option<int>, abstractRef: Option<Option<int>>, overrides: string)

  datatype NumberingChild =
    | AbstractChild(abstractNum: AbstractNum)
    | InstanceChild(instance: NumInstance)
    | OtherNumberingChild(name: string)

  type NumberingRoot = seq<NumberingChild>

  /** The numbering part after the copy and the old-to-new instance id map. */
  datatype NumberingCopy = NumberingCopy(part: PartState<NumberingRoot>, numMap: map<int, int>)

  // -----------------------------------------------------------------------
  // Children of the root
  // -----------------------------------------------------------------------

  /** `Elements<AbstractNum>()`. */
  function Abstracts(root: NumberingRoot): seq<AbstractNum>
    decreases |root|
  {
    if root == [] then []
    else (if root[0].AbstractChild? then [root[0].abstractNum] else []) + Abstracts(root[1..])
  }

  /** `Elements<NumberingInstance>()`. */
  function Instances(root: NumberingRoot): seq<NumInstance>
    decreases |root|
  {
    if root == [] then []
    else (if root[0].InstanceChild? then [root[0].instance] else []) + Instances(root[1..])
  }

  lemma {:induction false} ChildrenOfAppend(a: NumberingRoot, b: NumberingRoot)
    ensures Abstracts(a + b) == Abstracts(a) + Abstracts(b)
    ensures Instances(a + b) == Instances(a) + Instances(b)
  {
    AbstractsOfAppend(a, b);
    InstancesOfAppend(a, b);
  }

  lemma {:induction false} AbstractsOfAppend(a: NumberingRoot, b: NumberingRoot)
    ensures Abstracts(a + b) == Abstracts(a) + Abstracts(b)
    decreases |a|
  {
    if a == [] {
      assert a + b == b;
    } else {
      var head := if a[0].AbstractChild? then [a[0].abstractNum] else [];
      assert (a + b)[0] == a[0] && (a + b)[1..] == a[1..] + b;
      assert Abstracts(a + b) == head + Abstracts(a[1..] + b);
      AbstractsOfAppend(a[1..], b);
      assert Abstracts(a) == head + Abstracts(a[1..]);
    }
  }

  lemma {:induction false} InstancesOfAppend(a: NumberingRoot, b: NumberingRoot)
    ensures Instances(a + b) == Instances(a) + Instances(b)
    decreases |a|
  {
    if a == [] {
      assert a + b == b;
    } else {
      var head := if a[0].InstanceChild? then [a[0].instance] else [];
      assert (a + b)[0] == a[0] && (a + b)[1..] == a[1..] + b;
      assert Instances(a + b) == head + Instances(a[1..] + b);
      InstancesOfAppend(a[1..], b);
      assert Instances(a) == head + Instances(a[1..]);
    }
  }

  function AbstractChildren(abs: seq<AbstractNum>): (r: NumberingRoot)
    ensures |r| == |abs|
    ensures Abstracts(r) == abs && Instances(r) == []
    decreases |abs|
  {
    if abs == [] then []
    else
      var r := [AbstractChild(abs[0])] + AbstractChildren(abs[1..]);
      assert r[1..] == AbstractChildren(abs[1..]);
      r
  }

  function InstanceChildren(nums: seq<NumInstance>): (r: NumberingRoot)
    ensures |r| == |nums|
    ensures Instances(r) == nums && Abstracts(r) == []
    decreases |nums|
  {
    if nums == [] then []
    else
      var r := [InstanceChild(nums[0])] + InstanceChildren(nums[1..]);
      assert r[1..] == InstanceChildren(nums[1..]);
      r
  }

  // -----------------------------------------------------------------------
  // Id allocation
  // -----------------------------------------------------------------------

  /** `Max()` over the ids with `DefaultIfEmpty(0)`: zero only for an empty
      list, otherwise the largest element (which may be negative). */
  function MaxOr0(xs: seq<int>): (r: int)
    ensures forall k :: 0 <= k < |xs| ==> xs[k] <= r
    ensures xs == [] ==> r == 0
    ensures xs != [] ==> exists k :: 0 <= k < |xs| && xs[k] == r
    decreases |xs|
  {
    if |xs| <= 1 then (if xs == [] then 0 else xs[0])
    else
      var m := MaxOr0(xs[1..]);
      assert forall k :: 1 <= k < |xs| ==> xs[k] == xs[1..][k - 1];
      if xs[0] >= m then xs[0] else m
  }

  /** Missing ids count as 0 (`?.Value ?? 0`). */
  function AbstractIds(abs: seq<AbstractNum>): (r: seq<int>)
    ensures |r| == |abs| && forall k :: 0 <= k < |abs| ==> r[k] == abs[k].abstractId.GetOr(0)
  {
    seq(|abs|, k requires 0 <= k < |abs| => abs[k].abstractId.GetOr(0))
  }

  function InstanceIds(nums: seq<NumInstance>): (r: seq<int>)
    ensures |r| == |nums| && forall k :: 0 <= k < |nums| ==> r[k] == nums[k].numId.GetOr(0)
  {
    seq(|nums|, k requires 0 <= k < |nums| => nums[k].numId.GetOr(0))
  }

  /** `n` successive values of `counter++` on a C# int, starting after `counter`. */
  function CountUp(counter: int, n: nat): (r: seq<int>)
    ensures |r| == n
    decreases n
  {
    if n == 0 then [] else var next := Wrap32(counter + 1); [next] + CountUp(next, n - 1)
  }

  lemma ModShift(a: int, q: int)
    ensures (a + q * 0x1_0000_0000) % 0x1_0000_0000 == a % 0x1_0000_0000
  {
  }

  /** Wrapping an intermediate result does not change a later wrap. */
  lemma WrapThenAdd(x: int, d: int)
    ensures Wrap32(Wrap32(x) + d) == Wrap32(x + d)
  {
    var w := Wrap32(x);
    var q := (w - x) / 0x1_0000_0000;
    assert w - x == q * 0x1_0000_0000;
    ModShift(x + d, q);
    assert w + d == (x + d) + q * 0x1_0000_0000;
  }

  /** The k-th allocated id is the start plus k + 1, wrapped once. */
  lemma {:induction false} CountUpIsOffsets(counter: int, n: nat)
    ensures forall k :: 0 <= k < n ==> CountUp(counter, n)[k] == Wrap32(counter + k + 1)
    decreases n
  {
    if n > 0 {
      var next := Wrap32(counter + 1);
      CountUpIsOffsets(next, n - 1);
      forall k | 1 <= k < n ensures CountUp(counter, n)[k] == Wrap32(counter + k + 1) {
        assert CountUp(counter, n)[k] == CountUp(next, n - 1)[k - 1];
        WrapThenAdd(counter + 1, k);
      }
    }
  }

  /** Without overflow the allocated ids are the next integers in order. */
  lemma CountUpWithoutOverflow(counter: int, n: nat)
    requires Int32Min <= counter && counter + n <= Int32Max
    ensures forall k :: 0 <= k < n ==> CountUp(counter, n)[k] == counter + k + 1
  {
    CountUpIsOffsets(counter, n);
  }

  // -----------------------------------------------------------------------
  // Dictionaries filled with the indexer
  // -----------------------------------------------------------------------

  /** `map[keys[i]] = vals[i]` for each i in order: a later key overwrites. */
  function BuildMap(keys: seq<int>, vals: seq<int>): map<int, int>
    requires |keys| == |vals|
    decreases |keys|
  {
    if keys == [] then map[]
    else BuildMap(keys[..|keys| - 1], vals[..|vals| - 1])[keys[|keys| - 1] := vals[|vals| - 1]]
  }

  /** No later position holds the same key. */
  predicate IsLastOf(keys: seq<int>, j: int) {
    0 <= j < |keys| && forall j' :: j < j' < |keys| ==> keys[j'] != keys[j]
  }

  lemma {:induction false} BuildMapKeys(keys: seq<int>, vals: seq<int>)
    requires |keys| == |vals|
    ensures BuildMap(keys, vals).Keys == set x | x in keys
    decreases |keys|
  {
    if keys != [] {
      var n := |keys| - 1;
      BuildMapKeys(keys[..n], vals[..n]);
      assert keys == keys[..n] + [keys[n]];
      assert (set x | x in keys) == (set x | x in keys[..n]) + {keys[n]};
    }
  }

  lemma {:induction false} BuildMapValues(keys: seq<int>, vals: seq<int>)
    requires |keys| == |vals|
    ensures forall j :: IsLastOf(keys, j) ==> keys[j] in BuildMap(keys, vals) && BuildMap(keys, vals)[keys[j]] == vals[j]
    decreases |keys|
  {
    if keys != [] {
      var n := |keys| - 1;
      var ks, vs := keys[..n], vals[..n];
      BuildMapValues(ks, vs);
      forall j | IsLastOf(keys, j)
        ensures keys[j] in BuildMap(keys, vals) && BuildMap(keys, vals)[keys[j]] == vals[j]
      {
        if j < n {
          assert keys[n] != keys[j];
          forall j' | j < j' < |ks| ensures ks[j'] != ks[j] {
            assert ks[j'] == keys[j'];
          }
          assert IsLastOf(ks, j);
          assert ks[j] == keys[j] && vs[j] == vals[j];
        }
      }
    }
  }

  /** The allocation loop both copies run: for each inserted element in
      order, `max++` on a C# int, then `map[oldId] = max`. It yields the
      ids `CountUp` lists and the map `BuildMap` builds from them. */
  method AllocateIds(start: int, oldIds: seq<int>) returns (newIds: seq<int>, idMap: map<int, int>)
    ensures newIds == CountUp(start, |oldIds|)
    ensures idMap == BuildMap(oldIds, newIds)
  {
    var all := CountUp(start, |oldIds|);
    CountUpIsOffsets(start, |oldIds|);
    var max := start;
    newIds, idMap := [], map[];
    for i := 0 to |oldIds|
      invariant newIds == all[..i]
      invariant idMap == BuildMap(oldIds[..i], newIds)
      invariant i == 0 ==> max == start
      invariant i > 0 ==> max == Wrap32(start + i)
    {
      if i > 0 {
        WrapThenAdd(start + i, 1);
      }
      max := Wrap32(max + 1);
      assert max == all[i];
      assert all[..i + 1] == all[..i] + [all[i]];
      var keys, vals := oldIds[..i + 1], newIds + [max];
      assert keys[..i] == oldIds[..i] && vals[..i] == newIds;
      newIds := vals;
      idMap := idMap[oldIds[i] := max];
    }
    assert oldIds[..|oldIds|] == oldIds;
  }

  // -----------------------------------------------------------------------
  // The copy
  // -----------------------------------------------------------------------

  /** The inserted instance's abstract reference after the null-tolerant
      lookup `TryGetValue(Val?.Value ?? -1)`: a reference without a value is
      looked up as -1. */
  function RewriteRef(ref: Option<Option<int>>, abstractMap: map<int, int>): Option<Option<int>> {
    match ref
    case None => None
    case Some(v) =>
      var key := v.GetOr(-1);
      if key in abstractMap then Some(Some(abstractMap[key])) else ref
  }

  /** The ids the copies of the inserted abstract numberings receive. */
  function NewAbstractIds(mainRoot: NumberingRoot, insertRoot: NumberingRoot): seq<int> {
    CountUp(MaxOr0(AbstractIds(Abstracts(mainRoot))), |Abstracts(insertRoot)|)
  }

  function NewInstanceIds(mainRoot: NumberingRoot, insertRoot: NumberingRoot): seq<int> {
    CountUp(MaxOr0(InstanceIds(Instances(mainRoot))), |Instances(insertRoot)|)
  }

  /** `abstractNumMap`: old abstract id to new, the last namesake winning. */
  function AbstractMap(mainRoot: NumberingRoot, insertRoot: NumberingRoot): map<int, int> {
    BuildMap(AbstractIds(Abstracts(insertRoot)), NewAbstractIds(mainRoot, insertRoot))
  }

  function AbstractCopies(mainRoot: NumberingRoot, insertRoot: NumberingRoot): (r: seq<AbstractNum>)
    ensures |r| == |Abstracts(insertRoot)|
    ensures forall k :: 0 <= k < |r| ==>
              r[k] == Abstracts(insertRoot)[k].(abstractId := Some(NewAbstractIds(mainRoot, insertRoot)[k]))
  {
    var abs := Abstracts(insertRoot);
    var ids := NewAbstractIds(mainRoot, insertRoot);
    seq(|abs|, k requires 0 <= k < |abs| => abs[k].(abstractId := Some(ids[k])))
  }

  function InstanceCopies(mainRoot: NumberingRoot, insertRoot: NumberingRoot): (r: seq<NumInstance>)
    ensures |r| == |Instances(insertRoot)|
  {
    CopyInstances(Instances(insertRoot), NewInstanceIds(mainRoot, insertRoot), AbstractMap(mainRoot, insertRoot))
  }

  /** Each instance under its new id, pointing at its abstract numbering's
      copy. */
  function CopyInstances(nums: seq<NumInstance>, ids: seq<int>, abstractMap: map<int, int>): (r: seq<NumInstance>)
    requires |ids| == |nums|
    ensures |r| == |nums|
    ensures forall k :: 0 <= k < |r| ==>
              r[k].numId == Some(ids[k]) && r[k].overrides == nums[k].overrides
              && r[k].abstractRef == RewriteRef(nums[k].abstractRef, abstractMap)
  {
    seq(|nums|, k requires 0 <= k < |nums| =>
      nums[k].(numId := Some(ids[k]), abstractRef := RewriteRef(nums[k].abstractRef, abstractMap)))
  }

  /** Both loops on an attached root: the copies are appended after the
      existing children, abstract numberings first. */
  function Renumber(mainRoot: NumberingRoot, insertRoot: NumberingRoot): NumberingCopy {
    var root := mainRoot + AbstractChildren(AbstractCopies(mainRoot, insertRoot))
                         + InstanceChildren(InstanceCopies(mainRoot, insertRoot));
    var numMap := BuildMap(InstanceIds(Instances(insertRoot)), NewInstanceIds(mainRoot, insertRoot));
    NumberingCopy(Rooted(root), numMap)
  }

  function RootOrEmpty(p: PartState<NumberingRoot>): NumberingRoot {
    if p.Rooted? then p.root else []
  }

  /** CopyNumbering of the null-tolerant revision, as written: a main
      document without a numbering root works on a detached `new
      Numbering()`, and the final `mainPart?.Numbering.Save()` then
      dereferences the still-missing root. An inserted numbering part
      without a root fails at `insertNumbering.Elements`. */
  function CopyNumberingAsWritten(main: PartState<NumberingRoot>, insert: PartState<NumberingRoot>): Result<NumberingCopy> {
    if insert.NoPart? then Ok(NumberingCopy(main, map[]))
    else if insert.EmptyPart? then Err(NullReference)
    else
      var copy := Renumber(RootOrEmpty(main), insert.root);
      if main.Rooted? then Ok(copy) else Err(NullReference)
  }

  /** CopyNumbering as evidently intended: a missing root is created and
      attached before the copy (as the strict revision does). */
  function CopyNumbering(main: PartState<NumberingRoot>, insert: PartState<NumberingRoot>): (r: Result<NumberingCopy>)
    ensures insert.NoPart? ==> r == Ok(NumberingCopy(main, map[]))
    ensures r.Err? <==> insert.EmptyPart?
    ensures insert.Rooted? ==> r.value.part.Rooted?
    ensures insert.Rooted? ==>
              var root := r.value.part.root;
              |root| == |RootOrEmpty(main)| + |Abstracts(insert.root)| + |Instances(insert.root)|
              && root[..|RootOrEmpty(main)|] == RootOrEmpty(main)
  {
    if insert.NoPart? then Ok(NumberingCopy(main, map[]))
    else if insert.EmptyPart? then Err(NullReference)
    else
      var r := Renumber(RootOrEmpty(main), insert.root);
      assert r.part.root[..|RootOrEmpty(main)|] == RootOrEmpty(main);
      Ok(r)
  }

  /** The revision as written fails exactly where the corrected one would
      have had to create the numbering root. */
  lemma AsWrittenFailsWithoutMainRoot(main: PartState<NumberingRoot>, insert: PartState<NumberingRoot>)
    ensures CopyNumberingAsWritten(main, insert) ==
              if insert.Rooted? && !main.Rooted? then Err(NullReference) else CopyNumbering(main, insert)
  {
  }

  /** A main document without lists and an inserted one with a single list:
      the copy as written throws, the corrected copy attaches the list. */
  lemma AsWrittenCounterexample()
    ensures var insert := Rooted([AbstractChild(AbstractNum(Some(0), "")), InstanceChild(NumInstance(Some(1), Some(Some(0)), ""))]);
            CopyNumberingAsWritten(NoPart, insert) == Err(NullReference)
            && CopyNumbering(NoPart, insert).Ok?
  {
  }

  /** CopyNumbering of the strict revision: reads `AbstractNumberId.Value`,
      `NumberID.Value` and `absNumId.Val.Value` without null checks, and
      always attaches a root. */
  function StrictCopyNumbering(main: PartState<NumberingRoot>, insert: PartState<NumberingRoot>): Result<NumberingCopy> {
    if insert.NoPart? then Ok(NumberingCopy(main, map[]))
    else if insert.EmptyPart? then Err(NullReference)
    else
      var abs := Abstracts(insert.root);
      var nums := Instances(insert.root);
      if AbstractIdMissing(abs) || InstanceIdMissing(nums) then Err(NullReference)
      else Ok(Renumber(RootOrEmpty(main), insert.root))
  }

  /** Some abstract numbering has no id: `.AbstractNumberId.Value` throws. */
  predicate AbstractIdMissing(abs: seq<AbstractNum>) {
    exists k :: 0 <= k < |abs| && abs[k].abstractId.None?
  }

  /** Some instance has no id, or an `w:abstractNumId` without a value. */
  predicate InstanceIdMissing(nums: seq<NumInstance>) {
    exists k :: 0 <= k < |nums| && (nums[k].numId.None? || nums[k].abstractRef == Some(None))
  }

  /** Every id the strict revision dereferences is present. */
  predicate IdsPresent(root: NumberingRoot) {
    (forall k :: 0 <= k < |Abstracts(root)| ==> Abstracts(root)[k].abstractId.Some?)
    && (forall k :: 0 <= k < |Instances(root)| ==>
          Instances(root)[k].numId.Some? && Instances(root)[k].abstractRef != Some(None))
  }

  /** The strict revision agrees with the corrected one when every id is
      present and fails otherwise. */
  lemma StrictCopyNumberingAgrees(main: PartState<NumberingRoot>, insert: PartState<NumberingRoot>)
    ensures insert.Rooted? && !IdsPresent(insert.root) ==> StrictCopyNumbering(main, insert) == Err(NullReference)
    ensures !insert.Rooted? || IdsPresent(insert.root) ==> StrictCopyNumbering(main, insert) == CopyNumbering(main, insert)
  {
    if insert.Rooted? {
      if IdsPresent(insert.root) {
        StrictCopyWithIds(main, insert);
      } else {
        StrictCopyWithoutIds(main, insert);
      }
    }
  }

  lemma StrictCopyWithIds(main: PartState<NumberingRoot>, insert: PartState<NumberingRoot>)
    requires insert.Rooted? && IdsPresent(insert.root)
    ensures StrictCopyNumbering(main, insert) == CopyNumbering(main, insert)
  {
    assert !AbstractIdMissing(Abstracts(insert.root)) && !InstanceIdMissing(Instances(insert.root));
    assert StrictCopyNumbering(main, insert) == Ok(Renumber(RootOrEmpty(main), insert.root));
  }

  lemma StrictCopyWithoutIds(main: PartState<NumberingRoot>, insert: PartState<NumberingRoot>)
    requires insert.Rooted? && !IdsPresent(insert.root)
    ensures StrictCopyNumbering(main, insert) == Err(NullReference)
  {
    assert AbstractIdMissing(Abstracts(insert.root)) || InstanceIdMissing(Instances(insert.root));
  }

  // -----------------------------------------------------------------------
  // Properties of the copy
  // -----------------------------------------------------------------------

  /** No abstract id overflows while counting up. */
  predicate AbstractIdsFit(mainRoot: NumberingRoot, insertRoot: NumberingRoot) {
    var m := MaxOr0(AbstractIds(Abstracts(mainRoot)));
    Int32Min <= m && m + |Abstracts(insertRoot)| <= Int32Max
  }

  predicate InstanceIdsFit(mainRoot: NumberingRoot, insertRoot: NumberingRoot) {
    var m := MaxOr0(InstanceIds(Instances(mainRoot)));
    Int32Min <= m && m + |Instances(insertRoot)| <= Int32Max
  }

  /** A root extended by abstract and then instance children lists the old
      abstract numberings followed by the new ones ... */
  lemma AppendedAbstracts(mainRoot: NumberingRoot, acs: seq<AbstractNum>, ics: seq<NumInstance>)
    ensures Abstracts(mainRoot + AbstractChildren(acs) + InstanceChildren(ics)) == Abstracts(mainRoot) + acs
  {
    var front := mainRoot + AbstractChildren(acs);
    AbstractsOfAppend(mainRoot, AbstractChildren(acs));
    AbstractsOfAppend(front, InstanceChildren(ics));
    assert Abstracts(front) + [] == Abstracts(front);
  }

  /** ... and the old numbering instances followed by the new ones. */
  lemma AppendedInstances(mainRoot: NumberingRoot, acs: seq<AbstractNum>, ics: seq<NumInstance>)
    ensures Instances(mainRoot + AbstractChildren(acs) + InstanceChildren(ics)) == Instances(mainRoot) + ics
  {
    var front := mainRoot + AbstractChildren(acs);
    InstancesOfAppend(mainRoot, AbstractChildren(acs));
    assert Instances(mainRoot) + [] == Instances(mainRoot);
    InstancesOfAppend(front, InstanceChildren(ics));
  }

  /** Renumbering appends the copies after the main root's children. */
  lemma RenumberedChildren(mainRoot: NumberingRoot, insertRoot: NumberingRoot)
    ensures var root := Renumber(mainRoot, insertRoot).part.root;
            Abstracts(root) == Abstracts(mainRoot) + AbstractCopies(mainRoot, insertRoot)
            && Instances(root) == Instances(mainRoot) + InstanceCopies(mainRoot, insertRoot)
  {
    AppendedAbstracts(mainRoot, AbstractCopies(mainRoot, insertRoot), InstanceCopies(mainRoot, insertRoot));
    AppendedInstances(mainRoot, AbstractCopies(mainRoot, insertRoot), InstanceCopies(mainRoot, insertRoot));
  }

  /** Counting up from the largest id in use, without overflow, yields
      increasing ids above every id in use. */
  lemma CountedIdsAreFresh(used: seq<int>, n: nat)
    requires Int32Min <= MaxOr0(used) && MaxOr0(used) + n <= Int32Max
    ensures var ids := CountUp(MaxOr0(used), n);
            (forall j, k :: 0 <= j < |used| && 0 <= k < n ==> used[j] < ids[k])
            && (forall k, k' :: 0 <= k < k' < n ==> ids[k] < ids[k'])
  {
    CountUpWithoutOverflow(MaxOr0(used), n);
  }

  /** While no id overflows, the copies of the abstract numberings carry
      increasing ids above every abstract id the main document uses, and
      keep their level definitions. */
  lemma AbstractCopiesAreFresh(mainRoot: NumberingRoot, insertRoot: NumberingRoot)
    requires AbstractIdsFit(mainRoot, insertRoot)
    ensures var before := Abstracts(mainRoot);
            var copies := AbstractCopies(mainRoot, insertRoot);
            (forall k :: 0 <= k < |copies| ==>
               (copies[k].abstractId.Some? && copies[k].levels == Abstracts(insertRoot)[k].levels))
            && (forall j, k :: 0 <= j < |before| && 0 <= k < |copies| ==>
                  before[j].abstractId.GetOr(0) < copies[k].abstractId.value)
            && (forall k, k' :: 0 <= k < k' < |copies| ==>
                  copies[k].abstractId.value < copies[k'].abstractId.value)
  {
    var before := Abstracts(mainRoot);
    var used := AbstractIds(before);
    var n := |Abstracts(insertRoot)|;
    var newIds := NewAbstractIds(mainRoot, insertRoot);
    assert newIds == CountUp(MaxOr0(used), n);
    CountedIdsAreFresh(used, n);
    var copies := AbstractCopies(mainRoot, insertRoot);
    forall j, k | 0 <= j < |before| && 0 <= k < |copies|
      ensures before[j].abstractId.GetOr(0) < copies[k].abstractId.value
    {
      assert used[j] == before[j].abstractId.GetOr(0) && used[j] < newIds[k];
    }
    forall k, k' | 0 <= k < k' < |copies| ensures copies[k].abstractId.value < copies[k'].abstractId.value {
      assert newIds[k] < newIds[k'];
    }
  }

  /** The same for the copies of the numbering instances. */
  lemma InstanceCopiesAreFresh(mainRoot: NumberingRoot, insertRoot: NumberingRoot)
    requires InstanceIdsFit(mainRoot, insertRoot)
    ensures var before := Instances(mainRoot);
            var copies := InstanceCopies(mainRoot, insertRoot);
            (forall k :: 0 <= k < |copies| ==>
               (copies[k].numId.Some? && copies[k].overrides == Instances(insertRoot)[k].overrides))
            && (forall j, k :: 0 <= j < |before| && 0 <= k < |copies| ==>
                  before[j].numId.GetOr(0) < copies[k].numId.value)
            && (forall k, k' :: 0 <= k < k' < |copies| ==>
                  copies[k].numId.value < copies[k'].numId.value)
  {
    var before := Instances(mainRoot);
    var used := InstanceIds(before);
    var n := |Instances(insertRoot)|;
    var newIds := NewInstanceIds(mainRoot, insertRoot);
    assert newIds == CountUp(MaxOr0(used), n);
    CountedIdsAreFresh(used, n);
    var copies := InstanceCopies(mainRoot, insertRoot);
    assert copies == CopyInstances(Instances(insertRoot), newIds, AbstractMap(mainRoot, insertRoot));
    forall j, k | 0 <= j < |before| && 0 <= k < |copies|
      ensures before[j].numId.GetOr(0) < copies[k].numId.value
    {
      assert used[j] == before[j].numId.GetOr(0) && used[j] < newIds[k];
    }
    forall k, k' | 0 <= k < k' < |copies| ensures copies[k].numId.value < copies[k'].numId.value {
      assert newIds[k] < newIds[k'];
    }
  }

  /** The returned map sends every old instance id of the inserted document
      to the id its copy received, the last namesake winning, and knows no
      other keys. */
  lemma NumMapPointsToCopies(mainRoot: NumberingRoot, insertRoot: NumberingRoot)
    ensures var r := Renumber(mainRoot, insertRoot);
            var oldIds := InstanceIds(Instances(insertRoot));
            var copies := InstanceCopies(mainRoot, insertRoot);
            r.numMap.Keys == (set x | x in oldIds)
            && forall j :: IsLastOf(oldIds, j) ==> Some(r.numMap[oldIds[j]]) == copies[j].numId
  {
    BuildMapKeys(InstanceIds(Instances(insertRoot)), NewInstanceIds(mainRoot, insertRoot));
    BuildMapValues(InstanceIds(Instances(insertRoot)), NewInstanceIds(mainRoot, insertRoot));
  }

  /** A copied instance points at the copy of the abstract numbering it
      referenced (the last one with that id); a reference to an id the
      inserted document does not define is left as it was. */
  lemma CopiedInstancesFollowTheirAbstracts(mainRoot: NumberingRoot, insertRoot: NumberingRoot, j: nat)
    requires j < |Instances(insertRoot)|
    ensures var original := Instances(insertRoot)[j];
            var copy := InstanceCopies(mainRoot, insertRoot)[j];
            var oldIds := AbstractIds(Abstracts(insertRoot));
            original.abstractRef.Some? ==>
              var key := original.abstractRef.value.GetOr(-1);
              (forall i :: IsLastOf(oldIds, i) && oldIds[i] == key ==>
                 copy.abstractRef == Some(Some(NewAbstractIds(mainRoot, insertRoot)[i])))
              && ((forall i :: 0 <= i < |oldIds| ==> oldIds[i] != key) ==>
                 copy.abstractRef == original.abstractRef)
  {
    var oldIds := AbstractIds(Abstracts(insertRoot));
    var newIds := NewAbstractIds(mainRoot, insertRoot);
    var amap := AbstractMap(mainRoot, insertRoot);
    assert amap == BuildMap(oldIds, newIds);
    var original := Instances(insertRoot)[j];
    var copies := InstanceCopies(mainRoot, insertRoot);
    assert copies == CopyInstances(Instances(insertRoot), NewInstanceIds(mainRoot, insertRoot), amap);
    assert copies[j].abstractRef == RewriteRef(original.abstractRef, amap);
    BuildMapValues(oldIds, newIds);
    BuildMapKeys(oldIds, newIds);
  }

  /** With an inserted numbering root, the copy keeps the main document's
      abstract numberings and instances and appends the renumbered copies
      after them; its map knows exactly the inserted instances' old ids and
      sends each to the id its (last) copy received. */
  lemma CopyNumberingSpec(main: PartState<NumberingRoot>, insert: PartState<NumberingRoot>)
    requires insert.Rooted?
    ensures var r := CopyNumbering(main, insert).value;
            var before := RootOrEmpty(main);
            var oldIds := InstanceIds(Instances(insert.root));
            Abstracts(r.part.root) == Abstracts(before) + AbstractCopies(before, insert.root)
            && Instances(r.part.root) == Instances(before) + InstanceCopies(before, insert.root)
            && r.numMap.Keys == (set x | x in oldIds)
            && forall j :: IsLastOf(oldIds, j) ==> Some(r.numMap[oldIds[j]]) == InstanceCopies(before, insert.root)[j].numId
  {
    RenumberedChildren(RootOrEmpty(main), insert.root);
    NumMapPointsToCopies(RootOrEmpty(main), insert.root);
  }
}

=== FILE: patterns.dfy ===
/** The constants of the merger: the spreadsheet file-name pattern, the
    placeholder pattern, the attribute name of the annotation body and the
    error message templates with their one `{0}` slot. */
module Patterns {
  import opened Basics

  // ---------------------------------------------------------------------
  // Spreadsheet file names:  ^[^<>:"/\\|?*\n]+\.(xls|xlsx|xlsm|xlt|xltx|xltm|xlsb)$
  // matched with RegexOptions.IgnoreCase.
  // ---------------------------------------------------------------------

  /** The characters the stem may not contain. */
  predicate ForbiddenInStem(c: char) {
    c in {'<', '>', ':', '"', '/', '\\', '|', '?', '*', '\n'}
  }

  predicate IsStem(s: string) {
    |s| > 0 && forall i :: 0 <= i < |s| ==> !ForbiddenInStem(s[i])
  }

  const SpreadsheetExtensions: seq<string> := ["xls", "xlsx", "xlsm", "xlt", "xltx", "xltm", "xlsb"]

  /** One of the alternatives of the group, compared without case. */
  predicate IsSpreadsheetExtension(ext: string) {
    Lower(ext) in SpreadsheetExtensions
  }

  /** .NET's `$` without Multiline also matches just before one final '\n'. */
  function BeforeFinalNewline(name: string): (r: string)
    ensures |name| > 0 && name[|name| - 1] == '\n' ==> r == name[..|name| - 1]
    ensures !(|name| > 0 && name[|name| - 1] == '\n') ==> r == name
  {
    if |name| > 0 && name[|name| - 1] == '\n' then name[..|name| - 1] else name
  }

  /** The pattern, read directly: some dot splits the name (less an optional
      final newline) into a stem and one of the extensions. */
  predicate MatchesSpreadsheetPattern(name: string) {
    var core := BeforeFinalNewline(name);
    exists k | 0 <= k < |core| ::
      core[k] == '.' && IsStem(core[..k]) && IsSpreadsheetExtension(core[k + 1..])
  }

  /** No character of `s` is a dot. */
  predicate NoDot(s: string) {
    s == [] || (s[0] != '.' && NoDot(s[1..]))
  }

  lemma {:induction false} NoDotAt(s: string, i: nat)
    requires NoDot(s) && i < |s|
    ensures s[i] != '.'
    decreases i
  {
    if i > 0 { NoDotAt(s[1..], i - 1); }
  }

  /** No extension contains a dot, so the only dot that can split a match is
      the last one. */
  lemma ExtensionsHaveNoDot(ext: string)
    requires IsSpreadsheetExtension(ext)
    ensures forall i :: 0 <= i < |ext| ==> ext[i] != '.'
  {
    var l := Lower(ext);
    assert NoDot(l);
    forall i | 0 <= i < |ext| ensures ext[i] != '.' {
      NoDotAt(l, i);
    }
  }

  /** When `dot` is the last dot of `core`, the pattern holds exactly when
      that dot splits `core` into a stem and an extension. */
  lemma LastDotDecides(core: string, dot: nat)
    requires dot < |core| && core[dot] == '.'
    requires forall i :: dot < i < |core| ==> core[i] != '.'
    ensures (exists k | 0 <= k < |core| ::
               core[k] == '.' && IsStem(core[..k]) && IsSpreadsheetExtension(core[k + 1..]))
            <==> IsStem(core[..dot]) && IsSpreadsheetExtension(core[dot + 1..])
  {
    if k :| 0 <= k < |core| && core[k] == '.' && IsStem(core[..k]) && IsSpreadsheetExtension(core[k + 1..]) {
      ExtensionsHaveNoDot(core[k + 1..]);
      if k < dot {
        assert core[k + 1..][dot - k - 1] == core[dot];
      }
    }
  }

  /** isExcel as the downloader computes it: find the last dot by scanning
      from the end, then check the stem before it and the extension after it. */
  method IsSpreadsheetFileName(name: string) returns (isExcel: bool)
    ensures isExcel <==> MatchesSpreadsheetPattern(name)
  {
    var core := BeforeFinalNewline(name);
    var k := |core|;
    while k > 0 && core[k - 1] != '.'
      invariant 0 <= k <= |core|
      invariant forall i :: k <= i < |core| ==> core[i] != '.'
      decreases k
    {
      k := k - 1;
    }
    if k == 0 {
      isExcel := false;
    } else {
      LastDotDecides(core, k - 1);
      isExcel := IsStem(core[..k - 1]) && IsSpreadsheetExtension(core[k..]);
    }
  }

  /** A dot at `k` with a stem before it and an extension after it is a match. */
  lemma AcceptedAt(name: string, k: nat)
    requires var core := BeforeFinalNewline(name);
      k < |core| && core[k] == '.' && IsStem(core[..k]) && IsSpreadsheetExtension(core[k + 1..])
    ensures MatchesSpreadsheetPattern(name)
  {
  }

  lemma PlainNameAccepted()
    ensures MatchesSpreadsheetPattern("report.xlsx")
  {
    var s := "report.xlsx";
    assert s[..6] == "report" && s[7..] == "xlsx";
    assert Lower("xlsx") == "xlsx";
    AcceptedAt(s, 6);
  }

  lemma DottedUpperCaseNameAccepted()
    ensures MatchesSpreadsheetPattern("a.b.XLSM")
  {
    var s := "a.b.XLSM";
    assert s[..3] == "a.b" && s[4..] == "XLSM";
    assert Lower("XLSM") == "xlsm";
    AcceptedAt(s, 3);
  }

  lemma NameWithFinalNewlineAccepted()
    ensures MatchesSpreadsheetPattern("a.xlsx\n")
  {
    var s := "a.xlsx";
    assert BeforeFinalNewline("a.xlsx\n") == s;
    assert s[..1] == "a" && s[2..] == "xlsx";
    assert Lower("xlsx") == "xlsx";
    AcceptedAt("a.xlsx\n", 1);
  }

  lemma NameWithoutStemRejected()
    ensures !MatchesSpreadsheetPattern(".xlsx")
  {
    var s := ".xlsx";
    assert forall k | 0 <= k < |s| && s[k] == '.' :: k == 0;
  }

  lemma NameWithOtherExtensionRejected()
    ensures !MatchesSpreadsheetPattern("a.docx")
  {
    var s := "a.docx";
    assert forall k | 0 <= k < |s| && s[k] == '.' :: k == 1;
    assert Lower(s[2..]) == "docx";
  }

  lemma NameWithSeparatorRejected()
    ensures !MatchesSpreadsheetPattern("a/b.xls")
  {
    var s := "a/b.xls";
    assert forall k | 0 <= k < |s| && s[k] == '.' :: k == 3;
    assert ForbiddenInStem(s[..3][1]);
  }

  lemma NameWithTrailingExtensionRejected()
    ensures !MatchesSpreadsheetPattern("a.xlsx.bak")
  {
    var s := "a.xlsx.bak";
    assert BeforeFinalNewline(s) == s;
    assert s[6] == '.' && s[7..] == "bak";
    assert Lower("bak") == "bak";
    assert !IsSpreadsheetExtension(s[7..]);
    LastDotDecides(s, 6);
  }

  // ---------------------------------------------------------------------
  // Placeholders:  <<[A-Z0-9_]+>>  (no options: case-sensitive, unanchored)
  // ---------------------------------------------------------------------

  predicate IsPlaceholderChar(c: char) {
    ('A' <= c <= 'Z') || ('0' <= c <= '9') || c == '_'
  }

  /** The whole string is one placeholder. */
  predicate IsPlaceholderToken(s: string) {
    |s| >= 5 && s[..2] == "<<" && s[|s| - 2..] == ">>"
    && forall i :: 2 <= i < |s| - 2 ==> IsPlaceholderChar(s[i])
  }

  /** Regex.IsMatch: some substring is a placeholder. */
  predicate ContainsPlaceholder(s: string) {
    exists i, j | 0 <= i <= j <= |s| :: IsPlaceholderToken(s[i..j])
  }

  /** End of the run of placeholder characters that starts at `i`. */
  function RunEnd(s: string, i: nat): (j: nat)
    requires i <= |s|
    ensures i <= j <= |s|
    ensures forall k :: i <= k < j ==> IsPlaceholderChar(s[k])
    ensures j == |s| || !IsPlaceholderChar(s[j])
    decreases |s| - i
  {
    if i < |s| && IsPlaceholderChar(s[i]) then RunEnd(s, i + 1) else i
  }

  /** The regex engine's view of a match starting at `i`: "<<", a maximal
      non-empty run of placeholder characters, then ">>" ('>' is not a
      placeholder character, so backtracking into the run cannot help). */
  predicate MatchAt(s: string, i: nat)
    requires i <= |s|
  {
    i + 2 <= |s| && s[i..i + 2] == "<<" &&
    var j := RunEnd(s, i + 2);
    j > i + 2 && j + 2 <= |s| && s[j..j + 2] == ">>"
  }

  lemma MatchAtIsToken(s: string, i: nat)
    requires i <= |s|
    ensures MatchAt(s, i) <==> exists j | i <= j <= |s| :: IsPlaceholderToken(s[i..j])
  {
    if MatchAt(s, i) {
      MatchAtGivesToken(s, i);
    }
    if j :| i <= j <= |s| && IsPlaceholderToken(s[i..j]) {
      TokenGivesMatchAt(s, i, j);
    }
  }

  lemma MatchAtGivesToken(s: string, i: nat)
    requires i <= |s| && MatchAt(s, i)
    ensures IsPlaceholderToken(s[i..RunEnd(s, i + 2) + 2])
  {
    var e := RunEnd(s, i + 2) + 2;
    var t := s[i..e];
    assert t[..2] == s[i..i + 2];
    assert t[|t| - 2..] == s[e - 2..e];
    forall k | 2 <= k < |t| - 2 ensures IsPlaceholderChar(t[k]) {
      assert t[k] == s[i + k];
    }
  }

  lemma TokenGivesMatchAt(s: string, i: nat, j: nat)
    requires i <= j <= |s| && IsPlaceholderToken(s[i..j])
    ensures MatchAt(s, i)
  {
    var t := s[i..j];
    assert s[i..i + 2] == t[..2];
    forall k | i + 2 <= k < j - 2 ensures IsPlaceholderChar(s[k]) {
      assert s[k] == t[k - i];
    }
    assert s[j - 2] == t[|t| - 2];
    var e := RunEnd(s, i + 2);
    assert e == j - 2;
    assert s[e..e + 2] == t[|t| - 2..];
  }

  /** Scans the string for the first position where a placeholder starts. */
  method FindPlaceholder(s: string) returns (found: bool, at: nat)
    ensures found <==> ContainsPlaceholder(s)
    ensures found ==> at <= |s| && MatchAt(s, at)
    ensures found ==> forall i :: 0 <= i < at ==> !MatchAt(s, i)
  {
    var i := 0;
    while i < |s|
      invariant 0 <= i <= |s|
      invariant forall k :: 0 <= k < i ==> !MatchAt(s, k)
      decreases |s| - i
    {
      if MatchAt(s, i) {
        MatchAtIsToken(s, i);
        return true, i;
      }
      i := i + 1;
    }
    found, at := false, 0;
    if ContainsPlaceholder(s) {
      var a, b :| 0 <= a <= b <= |s| && IsPlaceholderToken(s[a..b]);
      MatchAtIsToken(s, a);
      assert false;
    }
  }

  lemma PlaceholderExamples()
    ensures IsPlaceholderToken("<<CONTENT>>")
    ensures IsPlaceholderToken("<<FIELD_1>>")
    ensures !IsPlaceholderToken("<<content>>")
    ensures !IsPlaceholderToken("<<>>")
  {
    assert !IsPlaceholderChar("<<content>>"[2]);
  }

  // ---------------------------------------------------------------------
  // Annotation attribute and error templates.
  // ---------------------------------------------------------------------

  /** Name of the annotation attribute holding the base64 document. */
  const AnnotationDocumentBody: string := "documentbody"

  const ConfigListEmpty: string := "Configuration list is empty."
  const MainAnnotationMissingDocBodyAttribute: string := "Main annotation entity missing documentbody attribute."
  const MainAnnotationBodyEmpty: string := "Main annotation documentbody is empty."
  const MainAnnotationBodyNotValidBase64: string := BodyNotValidBase64Template.Text()
  const FileFieldMissing: string := FileFieldMissingTemplate.Text()
  const FileFieldEmptyOrErrorDownloading: string := FileFieldEmptyOrErrorDownloadingTemplate.Text()
  const UnexpectedErrorDuringMerge: string := UnexpectedErrorDuringMergeTemplate.Text()
  const EmptyPlaceholder: string := EmptyPlaceholderTemplate.Text()
  const PlaceholderNotFoundInMainDocument: string := PlaceholderNotFoundTemplate.Text()
  const PlaceholderNotFoundInMainDocumentBody: string := PlaceholderNotInBodyTemplate.Text()
  const CoupleNotCompatibleError: string := "Object is not a compatible ICouple"

  const Slot: string := "{0}"

  /** A message with one `{0}` slot between two fixed texts. */
  datatype Template = Template(pre: string, post: string) {
    function Text(): string {
      pre + Slot + post
    }
  }

  // The two longest fixed texts are written as two literals each, which
  // denote the same strings as the single ones in Const.cs; the brace scan
  // below works on each piece.
  const BodyNotValidBase64Template: Template := Template("Main annotation documentbody" + " is not valid Base64: ", "")
  const FileFieldMissingTemplate: Template := Template("File attribute '", "' missing on source entity.")
  const FileFieldEmptyOrErrorDownloadingTemplate: Template := Template("File missing or download" + " failed for field '", "'.")
  const UnexpectedErrorDuringMergeTemplate: Template := Template("Unexpected error during merge: ", "")
  const EmptyPlaceholderTemplate: Template := Template("Empty placeholder for field '", "'.")
  const PlaceholderNotFoundTemplate: Template := Template("Placeholder '", "' not found in main document.")
  const PlaceholderNotInBodyTemplate: Template := Template("Placeholder '", "' not inside document body.")

  /** The templates that take one argument. */
  const PerFieldTemplates: seq<Template> := [
    BodyNotValidBase64Template, FileFieldMissingTemplate, FileFieldEmptyOrErrorDownloadingTemplate,
    UnexpectedErrorDuringMergeTemplate, EmptyPlaceholderTemplate, PlaceholderNotFoundTemplate,
    PlaceholderNotInBodyTemplate]

  /** Number of `{0}` slots, counted left to right without overlap. */
  function SlotCount(t: string): nat
    decreases |t|
  {
    if |t| < 3 then 0
    else if t[..3] == Slot then 1 + SlotCount(t[3..])
    else SlotCount(t[1..])
  }

  /** string.Format with one argument: every `{0}` becomes `arg`. */
  function Format(t: string, arg: string): string
    decreases |t|
  {
    if |t| < 3 then t
    else if t[..3] == Slot then arg + Format(t[3..], arg)
    else [t[0]] + Format(t[1..], arg)
  }

  /** No character of `s` is a brace, so string.Format copies it verbatim
      (an opening brace starts a slot, a lone closing one is rejected). */
  predicate NoBrace(s: string) {
    '{' !in s && '}' !in s
  }

  lemma {:induction false} NoBraceIsVerbatim(s: string, arg: string)
    requires NoBrace(s)
    ensures SlotCount(s) == 0 && Format(s, arg) == s
    decreases |s|
  {
    if |s| >= 3 {
      assert s[0] in s;
      assert s[..3] != Slot;
      NoBraceIsVerbatim(s[1..], arg);
      assert [s[0]] + s[1..] == s;
    }
  }

  /** A template with one slot between brace-free text formats to that text
      with the argument in the slot. */
  lemma {:induction false} FormatOneSlot(pre: string, post: string, arg: string)
    requires NoBrace(pre) && NoBrace(post)
    ensures SlotCount(pre + Slot + post) == 1
    ensures Format(pre + Slot + post, arg) == pre + arg + post
    decreases |pre|
  {
    var t := pre + Slot + post;
    if pre == [] {
      assert t == Slot + post;
      assert t[..3] == Slot && t[3..] == post;
      NoBraceIsVerbatim(post, arg);
      assert Format(t, arg) == arg + Format(post, arg);
    } else {
      assert t[0] == pre[0] && t[0] != '{';
      assert t[..3] != Slot;
      assert t[1..] == pre[1..] + Slot + post;
      FormatOneSlot(pre[1..], post, arg);
      assert Format(t, arg) == [pre[0]] + (pre[1..] + arg + post);
      assert [pre[0]] + (pre[1..] + arg + post) == pre + arg + post;
    }
  }

  /** Neither fixed text of a template contains a brace. */
  predicate BraceFree(t: Template) {
    NoBrace(t.pre) && NoBrace(t.post)
  }

  /** A character-by-character check that `s` has no brace. */
  lemma NoBraceByScan(s: string)
    requires forall i | 0 <= i < |s| :: s[i] != '{' && s[i] != '}'
    ensures NoBrace(s)
  {
  }

  lemma TemplatesAreBraceFree()
    ensures forall t :: t in PerFieldTemplates ==> BraceFree(t)
  {
    BodyNotValidBase64IsBraceFree();
    FileFieldMissingIsBraceFree();
    FileFieldEmptyOrErrorDownloadingIsBraceFree();
    UnexpectedErrorDuringMergeIsBraceFree();
    EmptyPlaceholderIsBraceFree();
    PlaceholderNotFoundIsBraceFree();
    PlaceholderNotInBodyIsBraceFree();
  }

  lemma BodyNotValidBase64IsBraceFree() ensures BraceFree(BodyNotValidBase64Template) {
    NoBraceByScan("Main annotation documentbody");
    NoBraceByScan(" is not valid Base64: ");
  }

  lemma FileFieldMissingIsBraceFree() ensures BraceFree(FileFieldMissingTemplate) {
    NoBraceByScan("File attribute '");
    NoBraceByScan("' missing on source entity.");
  }

  lemma FileFieldEmptyOrErrorDownloadingIsBraceFree() ensures BraceFree(FileFieldEmptyOrErrorDownloadingTemplate) {
    NoBraceByScan("File missing or download");
    NoBraceByScan(" failed for field '");
    NoBraceByScan("'.");
  }

  lemma UnexpectedErrorDuringMergeIsBraceFree() ensures BraceFree(UnexpectedErrorDuringMergeTemplate) {
    NoBraceByScan("Unexpected error during merge: ");
    NoBraceByScan("");
  }

  lemma EmptyPlaceholderIsBraceFree() ensures BraceFree(EmptyPlaceholderTemplate) {
    NoBraceByScan("Empty placeholder for field '");
    NoBraceByScan("'.");
  }

  lemma PlaceholderNotFoundIsBraceFree() ensures BraceFree(PlaceholderNotFoundTemplate) {
    NoBraceByScan("Placeholder '");
    NoBraceByScan("' not found in main document.");
  }

  lemma PlaceholderNotInBodyIsBraceFree() ensures BraceFree(PlaceholderNotInBodyTemplate) {
    NoBraceByScan("Placeholder '");
    NoBraceByScan("' not inside document body.");
  }

  /** Each per-field template has exactly one slot, and string.Format puts
      the argument (the field name or the decoding detail) in it. */
  lemma PerFieldTemplatesHaveOneSlot(arg: string)
    ensures forall t :: t in PerFieldTemplates ==>
              SlotCount(t.Text()) == 1 && Format(t.Text(), arg) == t.pre + arg + t.post
  {
    TemplatesAreBraceFree();
    forall t | t in PerFieldTemplates
      ensures SlotCount(t.Text()) == 1 && Format(t.Text(), arg) == t.pre + arg + t.post
    {
      FormatOneSlot(t.pre, t.post, arg);
    }
  }

  /** The formatted message names its argument. */
  lemma FormattedMessageNamesArgument(t: Template, arg: string)
    requires BraceFree(t)
    ensures Contains(Format(t.Text(), arg), arg)
  {
    FormatOneSlot(t.pre, t.post, arg);
    assert (t.pre + arg + t.post)[|t.pre|..|t.pre| + |arg|] == arg;
    assert OccursAt(t.pre + arg + t.post, arg, |t.pre|);
  }
}

=== FILE: references.dfy ===
/** Rewriting of the image and numbering references inside an imported
    element, through the old-to-new id maps built when the parts were
    copied. */
module References {
  import opened Basics
  import opened Documents

  // -----------------------------------------------------------------------
  // Image references: blips under drawings
  // -----------------------------------------------------------------------

  /** One lookup through an old-to-new id map: a present, mapped id is
      replaced, an absent or unmapped one is kept. Used for blip embeds and
      for numbering ids alike. */
  function Remap<K>(m: map<K, K>, id: Option<K>): (r: Option<K>)
    ensures id.Some? && id.value in m ==> r == Some(m[id.value])
    ensures id.None? || id.value !in m ==> r == id
  {
    if id.Some? && id.value in m then Some(m[id.value]) else id
  }

  /** The embed of a blip after the loops over `depth` enclosing drawings:
      each enclosing drawing visits the blip once more. */
  function RemapTimes(m: map<string, string>, embed: Option<string>, depth: nat): Option<string>
    decreases depth
  {
    if depth == 0 then embed else RemapTimes(m, Remap(m, embed), depth - 1)
  }

  function DrawingDepth(t: Tag, depth: nat): nat {
    if t == Drawing then depth + 1 else depth
  }

  /** A node `depth` drawings deep inside the imported element. */
  function PatchImagesNode(n: Node, m: map<string, string>, depth: nat): Node
    decreases n
  {
    var tag := if n.tag.Blip? then Blip(RemapTimes(m, n.tag.embed, depth)) else n.tag;
    Node(tag, PatchImagesSeq(n.children, m, DrawingDepth(n.tag, depth)))
  }

  function PatchImagesSeq(ns: seq<Node>, m: map<string, string>, depth: nat): (r: seq<Node>)
    ensures |r| == |ns|
    decreases ns
  {
    if ns == [] then [] else [PatchImagesNode(ns[0], m, depth)] + PatchImagesSeq(ns[1..], m, depth)
  }

  /** UpdateImageReferences: for every Drawing among the element's
      descendants (the element itself excluded), every Blip below it whose
      embed id is mapped gets the new id. */
  function UpdateImageReferences(e: Node, m: map<string, string>): Node {
    Node(e.tag, PatchImagesSeq(e.children, m, 0))
  }

  /** The blips of a subtree in document order, each with its embed and the
      number of drawings above it. */
  function EmbedsNode(n: Node, depth: nat): seq<(Option<string>, nat)>
    decreases n
  {
    (if n.tag.Blip? then [(n.tag.embed, depth)] else []) + EmbedsSeq(n.children, DrawingDepth(n.tag, depth))
  }

  function EmbedsSeq(ns: seq<Node>, depth: nat): seq<(Option<string>, nat)>
    decreases ns
  {
    if ns == [] then [] else EmbedsNode(ns[0], depth) + EmbedsSeq(ns[1..], depth)
  }

  function RemapAll(m: map<string, string>, es: seq<(Option<string>, nat)>): (r: seq<(Option<string>, nat)>)
    ensures |r| == |es|
    ensures forall k :: 0 <= k < |es| ==> r[k] == (RemapTimes(m, es[k].0, es[k].1), es[k].1)
  {
    seq(|es|, k requires 0 <= k < |es| => (RemapTimes(m, es[k].0, es[k].1), es[k].1))
  }

  /** Everything but the reference values: embeds and numbering ids blanked. */
  function Skeleton(n: Node): Node
    decreases n
  {
    var tag := match n.tag
      case Blip(_) => Blip(None)
      case NumberingId(_) => NumberingId(None)
      case _ => n.tag;
    Node(tag, SkeletonSeq(n.children))
  }

  function SkeletonSeq(ns: seq<Node>): (r: seq<Node>)
    ensures |r| == |ns|
    decreases ns
  {
    if ns == [] then [] else [Skeleton(ns[0])] + SkeletonSeq(ns[1..])
  }

  /** Image patching changes nothing but blip embeds, and each blip's embed
      becomes its old embed looked up once per enclosing drawing. */
  lemma {:induction false} PatchImagesNodeSpec(n: Node, m: map<string, string>, depth: nat)
    ensures Skeleton(PatchImagesNode(n, m, depth)) == Skeleton(n)
    ensures EmbedsNode(PatchImagesNode(n, m, depth), depth) == RemapAll(m, EmbedsNode(n, depth))
    decreases n, 1
  {
    PatchImagesSeqSpec(n.children, m, DrawingDepth(n.tag, depth));
  }

  lemma {:induction false} PatchImagesSeqSpec(ns: seq<Node>, m: map<string, string>, depth: nat)
    ensures SkeletonSeq(PatchImagesSeq(ns, m, depth)) == SkeletonSeq(ns)
    ensures EmbedsSeq(PatchImagesSeq(ns, m, depth), depth) == RemapAll(m, EmbedsSeq(ns, depth))
    decreases ns, 0
  {
    if ns != [] {
      var p := PatchImagesSeq(ns, m, depth);
      assert p[0] == PatchImagesNode(ns[0], m, depth) && p[1..] == PatchImagesSeq(ns[1..], m, depth);
      PatchImagesNodeSpec(ns[0], m, depth);
      PatchImagesSeqSpec(ns[1..], m, depth);
    }
  }

  /** The whole element: its own tag stays, its descendants are patched as
      above with the depth counted from the element's children. */
  lemma UpdateImageReferencesSpec(e: Node, m: map<string, string>)
    ensures Skeleton(UpdateImageReferences(e, m)) == Skeleton(e)
    ensures EmbedsSeq(UpdateImageReferences(e, m).children, 0) == RemapAll(m, EmbedsSeq(e.children, 0))
  {
    PatchImagesSeqSpec(e.children, m, 0);
  }

  /** A blip outside every drawing keeps its embed; so does an unmapped one,
      whatever its depth. */
  lemma UnmappedEmbedUnchanged(m: map<string, string>, embed: Option<string>, depth: nat)
    requires depth == 0 || embed.None? || embed.value !in m
    ensures RemapTimes(m, embed, depth) == embed
    decreases depth
  {
    if depth > 0 { UnmappedEmbedUnchanged(m, embed, depth - 1); }
  }

  /** When no new id is itself an old id, the repeated lookups under nested
      drawings agree with a single lookup. */
  lemma NestedLookupIsSingle(m: map<string, string>, embed: Option<string>, depth: nat)
    requires forall k :: k in m ==> m[k] !in m
    requires depth >= 1
    ensures RemapTimes(m, embed, depth) == Remap(m, embed)
  {
    var once := Remap(m, embed);
    assert once.None? || once.value !in m;
    UnmappedEmbedUnchanged(m, once, depth - 1);
  }

  // -----------------------------------------------------------------------
  // Numbering references: the NumberingId of each NumberingProperties
  // -----------------------------------------------------------------------

  /** Index of the first NumberingId child (`numPr.NumberingId`), if any. */
  function FirstIdChild(cs: seq<Node>): (r: Option<nat>)
    ensures r.Some? ==> r.value < |cs| && cs[r.value].tag.NumberingId?
                        && forall k :: 0 <= k < r.value ==> !cs[k].tag.NumberingId?
    ensures r.None? ==> forall k :: 0 <= k < |cs| ==> !cs[k].tag.NumberingId?
    decreases |cs|
  {
    if cs == [] then None
    else if cs[0].tag.NumberingId? then Some(0)
    else
      var r := FirstIdChild(cs[1..]);
      if r.None? then
        assert forall k :: 1 <= k < |cs| ==> cs[k] == cs[1..][k - 1];
        None
      else
        assert forall k :: 1 <= k <= r.value ==> cs[k] == cs[1..][k - 1];
        Some(r.value + 1)
  }

  function RewriteFirstId(cs: seq<Node>, m: map<int, int>): (r: seq<Node>)
    ensures |r| == |cs|
  {
    match FirstIdChild(cs)
    case None => cs
    case Some(j) => cs[j := Node(NumberingId(Remap(m, cs[j].tag.val)), cs[j].children)]
  }

  function PatchNumberingNode(n: Node, m: map<int, int>): Node
    decreases n
  {
    var cs := PatchNumberingSeq(n.children, m);
    Node(n.tag, if n.tag == NumberingProperties then RewriteFirstId(cs, m) else cs)
  }

  function PatchNumberingSeq(ns: seq<Node>, m: map<int, int>): (r: seq<Node>)
    ensures |r| == |ns|
    decreases ns
  {
    if ns == [] then [] else [PatchNumberingNode(ns[0], m)] + PatchNumberingSeq(ns[1..], m)
  }

  /** UpdateNumberingReferences, null-tolerant revision: for every
      NumberingProperties among the element's descendants, its NumberingId's
      value is replaced when it is present and mapped. */
  function UpdateNumberingReferences(e: Node, m: map<int, int>): Node {
    Node(e.tag, PatchNumberingSeq(e.children, m))
  }

  /** The id a numbering-properties element contributes itself. */
  function OwnId(n: Node): seq<Option<int>> {
    if n.tag == NumberingProperties then
      match FirstIdChild(n.children)
      case None => []
      case Some(j) => [n.children[j].tag.val]
    else []
  }

  /** The numbering references of a subtree in document order: the value of
      the first NumberingId child of each NumberingProperties (`None` when it
      has no value), skipping those without such a child. */
  function NumIdsNode(n: Node): seq<Option<int>>
    decreases n
  {
    OwnId(n) + NumIdsSeq(n.children)
  }

  function NumIdsSeq(ns: seq<Node>): seq<Option<int>>
    decreases ns
  {
    if ns == [] then [] else NumIdsNode(ns[0]) + NumIdsSeq(ns[1..])
  }

  function RemapIds(m: map<int, int>, ids: seq<Option<int>>): (r: seq<Option<int>>)
    ensures |r| == |ids|
    ensures forall k :: 0 <= k < |ids| ==> r[k] == Remap(m, ids[k])
  {
    seq(|ids|, k requires 0 <= k < |ids| => Remap(m, ids[k]))
  }

  lemma RemapIdsAppend(m: map<int, int>, a: seq<Option<int>>, b: seq<Option<int>>)
    ensures RemapIds(m, a + b) == RemapIds(m, a) + RemapIds(m, b)
  {
  }

  /** Patching keeps which child is the first NumberingId child. */
  lemma PatchKeepsIdPositions(ns: seq<Node>, m: map<int, int>)
    ensures forall k :: 0 <= k < |ns| ==>
              PatchNumberingSeq(ns, m)[k].tag.NumberingId? == ns[k].tag.NumberingId?
              && (ns[k].tag.NumberingId? ==> PatchNumberingSeq(ns, m)[k].tag == ns[k].tag)
    decreases ns
  {
    if ns != [] {
      PatchKeepsIdPositions(ns[1..], m);
      var p := PatchNumberingSeq(ns, m);
      assert forall k :: 1 <= k < |ns| ==> p[k] == PatchNumberingSeq(ns[1..], m)[k - 1];
    }
  }

  /** Numbering patching changes nothing but numbering ids, and the
      references, read in document order, are each looked up once. */
  lemma PatchNumberingNodeSpec(n: Node, m: map<int, int>)
    ensures Skeleton(PatchNumberingNode(n, m)) == Skeleton(n)
    ensures NumIdsNode(PatchNumberingNode(n, m)) == RemapIds(m, NumIdsNode(n))
  {
    PatchNumberingNodeKeepsSkeleton(n, m);
    PatchNumberingNodeRemapsIds(n, m);
  }

  lemma {:induction false} PatchNumberingNodeKeepsSkeleton(n: Node, m: map<int, int>)
    ensures Skeleton(PatchNumberingNode(n, m)) == Skeleton(n)
    decreases n, 1
  {
    PatchNumberingSeqKeepsSkeleton(n.children, m);
    var cs := PatchNumberingSeq(n.children, m);
    if n.tag == NumberingProperties {
      RewriteKeepsSkeletonAndIds(cs, m);
    }
  }

  lemma {:induction false} PatchNumberingSeqKeepsSkeleton(ns: seq<Node>, m: map<int, int>)
    ensures SkeletonSeq(PatchNumberingSeq(ns, m)) == SkeletonSeq(ns)
    decreases ns, 0
  {
    if ns != [] {
      var p := PatchNumberingSeq(ns, m);
      assert p[0] == PatchNumberingNode(ns[0], m) && p[1..] == PatchNumberingSeq(ns[1..], m);
      PatchNumberingNodeKeepsSkeleton(ns[0], m);
      PatchNumberingSeqKeepsSkeleton(ns[1..], m);
    }
  }

  /** The id a numbering-properties element holds is looked up once. */
  lemma OwnIdRemapped(n: Node, m: map<int, int>)
    ensures OwnId(PatchNumberingNode(n, m)) == RemapIds(m, OwnId(n))
  {
    if n.tag == NumberingProperties {
      var cs := PatchNumberingSeq(n.children, m);
      PatchKeepsIdPositions(n.children, m);
      FirstIdChildOfSameKinds(cs, n.children);
      var rw := RewriteFirstId(cs, m);
      FirstIdChildOfSameKinds(rw, cs);
      assert PatchNumberingNode(n, m).children == rw;
    }
  }

  lemma {:induction false} PatchNumberingNodeRemapsIds(n: Node, m: map<int, int>)
    ensures NumIdsNode(PatchNumberingNode(n, m)) == RemapIds(m, NumIdsNode(n))
    decreases n, 1
  {
    PatchNumberingSeqRemapsIds(n.children, m);
    var cs := PatchNumberingSeq(n.children, m);
    var p := PatchNumberingNode(n, m);
    if n.tag == NumberingProperties {
      RewriteKeepsSkeletonAndIds(cs, m);
    }
    assert NumIdsSeq(p.children) == NumIdsSeq(cs);
    OwnIdRemapped(n, m);
    RemapIdsAppend(m, OwnId(n), NumIdsSeq(n.children));
  }

  lemma {:induction false} PatchNumberingSeqRemapsIds(ns: seq<Node>, m: map<int, int>)
    ensures NumIdsSeq(PatchNumberingSeq(ns, m)) == RemapIds(m, NumIdsSeq(ns))
    decreases ns, 0
  {
    if ns != [] {
      var p := PatchNumberingSeq(ns, m);
      assert p[0] == PatchNumberingNode(ns[0], m) && p[1..] == PatchNumberingSeq(ns[1..], m);
      PatchNumberingNodeRemapsIds(ns[0], m);
      PatchNumberingSeqRemapsIds(ns[1..], m);
      RemapIdsAppend(m, NumIdsNode(ns[0]), NumIdsSeq(ns[1..]));
    }
  }

  /** Children with numbering ids at the same positions have the same
      first one. */
  lemma FirstIdChildOfSameKinds(a: seq<Node>, b: seq<Node>)
    requires |a| == |b|
    requires forall k :: 0 <= k < |a| ==> a[k].tag.NumberingId? == b[k].tag.NumberingId?
    ensures FirstIdChild(a) == FirstIdChild(b)
    decreases |a|
  {
    if a != [] && !a[0].tag.NumberingId? {
      FirstIdChildOfSameKinds(a[1..], b[1..]);
    }
  }

  /** Rewriting the first id child's value touches neither the skeleton nor
      the ids found beneath the children. */
  lemma RewriteKeepsSkeletonAndIds(cs: seq<Node>, m: map<int, int>)
    ensures SkeletonSeq(RewriteFirstId(cs, m)) == SkeletonSeq(cs)
    ensures NumIdsSeq(RewriteFirstId(cs, m)) == NumIdsSeq(cs)
  {
    match FirstIdChild(cs)
    case None =>
    case Some(j) =>
      var x := Node(NumberingId(Remap(m, cs[j].tag.val)), cs[j].children);
      SkeletonSeqUpdate(cs, j, x);
      NumIdsSeqUpdate(cs, j, x);
  }

  lemma {:induction false} SkeletonSeqUpdate(cs: seq<Node>, j: nat, x: Node)
    requires j < |cs| && Skeleton(x) == Skeleton(cs[j])
    ensures SkeletonSeq(cs[j := x]) == SkeletonSeq(cs)
    decreases j
  {
    if j > 0 {
      assert cs[j := x][1..] == cs[1..][j - 1 := x];
      SkeletonSeqUpdate(cs[1..], j - 1, x);
    } else {
      assert cs[j := x][1..] == cs[1..];
    }
  }

  lemma {:induction false} NumIdsSeqUpdate(cs: seq<Node>, j: nat, x: Node)
    requires j < |cs| && NumIdsNode(x) == NumIdsNode(cs[j])
    ensures NumIdsSeq(cs[j := x]) == NumIdsSeq(cs)
    decreases j
  {
    if j > 0 {
      assert cs[j := x][1..] == cs[1..][j - 1 := x];
      NumIdsSeqUpdate(cs[1..], j - 1, x);
    } else {
      assert cs[j := x][1..] == cs[1..];
    }
  }

  lemma PatchNumberingSeqSpec(ns: seq<Node>, m: map<int, int>)
    ensures SkeletonSeq(PatchNumberingSeq(ns, m)) == SkeletonSeq(ns)
    ensures NumIdsSeq(PatchNumberingSeq(ns, m)) == RemapIds(m, NumIdsSeq(ns))
  {
    PatchNumberingSeqKeepsSkeleton(ns, m);
    PatchNumberingSeqRemapsIds(ns, m);
  }

  /** The element as a whole: only numbering ids change, each looked up once. */
  lemma UpdateNumberingReferencesSpec(e: Node, m: map<int, int>)
    ensures Skeleton(UpdateNumberingReferences(e, m)) == Skeleton(e)
    ensures NumIdsSeq(UpdateNumberingReferences(e, m).children) == RemapIds(m, NumIdsSeq(e.children))
  {
    PatchNumberingSeqSpec(e.children, m);
  }

  // -----------------------------------------------------------------------
  // The strict revision: a NumberingId without a value is dereferenced
  // -----------------------------------------------------------------------

  predicate HasValuelessIdNode(n: Node)
    decreases n
  {
    (n.tag == NumberingProperties && FirstIdChild(n.children).Some?
     && n.children[FirstIdChild(n.children).value].tag.val.None?)
    || HasValuelessIdSeq(n.children)
  }

  predicate HasValuelessIdSeq(ns: seq<Node>)
    decreases ns
  {
    ns != [] && (HasValuelessIdNode(ns[0]) || HasValuelessIdSeq(ns[1..]))
  }

  function StrictPatchNumberingNode(n: Node, m: map<int, int>): Result<Node>
    decreases n
  {
    var cs :- StrictPatchNumberingSeq(n.children, m);
    if n.tag != NumberingProperties then Ok(Node(n.tag, cs))
    else match FirstIdChild(cs)
      case None => Ok(Node(n.tag, cs))
      case Some(j) =>
        if cs[j].tag.val.None? then Err(NullReference)
        else Ok(Node(n.tag, RewriteFirstId(cs, m)))
  }

  function StrictPatchNumberingSeq(ns: seq<Node>, m: map<int, int>): Result<seq<Node>>
    decreases ns
  {
    if ns == [] then Ok([])
    else
      var x :- StrictPatchNumberingNode(ns[0], m);
      var rest :- StrictPatchNumberingSeq(ns[1..], m);
      Ok([x] + rest)
  }

  /** UpdateNumberingReferences, strict revision. */
  function StrictUpdateNumberingReferences(e: Node, m: map<int, int>): Result<Node> {
    var cs :- StrictPatchNumberingSeq(e.children, m);
    Ok(Node(e.tag, cs))
  }

  /** The strict revision fails exactly when some reference has an id
      element without a value, and otherwise agrees with the tolerant one. */
  lemma {:induction false} StrictNodeAgrees(n: Node, m: map<int, int>)
    ensures StrictPatchNumberingNode(n, m) ==
              if HasValuelessIdNode(n) then Err(NullReference) else Ok(PatchNumberingNode(n, m))
    decreases n, 1
  {
    StrictSeqAgrees(n.children, m);
    if !HasValuelessIdSeq(n.children) && n.tag == NumberingProperties {
      PatchKeepsIdPositions(n.children, m);
      FirstIdChildOfSameKinds(PatchNumberingSeq(n.children, m), n.children);
    }
  }

  lemma {:induction false} StrictSeqAgrees(ns: seq<Node>, m: map<int, int>)
    ensures StrictPatchNumberingSeq(ns, m) ==
              if HasValuelessIdSeq(ns) then Err(NullReference) else Ok(PatchNumberingSeq(ns, m))
    decreases ns, 0
  {
    if ns != [] {
      StrictNodeAgrees(ns[0], m);
      StrictSeqAgrees(ns[1..], m);
    }
  }

  lemma StrictUpdateAgrees(e: Node, m: map<int, int>)
    ensures StrictUpdateNumberingReferences(e, m) ==
              if HasValuelessIdSeq(e.children) then Err(NullReference) else Ok(UpdateNumberingReferences(e, m))
  {
    StrictSeqAgrees(e.children, m);
  }

  // -----------------------------------------------------------------------
  // The two rewritings do not interfere
  // -----------------------------------------------------------------------

  /** Image patching changes no tag except a blip's. */
  lemma PatchImagesKeepsOtherTags(ns: seq<Node>, m: map<string, string>, depth: nat)
    ensures forall k :: 0 <= k < |ns| ==>
              PatchImagesSeq(ns, m, depth)[k].tag.Blip? == ns[k].tag.Blip?
              && (!ns[k].tag.Blip? ==> PatchImagesSeq(ns, m, depth)[k].tag == ns[k].tag)
    decreases ns
  {
    if ns != [] {
      PatchImagesKeepsOtherTags(ns[1..], m, depth);
      var p := PatchImagesSeq(ns, m, depth);
      assert forall k :: 1 <= k < |ns| ==> p[k] == PatchImagesSeq(ns[1..], m, depth)[k - 1];
    }
  }

  /** Image patching leaves every numbering reference as it was, so the
      numbering pass sees the same references before or after it. */
  lemma {:induction false} PatchImagesKeepsNumberingNode(n: Node, m: map<string, string>, depth: nat)
    ensures NumIdsNode(PatchImagesNode(n, m, depth)) == NumIdsNode(n)
    ensures HasValuelessIdNode(PatchImagesNode(n, m, depth)) == HasValuelessIdNode(n)
    decreases n, 1
  {
    var d := DrawingDepth(n.tag, depth);
    PatchImagesKeepsNumberingSeq(n.children, m, d);
    var cs := PatchImagesSeq(n.children, m, d);
    PatchImagesKeepsOtherTags(n.children, m, d);
    FirstIdChildOfSameKinds(cs, n.children);
  }

  lemma {:induction false} PatchImagesKeepsNumberingSeq(ns: seq<Node>, m: map<string, string>, depth: nat)
    ensures NumIdsSeq(PatchImagesSeq(ns, m, depth)) == NumIdsSeq(ns)
    ensures HasValuelessIdSeq(PatchImagesSeq(ns, m, depth)) == HasValuelessIdSeq(ns)
    decreases ns, 0
  {
    if ns != [] {
      var p := PatchImagesSeq(ns, m, depth);
      assert p[0] == PatchImagesNode(ns[0], m, depth) && p[1..] == PatchImagesSeq(ns[1..], m, depth);
      PatchImagesKeepsNumberingNode(ns[0], m, depth);
      PatchImagesKeepsNumberingSeq(ns[1..], m, depth);
    }
  }

  lemma UpdateImageReferencesKeepsNumbering(e: Node, m: map<string, string>)
    ensures NumIdsSeq(UpdateImageReferences(e, m).children) == NumIdsSeq(e.children)
    ensures HasValuelessIdSeq(UpdateImageReferences(e, m).children) == HasValuelessIdSeq(e.children)
  {
    PatchImagesKeepsNumberingSeq(e.children, m, 0);
  }
}

=== FILE: spreadsheet.dfy ===
/** The conversion of a spreadsheet's first worksheet into a word-processing
    table: one table row per spreadsheet row, one cell per spreadsheet cell,
    each holding one paragraph with one run carrying the cell's text, font
    and colours. */
module Spreadsheets {
  import opened Basics
  import opened Documents

  datatype CellType = NoType | SharedStringType | OtherType(name: string)

  /** A `c` element: the text of its value element, its data type and its
      style index (an unsigned 32-bit attribute). */
  datatype Cell = Cell(value: Option<string>, dataType: CellType, styleIndex: Option<nat>)

  datatype Row = Row(cells: seq<Cell>)

  datatype ColorRef = ColorRef(rgb: Option<string>)

  datatype PatternFill = PatternFill(foreground: Option<ColorRef>, background: Option<ColorRef>)

  datatype Fill = Fill(patternFill: Option<PatternFill>)

  /** A font: its name (absent when the element or its value is), its size
      element (absent, or present with a possibly missing value; the size is
      taken after the cast to int), bold and italic flags and colour. */
  datatype Font = Font(name: Option<string>, size: Option<Option<int>>, bold: bool, italic: bool, color: Option<ColorRef>)

  datatype CellFormat = CellFormat(fillId: Option<nat>, fontId: Option<nat>)

  datatype Stylesheet = Stylesheet(cellFormats: Option<seq<CellFormat>>, fills: Option<seq<Fill>>, fonts: Option<seq<Font>>)

  /** The workbook part: the sheets' relationship ids in order, the
      worksheets' rows by relationship id, the style sheet and the shared
      strings' inner texts. */
  datatype Workbook = Workbook(
    sheets: Option<seq<string>>,
    worksheets: map<string, seq<Row>>,
    stylesheet: Option<Stylesheet>,
    sharedStrings: Option<seq<string>>)

  datatype CellStyle = CellStyle(
    background: Option<string>,
    fontName: Option<string>,
    fontSize: int,
    bold: bool,
    italic: bool,
    fontColor: Option<string>)

  const NoStyle := CellStyle(None, None, 0, false, false, None)

  /** `ElementAt(index)`: out of range on either side throws. */
  function ElementAt<T>(s: seq<T>, index: int): (r: Result<T>)
    ensures r.Ok? <==> 0 <= index < |s|
    ensures r.Ok? ==> r.value == s[index]
  {
    if 0 <= index < |s| then Ok(s[index]) else Err(ArgumentOutOfRange)
  }

  predicate IsNullOrEmpty(s: Option<string>) {
    s.None? || s.value == ""
  }

  // -----------------------------------------------------------------------
  // int.Parse
  // -----------------------------------------------------------------------

  /** The white space `NumberStyles.Integer` skips around the number. */
  predicate IsWhite(c: char) {
    c == ' ' || '\t' <= c <= '\r'
  }

  function TrimStart(s: string): (r: string)
    ensures |r| <= |s| && (r == [] || !IsWhite(r[0]))
    ensures (s == [] || !IsWhite(s[0])) ==> r == s
    decreases |s|
  {
    if s != [] && IsWhite(s[0]) then TrimStart(s[1..]) else s
  }

  function TrimEnd(s: string): (r: string)
    ensures (s == [] || !IsWhite(s[|s| - 1])) ==> r == s
    decreases |s|
  {
    if s != [] && IsWhite(s[|s| - 1]) then TrimEnd(s[..|s| - 1]) else s
  }

  predicate AllDigits(s: string) {
    forall i :: 0 <= i < |s| ==> '0' <= s[i] <= '9'
  }

  /** int.Parse: optional surrounding white space, an optional sign and at
      least one decimal digit; text of another shape throws FormatException
      and a number outside the range of a 32-bit int OverflowException. */
  function ParseInt(s: string): (r: Result<int>)
    ensures r.Ok? ==> IsInt32(r.value)
    ensures r.Err? ==> r.fault == Format || r.fault == Overflow
    ensures r == Err(Format) <==> !WellFormedNumber(TrimEnd(TrimStart(s)))
  {
    var t := TrimEnd(TrimStart(s));
    var negative := |t| > 0 && t[0] == '-';
    var digits := NumberDigits(t);
    if !WellFormedNumber(t) then Err(Format)
    else
      var n: int := DigitsValue(digits);
      var v := if negative then -n else n;
      if IsInt32(v) then Ok(v) else Err(Overflow)
  }

  /** The digits of a trimmed number, after an optional sign. */
  function NumberDigits(t: string): string {
    if |t| > 0 && (t[0] == '-' || t[0] == '+') then t[1..] else t
  }

  /** A trimmed text int.Parse accepts the shape of: a sign at most, then
      one or more decimal digits. */
  predicate WellFormedNumber(t: string) {
    NumberDigits(t) != [] && AllDigits(NumberDigits(t))
  }

  /** A well-formed number outside the 32-bit range throws
      OverflowException rather than FormatException. */
  lemma ParseIntOverflows(x: int)
    requires !IsInt32(x)
    ensures ParseInt(IntToString(x)) == Err(Overflow)
  {
    ParseIntReadsRendering(x);
  }

  /** Text without digits, or with anything but white space around them,
      throws FormatException. */
  lemma ParseIntFormatFaults()
    ensures ParseInt("") == Err(Format)
    ensures ParseInt("+") == Err(Format)
    ensures ParseInt("1 2") == Err(Format)
  {
    assert TrimEnd("+") == "+";
    assert NumberDigits("+") == [];
    assert TrimEnd("1 2") == "1 2";
    assert "1 2"[1] == ' ';
  }

  /** Parsing reads back any 32-bit integer its decimal rendering shows. */
  lemma ParseIntRoundTrip(x: int)
    requires IsInt32(x)
    ensures ParseInt(IntToString(x)) == Ok(x)
  {
    ParseIntReadsRendering(x);
  }

  /** The decimal rendering of any integer is well formed, so it parses to
      the integer or overflows. */
  lemma ParseIntReadsRendering(x: int)
    ensures ParseInt(IntToString(x)) == if IsInt32(x) then Ok(x) else Err(Overflow)
  {
    var s := IntToString(x);
    var m: nat := if x < 0 then -x else x;
    var d := NatToString(m);
    assert AllDigits(d);
    if x < 0 {
      assert s == "-" + d && s[0] == '-' && s[1..] == d;
      assert s[|s| - 1] == d[|d| - 1];
    } else {
      assert s == d;
    }
    assert TrimEnd(TrimStart(s)) == s;
    assert NumberDigits(s) == d && WellFormedNumber(s);
    NatToStringValue(m);
  }

  // -----------------------------------------------------------------------
  // Cell value, format and style
  // -----------------------------------------------------------------------

  /** GetCellValue: no value gives the empty string, a value of any type but
      shared string is returned as it is, and a shared-string value is an
      index into the shared string table. */
  function GetCellValue(book: Workbook, cell: Cell): (r: Result<string>)
    ensures cell.value.None? ==> r == Ok("")
    ensures cell.value.Some? && !cell.dataType.SharedStringType? ==> r == Ok(cell.value.value)
  {
    match cell.value
    case None => Ok("")
    case Some(v) =>
      if !cell.dataType.SharedStringType? then Ok(v)
      else if book.sharedStrings.None? then Err(NullReference)
      else
        var index :- ParseInt(v);
        ElementAt(book.sharedStrings.value, index)
  }

  /** A shared-string cell holding the decimal index of a table entry reads
      as that entry. */
  lemma SharedStringCellReadsEntry(book: Workbook, index: nat, styleIndex: Option<nat>)
    requires book.sharedStrings.Some? && index < |book.sharedStrings.value| && index <= Int32Max
    ensures GetCellValue(book, Cell(Some(NatToString(index)), SharedStringType, styleIndex))
            == Ok(book.sharedStrings.value[index])
  {
    ParseIntRoundTrip(index);
  }

  /** GetCellFormat: the style index is cast to int, and indexes the cell
      formats when there are a style sheet and a cell format list. */
  function GetCellFormat(book: Workbook, cell: Cell): (r: Result<Option<CellFormat>>)
    ensures cell.styleIndex.None? || book.stylesheet.None? ==> r == Ok(None)
    ensures r.Ok? && r.value.Some? ==>
              cell.styleIndex.Some? && book.stylesheet.Some? && book.stylesheet.value.cellFormats.Some? &&
              var formats := book.stylesheet.value.cellFormats.value;
              0 <= Wrap32(cell.styleIndex.value) < |formats| && r.value.value == formats[Wrap32(cell.styleIndex.value)]
  {
    if cell.styleIndex.None? then Ok(None)
    else
      var index := Wrap32(cell.styleIndex.value);
      if book.stylesheet.None? then Ok(None)
      else if book.stylesheet.value.cellFormats.None? then Ok(None)
      else
        var f :- ElementAt(book.stylesheet.value.cellFormats.value, index);
        Ok(Some(f))
  }

  /** `Rgb?.Value?.Substring(2)`: drops the alpha byte of an ARGB colour; a
      value shorter than two characters throws. */
  function StripAlpha(rgb: Option<string>): (r: Result<Option<string>>)
    ensures rgb.None? ==> r == Ok(None)
  {
    match rgb
    case None => Ok(None)
    case Some(s) => if |s| < 2 then Err(ArgumentOutOfRange) else Ok(Some(s[2..]))
  }

  /** Stripping gives back the RGB part of any alpha-prefixed colour. */
  lemma StripAlphaRoundTrip(alpha: string, rgb: string)
    requires |alpha| == 2
    ensures StripAlpha(Some(alpha + rgb)) == Ok(Some(rgb))
  {
    assert (alpha + rgb)[2..] == rgb;
  }

  /** The background: the pattern's foreground colour if it has one, else
      its background colour. */
  function FillColor(fill: Fill): Result<Option<string>> {
    match fill.patternFill
    case None => Ok(None)
    case Some(p) =>
      if p.foreground.Some? then StripAlpha(p.foreground.value.rgb)
      else if p.background.Some? then StripAlpha(p.background.value.rgb)
      else Ok(None)
  }

  /** `(int)FontSize.Val.Value`, 0 without a size element; a size element
      without a value throws. */
  function FontSizeOf(font: Font): Result<int> {
    match font.size
    case None => Ok(0)
    case Some(None) => Err(NullReference)
    case Some(Some(v)) => Ok(v)
  }

  /** GetCellStyle: the fill and font a format points at, each looked up
      only when the format names it and the style sheet has the list. */
  function GetCellStyle(stylesheet: Option<Stylesheet>, format: Option<CellFormat>): (r: Result<CellStyle>)
    ensures format.None? || stylesheet.None? ==> r == Ok(NoStyle)
    ensures r.Ok? && (format.None? || format.value.fillId.None? || stylesheet.None? || stylesheet.value.fills.None?)
            ==> r.value.background.None?
    ensures r.Ok? && (format.None? || format.value.fontId.None? || stylesheet.None? || stylesheet.value.fonts.None?)
            ==> r.value.(background := None) == NoStyle
  {
    if format.None? || stylesheet.None? then Ok(NoStyle)
    else
      var f := format.value;
      var sheet := stylesheet.value;
      var background :-
        if f.fillId.Some? && sheet.fills.Some? then
          var fill :- ElementAt(sheet.fills.value, Wrap32(f.fillId.value));
          FillColor(fill)
        else Ok(None);
      if f.fontId.Some? && sheet.fonts.Some? then
        var font :- ElementAt(sheet.fonts.value, Wrap32(f.fontId.value));
        var size :- FontSizeOf(font);
        var color :- if font.color.Some? then StripAlpha(font.color.value.rgb) else Ok(None);
        Ok(CellStyle(background, font.name, size, font.bold, font.italic, color))
      else Ok(NoStyle.(background := background))
  }

  /** With a format and a style sheet, the background comes from the
      format's fill: its pattern's foreground colour when it has one, else
      its background colour, with the alpha byte dropped. */
  lemma CellStyleReadsFill(sheet: Stylesheet, f: CellFormat)
    requires GetCellStyle(Some(sheet), Some(f)).Ok?
    requires f.fillId.Some? && sheet.fills.Some?
    ensures 0 <= Wrap32(f.fillId.value) < |sheet.fills.value|
    ensures var st := GetCellStyle(Some(sheet), Some(f)).value;
            var p := sheet.fills.value[Wrap32(f.fillId.value)].patternFill;
            (p.Some? && p.value.foreground.Some? ==> StripAlpha(p.value.foreground.value.rgb) == Ok(st.background))
            && (p.Some? && p.value.foreground.None? && p.value.background.Some? ==>
                  StripAlpha(p.value.background.value.rgb) == Ok(st.background))
            && (p.None? || (p.value.foreground.None? && p.value.background.None?) ==> st.background.None?)
  {
  }

  /** With a format and a style sheet, the name, size, bold, italic and
      colour come from the format's font, the colour with its alpha byte
      dropped. */
  lemma CellStyleReadsFont(sheet: Stylesheet, f: CellFormat)
    requires GetCellStyle(Some(sheet), Some(f)).Ok?
    requires f.fontId.Some? && sheet.fonts.Some?
    ensures 0 <= Wrap32(f.fontId.value) < |sheet.fonts.value|
    ensures var st := GetCellStyle(Some(sheet), Some(f)).value;
            var font := sheet.fonts.value[Wrap32(f.fontId.value)];
            st.fontName == font.name && FontSizeOf(font) == Ok(st.fontSize)
            && st.bold == font.bold && st.italic == font.italic
            && (font.color.Some? ==> StripAlpha(font.color.value.rgb) == Ok(st.fontColor))
            && (font.color.None? ==> st.fontColor.None?)
  {
  }

  /** A fill or font index outside its list throws, as ElementAt does. */
  lemma CellStyleFailsOutsideLists(sheet: Stylesheet, f: CellFormat)
    ensures f.fillId.Some? && sheet.fills.Some? && !(0 <= Wrap32(f.fillId.value) < |sheet.fills.value|)
            ==> GetCellStyle(Some(sheet), Some(f)) == Err(ArgumentOutOfRange)
    ensures f.fontId.Some? && sheet.fonts.Some? && !(0 <= Wrap32(f.fontId.value) < |sheet.fonts.value|)
            ==> GetCellStyle(Some(sheet), Some(f)).Err?
  {
  }

  /** A concrete style: a fill whose pattern has both colours takes the
      foreground one, and the font's colour loses its alpha byte. */
  lemma CellStyleExample()
    ensures var fill := Fill(Some(PatternFill(Some(ColorRef(Some("FF112233"))), Some(ColorRef(Some("FF445566"))))));
            var font := Font(Some("Arial"), Some(Some(11)), true, false, Some(ColorRef(Some("FFAABBCC"))));
            GetCellStyle(Some(Stylesheet(None, Some([fill]), Some([font]))), Some(CellFormat(Some(0), Some(0))))
              == Ok(CellStyle(Some("112233"), Some("Arial"), 11, true, false, Some("AABBCC")))
  {
  }

  // -----------------------------------------------------------------------
  // The table
  // -----------------------------------------------------------------------

  const Sides: seq<BorderSide> := [TopSide, BottomSide, LeftSide, RightSide, InsideHorizontal, InsideVertical]

  /** Single borders of size 4 on every side and between all cells. */
  function BordersNode(): Node {
    Node(TableProperties, [Node(TableBorders,
      seq(|Sides|, k requires 0 <= k < |Sides| => Node(Border(Sides[k], "single", 4), [])))])
  }

  /** Run properties in the order the cell style's parts are appended;
      Word's font size is in half points, computed in wrapping int
      arithmetic. */
  function RunPropertiesOf(st: CellStyle): seq<Node> {
    FontsPart(st) + SizePart(st) + BoldPart(st) + ItalicPart(st) + ColorPart(st)
  }

  function FontsPart(st: CellStyle): seq<Node> {
    if IsNullOrEmpty(st.fontName) then [] else [Node(RunFonts(st.fontName.value, st.fontName.value), [])]
  }

  function SizePart(st: CellStyle): seq<Node> {
    if st.fontSize > 0 then [Node(FontSize(IntToString(Wrap32(st.fontSize * 2))), [])] else []
  }

  function BoldPart(st: CellStyle): seq<Node> {
    if st.bold then [Node(Bold, [])] else []
  }

  function ItalicPart(st: CellStyle): seq<Node> {
    if st.italic then [Node(Italic, [])] else []
  }

  function ColorPart(st: CellStyle): seq<Node> {
    if IsNullOrEmpty(st.fontColor) then [] else [Node(Color(st.fontColor.value), [])]
  }

  function ShadingOf(background: Option<string>): seq<Node> {
    if IsNullOrEmpty(background) then [] else [Node(Shading("clear", "auto", background.value), [])]
  }

  function CellNode(value: string, st: CellStyle): Node {
    Node(TableCell, [
      Node(TableCellProperties, ShadingOf(st.background)),
      Node(Paragraph, [Node(Run, [Node(RunProperties, RunPropertiesOf(st)), Node(Text(value, true), [])])])])
  }

  function ConvertCell(book: Workbook, cell: Cell): Result<Node> {
    var value :- GetCellValue(book, cell);
    var format :- GetCellFormat(book, cell);
    var st :- GetCellStyle(book.stylesheet, format);
    Ok(CellNode(value, st))
  }

  /** The loop over a row's cells; the first failing cell aborts. */
  function ConvertCells(book: Workbook, cells: seq<Cell>): (r: Result<seq<Node>>)
    ensures r.Ok? ==> |r.value| == |cells|
    decreases |cells|
  {
    if cells == [] then Ok([])
    else
      var first :- ConvertCell(book, cells[0]);
      var rest :- ConvertCells(book, cells[1..]);
      Ok([first] + rest)
  }

  function ConvertRows(book: Workbook, rows: seq<Row>): (r: Result<seq<Node>>)
    ensures r.Ok? ==> |r.value| == |rows|
    decreases |rows|
  {
    if rows == [] then Ok([])
    else
      var cells :- ConvertCells(book, rows[0].cells);
      var rest :- ConvertRows(book, rows[1..]);
      Ok([Node(TableRow, cells)] + rest)
  }

  /** The rows of the first sheet: a missing sheet list throws on access, an
      empty one on `First()`, an unknown relationship id on `GetPartById`. */
  function FirstSheetRows(book: Workbook): Result<seq<Row>> {
    if book.sheets.None? then Err(NullReference)
    else if book.sheets.value == [] then Err(InvalidOperation)
    else if book.sheets.value[0] !in book.worksheets then Err(ArgumentOutOfRange)
    else Ok(book.worksheets[book.sheets.value[0]])
  }

  /** ConvertExcelToWordTable on an opened package; `None` is a package
      without a workbook part. */
  function ConvertExcelToWordTable(book: Option<Workbook>): Result<Node> {
    if book.None? then Err(NullReference)
    else
      var rows :- FirstSheetRows(book.value);
      var tableRows :- ConvertRows(book.value, rows);
      Ok(Node(Table, [BordersNode()] + tableRows))
  }

  // -----------------------------------------------------------------------
  // Properties
  // -----------------------------------------------------------------------

  /** A converted cell reads as the cell's value: neither the properties nor
      the shading contribute text. */
  lemma CellNodeText(value: string, st: CellStyle)
    ensures InnerText(CellNode(value, st)) == value
  {
    NoTextInProperties(RunPropertiesOf(st));
    NoTextInProperties(ShadingOf(st.background));
    CellTextAroundProperties(value, RunPropertiesOf(st), ShadingOf(st.background));
  }

  /** The cell's shape, with text-free properties and shading, reads as its
      text element alone. */
  lemma CellTextAroundProperties(value: string, props: seq<Node>, shading: seq<Node>)
    requires ConcatText(props) == "" && ConcatText(shading) == ""
    ensures InnerText(Node(TableCell, [
              Node(TableCellProperties, shading),
              Node(Paragraph, [Node(Run, [Node(RunProperties, props), Node(Text(value, true), [])])])])) == value
  {
    var t := Node(Text(value, true), []);
    var rp := Node(RunProperties, props);
    assert ConcatText([rp, t]) == InnerText(rp) + ConcatText([t]);
    assert ConcatText([t]) == InnerText(t) + ConcatText([]);
    var run := Node(Run, [rp, t]);
    assert ConcatText([run]) == InnerText(run) + ConcatText([]);
    var para := Node(Paragraph, [run]);
    var cp := Node(TableCellProperties, shading);
    assert ConcatText([cp, para]) == InnerText(cp) + ConcatText([para]);
    assert ConcatText([para]) == InnerText(para) + ConcatText([]);
  }

  lemma {:induction false} NoTextInProperties(ns: seq<Node>)
    requires forall k :: 0 <= k < |ns| ==> !ns[k].tag.Text? && ns[k].children == []
    ensures ConcatText(ns) == ""
    decreases |ns|
  {
    if ns != [] {
      NoTextInProperties(ns[1..]);
    }
  }

  /** Where a run property kind stands in the order the style's parts are
      appended: fonts, size, bold, italic, colour. */
  function PropertyRank(t: Tag): nat {
    match t
    case RunFonts(_, _) => 0
    case FontSize(_) => 1
    case Bold => 2
    case Italic => 3
    case Color(_) => 4
    case _ => 5
  }

  predicate RanksIncrease(ps: seq<Node>) {
    forall i, j :: 0 <= i < j < |ps| ==> PropertyRank(ps[i].tag) < PropertyRank(ps[j].tag)
  }

  /** Appending at most one childless element of rank `rank` to properties
      of lower ranks keeps the ranks increasing. */
  lemma AppendRanked(ps: seq<Node>, opt: seq<Node>, rank: nat)
    requires RanksIncrease(ps) && forall k :: 0 <= k < |ps| ==> PropertyRank(ps[k].tag) < rank && ps[k].children == []
    requires |opt| <= 1 && forall k :: 0 <= k < |opt| ==> PropertyRank(opt[k].tag) == rank && opt[k].children == []
    ensures RanksIncrease(ps + opt)
    ensures forall k :: 0 <= k < |ps + opt| ==> PropertyRank((ps + opt)[k].tag) <= rank && (ps + opt)[k].children == []
  {
    var r := ps + opt;
    assert forall k :: 0 <= k < |ps| ==> r[k] == ps[k];
    assert forall k :: |ps| <= k < |r| ==> r[k] == opt[k - |ps|];
  }

  /** An optional childless element of the given rank. */
  predicate OptionalOfRank(opt: seq<Node>, rank: nat) {
    |opt| <= 1 && forall k :: 0 <= k < |opt| ==> PropertyRank(opt[k].tag) == rank && opt[k].children == []
  }

  lemma FivePartsOrdered(a: seq<Node>, b: seq<Node>, c: seq<Node>, d: seq<Node>, e: seq<Node>)
    requires OptionalOfRank(a, 0) && OptionalOfRank(b, 1) && OptionalOfRank(c, 2)
    requires OptionalOfRank(d, 3) && OptionalOfRank(e, 4)
    ensures var ps := a + b + c + d + e;
            (forall k :: 0 <= k < |ps| ==> PropertyRank(ps[k].tag) < 5 && ps[k].children == [])
            && RanksIncrease(ps)
  {
    AppendRanked([], a, 0);
    assert [] + a == a;
    AppendRanked(a, b, 1);
    AppendRanked(a + b, c, 2);
    AppendRanked(a + b + c, d, 3);
    AppendRanked(a + b + c + d, e, 4);
  }

  /** The run properties are childless elements of the five kinds, in the
      order fonts, size, bold, italic, colour, each kind at most once. */
  lemma RunPropertiesOrdered(st: CellStyle)
    ensures var ps := RunPropertiesOf(st);
            (forall k :: 0 <= k < |ps| ==> PropertyRank(ps[k].tag) < 5 && ps[k].children == [])
            && RanksIncrease(ps)
  {
    PartsAreRanked(st);
    FivePartsOrdered(FontsPart(st), SizePart(st), BoldPart(st), ItalicPart(st), ColorPart(st));
  }

  lemma PartsAreRanked(st: CellStyle)
    ensures OptionalOfRank(FontsPart(st), 0) && OptionalOfRank(SizePart(st), 1) && OptionalOfRank(BoldPart(st), 2)
    ensures OptionalOfRank(ItalicPart(st), 3) && OptionalOfRank(ColorPart(st), 4)
  {
  }

  /** Bold and italic show in the run properties exactly when the style has
      them. */
  lemma RunPropertiesReflectEmphasis(st: CellStyle)
    ensures var ps := RunPropertiesOf(st);
            ((exists k :: 0 <= k < |ps| && ps[k].tag.Bold?) <==> st.bold)
            && ((exists k :: 0 <= k < |ps| && ps[k].tag.Italic?) <==> st.italic)
  {
    var ps := RunPropertiesOf(st);
    var a := if IsNullOrEmpty(st.fontName) then 0 else 1;
    var b := if st.fontSize > 0 then 1 else 0;
    var c := if st.bold then 1 else 0;
    if st.bold { assert ps[a + b].tag.Bold?; }
    if st.italic { assert ps[a + b + c].tag.Italic?; }
  }

  /** The font name shows in the run properties exactly when the style has
      a non-empty one, for both character ranges. */
  lemma RunPropertiesReflectFontName(st: CellStyle)
    ensures var ps := RunPropertiesOf(st);
            ((exists k :: 0 <= k < |ps| && ps[k].tag.RunFonts?) <==> !IsNullOrEmpty(st.fontName))
            && (forall k :: 0 <= k < |ps| && ps[k].tag.RunFonts? ==>
                  Some(ps[k].tag.ascii) == Some(ps[k].tag.highAnsi) == st.fontName)
  {
    if !IsNullOrEmpty(st.fontName) { assert RunPropertiesOf(st)[0].tag.RunFonts?; }
  }

  /** The size shows exactly when it is positive, as its doubled value. */
  lemma RunPropertiesReflectFontSize(st: CellStyle)
    ensures var ps := RunPropertiesOf(st);
            ((exists k :: 0 <= k < |ps| && ps[k].tag.FontSize?) <==> st.fontSize > 0)
            && (forall k :: 0 <= k < |ps| && ps[k].tag.FontSize? ==>
                  ps[k].tag.halfPoints == IntToString(Wrap32(st.fontSize * 2)))
  {
    var a := if IsNullOrEmpty(st.fontName) then 0 else 1;
    if st.fontSize > 0 { assert RunPropertiesOf(st)[a].tag.FontSize?; }
  }

  /** The colour shows exactly when the style has a non-empty one. */
  lemma RunPropertiesReflectFontColor(st: CellStyle)
    ensures var ps := RunPropertiesOf(st);
            ((exists k :: 0 <= k < |ps| && ps[k].tag.Color?) <==> !IsNullOrEmpty(st.fontColor))
            && (forall k :: 0 <= k < |ps| && ps[k].tag.Color? ==> Some(ps[k].tag.rgb) == st.fontColor)
  {
    var ps := RunPropertiesOf(st);
    if !IsNullOrEmpty(st.fontColor) { assert ps[|ps| - 1].tag.Color?; }
  }

  /** The cells of a row convert one by one: the row fails exactly when one
      of its cells does, and otherwise holds the converted cells in order. */
  lemma {:induction false} ConvertCellsPointwise(book: Workbook, cells: seq<Cell>)
    ensures ConvertCells(book, cells).Ok? <==> forall j :: 0 <= j < |cells| ==> ConvertCell(book, cells[j]).Ok?
    ensures ConvertCells(book, cells).Ok? ==>
              forall j :: 0 <= j < |cells| ==> ConvertCells(book, cells).value[j] == ConvertCell(book, cells[j]).value
    decreases |cells|
  {
    if cells != [] {
      ConvertCellsPointwise(book, cells[1..]);
      assert forall j :: 1 <= j < |cells| ==> cells[j] == cells[1..][j - 1];
    }
  }

  lemma {:induction false} ConvertRowsPointwise(book: Workbook, rows: seq<Row>)
    ensures ConvertRows(book, rows).Ok? <==> forall k :: 0 <= k < |rows| ==> ConvertCells(book, rows[k].cells).Ok?
    ensures ConvertRows(book, rows).Ok? ==>
              forall k :: 0 <= k < |rows| ==>
                ConvertRows(book, rows).value[k] == Node(TableRow, ConvertCells(book, rows[k].cells).value)
    decreases |rows|
  {
    if rows != [] {
      ConvertRowsPointwise(book, rows[1..]);
      assert forall k :: 1 <= k < |rows| ==> rows[k] == rows[1..][k - 1];
    }
  }

  /** A converted row holds one table cell per spreadsheet cell, each
      showing that cell's value. */
  lemma RowMirrorsCells(book: Workbook, cells: seq<Cell>)
    requires ConvertCells(book, cells).Ok?
    ensures var ns := ConvertCells(book, cells).value;
            |ns| == |cells|
            && forall j :: 0 <= j < |cells| ==>
                 ns[j].tag == TableCell && GetCellValue(book, cells[j]) == Ok(InnerText(ns[j]))
  {
    ConvertCellsPointwise(book, cells);
    forall j | 0 <= j < |cells|
      ensures var n := ConvertCells(book, cells).value[j];
              n.tag == TableCell && GetCellValue(book, cells[j]) == Ok(InnerText(n))
    {
      var cell := cells[j];
      var value := GetCellValue(book, cell).value;
      var st := GetCellStyle(book.stylesheet, GetCellFormat(book, cell).value).value;
      CellNodeText(value, st);
    }
  }

  /** The table is the border properties followed by one row per
      spreadsheet row, each with one cell per spreadsheet cell whose text is
      the cell's value. */
  lemma TableMirrorsSheet(book: Workbook)
    requires ConvertExcelToWordTable(Some(book)).Ok?
    ensures var t := ConvertExcelToWordTable(Some(book)).value;
            var rows := FirstSheetRows(book).value;
            t.tag == Table && |t.children| == |rows| + 1 && t.children[0] == BordersNode()
            && forall k :: 0 <= k < |rows| ==>
                 t.children[k + 1].tag == TableRow
                 && |t.children[k + 1].children| == |rows[k].cells|
                 && forall j :: 0 <= j < |rows[k].cells| ==>
                      t.children[k + 1].children[j].tag == TableCell
                      && GetCellValue(book, rows[k].cells[j]) == Ok(InnerText(t.children[k + 1].children[j]))
  {
    var rows := FirstSheetRows(book).value;
    ConvertRowsPointwise(book, rows);
    forall k | 0 <= k < |rows|
      ensures ConvertCells(book, rows[k].cells).Ok?
      ensures var ns := ConvertCells(book, rows[k].cells).value;
              |ns| == |rows[k].cells|
              && forall j :: 0 <= j < |rows[k].cells| ==>
                   ns[j].tag == TableCell && GetCellValue(book, rows[k].cells[j]) == Ok(InnerText(ns[j]))
    {
      RowMirrorsCells(book, rows[k].cells);
    }
  }

  /** The conversion fails exactly when the first sheet cannot be reached or
      one of its cells cannot be converted. */
  lemma ConversionFailsOnlyOnABadCell(book: Workbook)
    requires FirstSheetRows(book).Ok?
    ensures var rows := FirstSheetRows(book).value;
            ConvertExcelToWordTable(Some(book)).Ok? <==>
              forall k, j :: 0 <= k < |rows| && 0 <= j < |rows[k].cells| ==> ConvertCell(book, rows[k].cells[j]).Ok?
  {
    var rows := FirstSheetRows(book).value;
    ConvertRowsPointwise(book, rows);
    forall k | 0 <= k < |rows| {
      ConvertCellsPointwise(book, rows[k].cells);
    }
  }
}

=== FILE: styles.dfy ===
/** The style catalogue merge: every style of the inserted document replaces
    the first main style with the same id and is appended at the end; the
    theme is replaced wholesale. */
module Styles {
  import opened Basics
  import opened Documents

  datatype Style = Style(styleId: Option<string>, definition: string)

  /** The style part (its root holds the styles in order) and the theme part. */
  datatype StyleCatalogue = StyleCatalogue(styles: PartState<seq<Style>>, theme: Option<Bytes>)

  /** Index of the first style with the given id (`FirstOrDefault`). */
  function FirstWithId(ss: seq<Style>, id: Option<string>): (r: Option<nat>)
    ensures r.Some? ==> r.value < |ss| && ss[r.value].styleId == id
                        && forall k :: 0 <= k < r.value ==> ss[k].styleId != id
    ensures r.None? ==> forall k :: 0 <= k < |ss| ==> ss[k].styleId != id
    decreases |ss|
  {
    if ss == [] then None
    else if ss[0].styleId == id then Some(0)
    else
      var r := FirstWithId(ss[1..], id);
      if r.None? then
        assert forall k :: 1 <= k < |ss| ==> ss[k] == ss[1..][k - 1];
        None
      else
        assert forall k :: 1 <= k <= r.value ==> ss[k] == ss[1..][k - 1];
        Some(r.value + 1)
  }

  /** `existing?.Remove()`. */
  function RemoveFirstWithId(ss: seq<Style>, id: Option<string>): (r: seq<Style>)
    ensures FirstWithId(ss, id).None? ==> r == ss
    ensures FirstWithId(ss, id).Some? ==>
              var j := FirstWithId(ss, id).value; r == ss[..j] + ss[j + 1..]
  {
    match FirstWithId(ss, id)
    case None => ss
    case Some(j) => ss[..j] + ss[j + 1..]
  }

  /** One step of the loop: drop the first namesake, append the clone. */
  function ReplaceStyle(ss: seq<Style>, s: Style): seq<Style> {
    RemoveFirstWithId(ss, s.styleId) + [s]
  }

  /** The loop over the inserted styles, in order. */
  function MergeStyleList(main: seq<Style>, inserted: seq<Style>): seq<Style>
    decreases |inserted|
  {
    if inserted == [] then main else MergeStyleList(ReplaceStyle(main, inserted[0]), inserted[1..])
  }

  /** CopyStyles, null-tolerant revision. A missing main style part is added
      first (even when nothing is copied); a main part without a root gets a
      new one; an inserted part without a root copies no style but still
      copies the theme. */
  function CopyStyles(main: StyleCatalogue, insert: StyleCatalogue): (r: StyleCatalogue)
    ensures insert.styles.NoPart? ==>
              r.theme == main.theme && r.styles == (if main.styles.NoPart? then EmptyPart else main.styles)
    ensures !insert.styles.NoPart? ==> r.styles.Rooted?
    ensures !insert.styles.NoPart? && insert.theme.Some? ==> r.theme == insert.theme
    ensures !insert.styles.NoPart? && insert.theme.None? ==> r.theme == main.theme
  {
    var mainPart := if main.styles.NoPart? then EmptyPart else main.styles;
    if insert.styles.NoPart? then StyleCatalogue(mainPart, main.theme)
    else
      var mainStyles := if mainPart.Rooted? then mainPart.root else [];
      var inserted := if insert.styles.Rooted? then insert.styles.root else [];
      var theme := if insert.theme.Some? then insert.theme else main.theme;
      StyleCatalogue(Rooted(MergeStyleList(mainStyles, inserted)), theme)
  }

  /** CopyStyles, strict revision: an inserted style part without a root is
      dereferenced. */
  function StrictCopyStyles(main: StyleCatalogue, insert: StyleCatalogue): Result<StyleCatalogue> {
    var mainPart := if main.styles.NoPart? then EmptyPart else main.styles;
    if insert.styles.NoPart? then Ok(StyleCatalogue(mainPart, main.theme))
    else if insert.styles.EmptyPart? then Err(NullReference)
    else
      var mainStyles := if mainPart.Rooted? then mainPart.root else [];
      var theme := if insert.theme.Some? then insert.theme else main.theme;
      Ok(StyleCatalogue(Rooted(MergeStyleList(mainStyles, insert.styles.root)), theme))
  }

  /** The two revisions differ only on an inserted style part without a root. */
  lemma StrictCopyStylesAgrees(main: StyleCatalogue, insert: StyleCatalogue)
    ensures StrictCopyStyles(main, insert) ==
              if insert.styles.EmptyPart? then Err(NullReference) else Ok(CopyStyles(main, insert))
  {
  }

  // -----------------------------------------------------------------------
  // What the loop does to the list
  // -----------------------------------------------------------------------

  function Ids(ss: seq<Style>): (r: seq<Option<string>>)
    ensures |r| == |ss|
    ensures forall k :: 0 <= k < |ss| ==> r[k] == ss[k].styleId
  {
    seq(|ss|, k requires 0 <= k < |ss| => ss[k].styleId)
  }

  /** The styles whose ids are not in `ids`, in order. */
  function Unlisted(ss: seq<Style>, ids: set<Option<string>>): seq<Style>
    decreases |ss|
  {
    if ss == [] then []
    else (if ss[0].styleId in ids then [] else [ss[0]]) + Unlisted(ss[1..], ids)
  }

  lemma {:induction false} UnlistedAppend(a: seq<Style>, b: seq<Style>, ids: set<Option<string>>)
    ensures Unlisted(a + b, ids) == Unlisted(a, ids) + Unlisted(b, ids)
    decreases |a|
  {
    if a != [] {
      assert (a + b)[0] == a[0] && (a + b)[1..] == a[1..] + b;
      UnlistedAppend(a[1..], b, ids);
    } else {
      assert a + b == b;
    }
  }

  lemma RemovingListedKeepsUnlisted(ss: seq<Style>, id: Option<string>, ids: set<Option<string>>)
    requires id in ids
    ensures Unlisted(RemoveFirstWithId(ss, id), ids) == Unlisted(ss, ids)
  {
    match FirstWithId(ss, id)
    case None =>
    case Some(j) =>
      assert ss == ss[..j] + [ss[j]] + ss[j + 1..];
      UnlistedAppend(ss[..j] + [ss[j]], ss[j + 1..], ids);
      UnlistedAppend(ss[..j], [ss[j]], ids);
      UnlistedAppend(ss[..j], ss[j + 1..], ids);
      assert Unlisted([ss[j]], ids) == [] + Unlisted([], ids);
  }

  /** Main styles whose ids are never inserted survive the merge, in their
      original relative order, and nothing else with such an id appears. */
  lemma {:induction false} MergeKeepsUnlisted(main: seq<Style>, inserted: seq<Style>, ids: set<Option<string>>)
    requires forall k :: 0 <= k < |inserted| ==> inserted[k].styleId in ids
    ensures Unlisted(MergeStyleList(main, inserted), ids) == Unlisted(main, ids)
    decreases |inserted|
  {
    if inserted != [] {
      var s := inserted[0];
      RemovingListedKeepsUnlisted(main, s.styleId, ids);
      UnlistedAppend(RemoveFirstWithId(main, s.styleId), [s], ids);
      assert Unlisted([s], ids) == [] + Unlisted([], ids);
      MergeKeepsUnlisted(ReplaceStyle(main, s), inserted[1..], ids);
    }
  }

  /** The main styles left after each inserted id has removed its first
      namesake. */
  function Survivors(main: seq<Style>, inserted: seq<Style>): seq<Style>
    decreases |inserted|
  {
    if inserted == [] then main else Survivors(RemoveFirstWithId(main, inserted[0].styleId), inserted[1..])
  }

  lemma RemoveFirstSkipsSuffix(p: seq<Style>, q: seq<Style>, id: Option<string>)
    requires forall k :: 0 <= k < |q| ==> q[k].styleId != id
    ensures RemoveFirstWithId(p + q, id) == RemoveFirstWithId(p, id) + q
  {
    if FirstWithId(p, id).None? {
      forall k | 0 <= k < |p + q| ensures (p + q)[k].styleId != id {
        if k < |p| { assert (p + q)[k] == p[k]; } else { assert (p + q)[k] == q[k - |p|]; }
      }
    } else {
      var j := FirstWithId(p, id).value;
      assert (p + q)[j] == p[j];
      forall k | 0 <= k < j ensures (p + q)[k].styleId != id {
        assert (p + q)[k] == p[k];
      }
      assert FirstWithId(p + q, id) == Some(j);
      assert (p + q)[..j] == p[..j];
      assert (p + q)[j + 1..] == p[j + 1..] + q;
    }
  }

  /** With distinct ids among the inserted styles, the merged list is the
      surviving main styles followed by the inserted styles in order. */
  lemma {:induction false} MergeIsSurvivorsThenInserted(pre: seq<Style>, done: seq<Style>, rest: seq<Style>)
    requires Distinct(Ids(done + rest))
    ensures MergeStyleList(pre + done, rest) == Survivors(pre, rest) + done + rest
    decreases |rest|
  {
    if rest == [] {
      assert done + rest == done;
    } else {
      var s := rest[0];
      forall k | 0 <= k < |done| ensures done[k].styleId != s.styleId {
        assert (done + rest)[k] == done[k] && (done + rest)[|done|] == s;
      }
      RemoveFirstSkipsSuffix(pre, done, s.styleId);
      var pre' := RemoveFirstWithId(pre, s.styleId);
      assert ReplaceStyle(pre + done, s) == pre' + (done + [s]);
      assert Ids((done + [s]) + rest[1..]) == Ids(done + rest) by {
        assert (done + [s]) + rest[1..] == done + rest;
      }
      MergeIsSurvivorsThenInserted(pre', done + [s], rest[1..]);
      assert (done + [s]) + rest[1..] == done + rest;
    }
  }

  lemma MergeOfDistinctInserted(main: seq<Style>, inserted: seq<Style>)
    requires Distinct(Ids(inserted))
    ensures MergeStyleList(main, inserted) == Survivors(main, inserted) + inserted
  {
    var none: seq<Style> := [];
    assert none + inserted == inserted;
    assert main + none == main;
    MergeIsSurvivorsThenInserted(main, none, inserted);
  }

  function IdSet(ss: seq<Style>): set<Option<string>> {
    Elements(Ids(ss))
  }

  lemma IdsConcat(a: seq<Style>, b: seq<Style>)
    ensures Ids(a + b) == Ids(a) + Ids(b)
  {
    assert forall k :: 0 <= k < |a + b| ==> (a + b)[k] == if k < |a| then a[k] else b[k - |a|];
  }

  lemma RemoveFirstFromDistinct(ss: seq<Style>, id: Option<string>)
    requires Distinct(Ids(ss))
    ensures Distinct(Ids(RemoveFirstWithId(ss, id)))
    ensures IdSet(RemoveFirstWithId(ss, id)) == IdSet(ss) - {id}
  {
    match FirstWithId(ss, id)
    case None =>
      assert id !in Ids(ss);
    case Some(j) =>
      var ids := Ids(ss);
      IdsConcat(ss[..j], ss[j + 1..]);
      assert Ids(ss[..j]) == ids[..j] && Ids(ss[j + 1..]) == ids[j + 1..];
      DistinctRemove(ids, j);
  }

  lemma {:induction false} SurvivorsOfDistinct(main: seq<Style>, inserted: seq<Style>)
    requires Distinct(Ids(main))
    ensures Distinct(Ids(Survivors(main, inserted)))
    ensures IdSet(Survivors(main, inserted)) == IdSet(main) - IdSet(inserted)
    decreases |inserted|
  {
    if inserted != [] {
      RemoveFirstFromDistinct(main, inserted[0].styleId);
      SurvivorsOfDistinct(RemoveFirstWithId(main, inserted[0].styleId), inserted[1..]);
      var id := inserted[0].styleId;
      assert Ids(inserted) == [id] + Ids(inserted[1..]);
      ElementsConcat([id], Ids(inserted[1..]));
      assert IdSet(inserted) == {id} + IdSet(inserted[1..]);
    }
  }

  /** Merging two catalogues without duplicate ids gives one without
      duplicate ids: each inserted style took its namesake's place. */
  lemma MergeKeepsIdsDistinct(main: seq<Style>, inserted: seq<Style>)
    requires Distinct(Ids(main)) && Distinct(Ids(inserted))
    ensures Distinct(Ids(MergeStyleList(main, inserted)))
    ensures IdSet(MergeStyleList(main, inserted)) == IdSet(main) + IdSet(inserted)
  {
    MergeOfDistinctInserted(main, inserted);
    SurvivorsOfDistinct(main, inserted);
    var s := Survivors(main, inserted);
    assert MergeStyleList(main, inserted) == s + inserted;
    IdsConcat(s, inserted);
    forall x | x in Ids(s) ensures x !in Ids(inserted) {
      assert x in IdSet(s);
    }
    DistinctConcat(Ids(s), Ids(inserted));
    ElementsConcat(Ids(s), Ids(inserted));
  }

  /** With both style roots present, CopyStyles keeps every main style whose
      id is never inserted, in its order; with distinct inserted ids the
      result is the surviving main styles followed by the inserted ones; and
      two catalogues without duplicate ids merge into one without. */
  lemma CopyStylesSpec(main: StyleCatalogue, insert: StyleCatalogue)
    requires main.styles.Rooted? && insert.styles.Rooted?
    ensures var merged := CopyStyles(main, insert).styles.root;
            var ins := insert.styles.root;
            Unlisted(merged, IdSet(ins)) == Unlisted(main.styles.root, IdSet(ins))
            && (Distinct(Ids(ins)) ==> merged == Survivors(main.styles.root, ins) + ins)
            && (Distinct(Ids(main.styles.root)) && Distinct(Ids(ins)) ==>
                  Distinct(Ids(merged)) && IdSet(merged) == IdSet(main.styles.root) + IdSet(ins))
  {
    var ins := insert.styles.root;
    forall k | 0 <= k < |ins| ensures ins[k].styleId in IdSet(ins) {
      assert Ids(ins)[k] == ins[k].styleId;
    }
    MergeKeepsUnlisted(main.styles.root, ins, IdSet(ins));
    if Distinct(Ids(ins)) {
      MergeOfDistinctInserted(main.styles.root, ins);
      if Distinct(Ids(main.styles.root)) {
        MergeKeepsIdsDistinct(main.styles.root, ins);
      }
    }
  }
}
